=== FILE: README.md ===
# furiganamaker — a Dafny model of the furigana alignment engine

furiganamaker annotates Japanese text with furigana. Every token of the
pykakasi conversion of a text is cut into kanji runs and kana runs. The
token's hiragana and katakana readings are then aligned with those runs.
Each kanji run is matched kanji by kanji against a cache of candidate
readings. The result is written as `kanji` + open tag + reading + close tag.
Users can add readings for single kanji, which go into the cache. They can
also add readings for whole words, which become replacement text between the
custom-reading tags `<` and `>`. The engine leaves such custom parts alone,
and it also leaves URLs alone.

The model follows the modules of the program:

- `Base`: an optional value and string joining.
- `PyStr`: the Python string operations the engine relies on: `find`,
  `rfind`, slicing, `replace`, `lstrip` and `isspace`.
- `Utils`: `utils.py`.
- `InstanceData`: the static tables of `instancedata.py`.
- `Collab`: the collaborators. pykakasi, MeCab and jamdict are given as data
  and functions.
- `Segmenter`: `_split_kanji`, `_split_hiragana`, `_split_katakana` and
  `_fix_longvowels`.
- `Readings`: the reading cache, `_get_kanjireading` and `_addtocache`.
- `Resolver`: `_find_reading` and `Problem`.
- `Markup`: `_split_custreadtags` and `_split_urls`.
- `Annotator`: `_process_textpart` and `_process_text`.
- `Registration`: `KanjiReading`, `WordReading`, `add_kanjireadings` and
  `add_wordreadings` of `instance.py`.

The model is purely functional. The instance's mutable state is passed in
and returned:

- the reading cache is a `map<char, seq<Reading>>`;
- the custom-reading dictionary is a sequence of pairs in insertion order;
- the problem list is returned as a sequence.

A Python `assert` on the data being processed becomes a failed result. The
assertions that are not modelled are listed under "Left out": type and `None`
checks that Dafny's types make unnecessary, the length checks inside the kana
conversions, the shape of jamdict's entries and the presence of a kakasi
instance. Where the source has already reported problems or filled the cache
before a modelled assertion, the failure keeps them (`Annotator.Outcome`): the
caller's problem list and the instance's cache hold them after the exception.
The model assumes nothing of the collaborators: every contract holds for any
token stream, conversions and dictionary readings. A token whose hiragana and
katakana differ in length fails, as the assertion at instanceprv.py:511 does.

The token loop takes the kana splitters as a parameter (`Annotator.Splitters`):
`AsWritten` runs `_split_hiragana` and `_split_katakana` as the code is
written, and `Corrected` runs the definitions with the two findings below
fixed. Every contract of the token loop and of `_process_text` holds for both.

## Model

| member | source | states |
|---|---|---|
| Utils.KanaIsNotKanji | utils.py:20-30 | In the kana block only `ヶ` counts as kanji; the iteration mark `々` is kanji and the prolonged-sound mark `ー` is not |
| Utils.HasKanji | utils.py:33-43 | True exactly when some character of the text is a kanji |
| Utils.AllKanji | utils.py:46-56 | True exactly when every character of the text is a kanji |
| Utils.AllKanjiHasKanji | utils.py:33-56 | A non-empty all-kanji text has a kanji; the empty text is all kanji yet has none |
| InstanceData.AddGroupKeys | instancedata.py:35-37 | One vowel group adds exactly its glyphs to the table's keys |
| InstanceData.GroupAVowel | instancedata.py:27-38 | Every glyph of the ア group maps to ア in the finished table: no later group overwrites it |
| InstanceData.GroupIVowel | instancedata.py:27-38 | Every glyph of the イ group maps to イ in the finished table |
| InstanceData.GroupUVowel | instancedata.py:27-38 | Every glyph of the ウ group maps to ウ in the finished table |
| InstanceData.GroupEVowel | instancedata.py:27-38 | Every glyph of the エ group maps to エ in the finished table |
| InstanceData.GroupOVowel | instancedata.py:27-38 | Every glyph of the オ group maps to オ in the finished table |
| InstanceData.KatakanaVowelsKeys | instancedata.py:20-39 | The table's keys are exactly the glyphs listed in the five groups |
| InstanceData.KatakanaVowelsValues | instancedata.py:20-39 | Every value of the table is one of the five vowels |
| InstanceData.KatakanaVowelsFixed | instancedata.py:27-33 | Each vowel glyph maps to itself |
| InstanceData.MarkNotInTable | instancedata.py:20-39 | `ー` is neither a glyph of the vowel table nor one of its vowels |
| InstanceData.BaseHiraganaUnvoiced | instancedata.py:51-57 | No base form in the voiced-to-unvoiced table is itself voiced |
| InstanceData.BaseIdempotent | instancedata.py:51-57 | Taking the unvoiced base form twice is the same as taking it once |
| InstanceData.KanjiNumbersAreKanji | instancedata.py:60 | Every numeral glyph the engine checks for is classified as kanji |
| PyStr.FindFirst | instanceprv.py:429-433 | `find` returns the first occurrence at or after the start: there is none before it, and none at all when it returns -1 |
| PyStr.FindChar | instanceprv.py:429-433 | Finding one character returns -1 exactly when it is absent, and otherwise the index of its first occurrence |
| PyStr.RFind | instanceprv.py:304 | `rfind(t, 0, end)` returns an occurrence that ends by the normalised `end`, and there is no later such occurrence |
| PyStr.Slice | instanceprv.py:268 | A Python slice with bounds in range is the Dafny slice; an inverted range is empty |
| PyStr.ReplaceSameLength | instanceprv.py:410 | Replacing a pattern by one of the same length keeps the length, and each character either stays or becomes the matching replacement character |
| PyStr.ReplaceAbsent | instanceprv.py:591 | Replacing a pattern that never occurs leaves the text as it is |
| PyStr.LStrip | instanceprv.py:118 | `lstrip(c)` removes a prefix consisting only of `c`, and what remains does not start with `c` |
| Segmenter.SplitKanji | instanceprv.py:218-248 | The split is a decomposition of the word into non-empty, alternating, uniform runs; its first flag is the kind of the first character |
| Segmenter.FirstRun | instanceprv.py:228-240 | The first run is the longest prefix of one kind; it is the only run exactly when it covers the word |
| Segmenter.RunSplitUnique | instanceprv.py:218-248 | Two decompositions into non-empty, uniform, alternating runs are equal |
| Segmenter.SplitKanjiCharacterised | instanceprv.py:218-248 | A sequence is a run split of the word if and only if it is what `_split_kanji` returns |
| Segmenter.Locate | instanceprv.py:301-317 | A hit in the hiragana lies below the search limit, directly or through the unvoiced base of a single kana; otherwise a hit lies in the katakana; none exactly when the text occurs in neither |
| Segmenter.Place | instanceprv.py:301-326 | A placed run ends by the search limit and adds itself, plus a non-empty kanji reading exactly when the found text stops short of `end` |
| Segmenter.LoopEndsWith | instanceprv.py:293-326 | The loop only prepends: its result ends with what it started from, and its final `end` lies within the hiragana |
| Segmenter.SplitHiragana | instanceprv.py:276-343 | With the closing test as intended (a leading kanji segment exactly when the word starts with kanji or kana are left in front of the first placed run), a returned split passes the shape checks, its segments add up to the whole hiragana, and no kanji segment after the first is empty |
| Segmenter.SplitHiraganaAsWritten | instanceprv.py:328-341 | As written, a returned split passes the shape checks and adds up to the whole hiragana, and every word whose first run is kana is rejected by the shape checks |
| Segmenter.SplitHiraganaDiscrepancy | instanceprv.py:328-331 | For お茶 read おちゃ, the intended split is お / ちゃ, while the code as written fails its assertion |
| Segmenter.SplitHiraganaAsWrittenAgrees | instanceprv.py:328-341 | On a word that starts with kanji the code as written gives the intended split; on a word that starts with kana it fails |
| Segmenter.SplitHiraganaLeadingEmpty | instanceprv.py:328-331 | 日か月 read かつき is split into an empty leading kanji segment, か and つき, both as written and as intended |
| Segmenter.SplitHiraganaTori | instanceprv.py:276-343 | 取り扱い read とりあつかい is split into と, り, あつか and い, both as written and as intended |
| Segmenter.StepCount | instanceprv.py:335-341 | When the shape checks pass, a placed run follows at most one kanji run, and it adds a reading segment exactly when it follows one |
| Segmenter.LoopTiles | instanceprv.py:285-343 | Every alignment the loop completes that passes the shape checks tiles the whole hiragana, with no empty kanji reading |
| Segmenter.PlaceReads | instanceprv.py:301-326 | A placed kana run occurs at its position: in the hiragana (or, for a single kana, its unvoiced base does) or in the katakana. The kanji reading added after it is the text the run was found in, from the run's end on |
| Segmenter.LoopTiling | instanceprv.py:285-343 | Every alignment the loop completes that passes the shape checks reads the hiragana segment by segment: each segment sits where the ones before it end, a kanji segment is the hiragana or katakana there, and a kana segment is found there |
| Segmenter.SplitHiraganaReads | instanceprv.py:285-343 | In a returned split (as intended), segment `j` sits at the total length of the segments before it. A kanji segment is the hiragana or the katakana from there on; a kana segment occurs there in the hiragana, directly or through its unvoiced base, or in the katakana |
| Segmenter.SplitHiraganaAsWrittenReads | instanceprv.py:285-343 | The same for the split as written: segment `j` sits at the total length of the segments before it, and its text is read there from the hiragana or the katakana |
| Segmenter.SplitKatakana | instanceprv.py:250-274 | With offset slices, the split succeeds exactly when the lengths agree; it then spells out the katakana, segment by segment, with the same flags and lengths as the hiragana split |
| Segmenter.SplitKatakanaAsWritten | instanceprv.py:258-274 | As written, the split succeeds exactly when the lengths agree; segment `j` keeps the flag of hiragana segment `j` and takes the katakana from the length of segment `j - 1` (0 for the first) up to the length of segment `j` |
| Segmenter.SplitKatakanaDiscrepancy | instanceprv.py:264-270 | For お弁当 the code as written gives the kanji run ベント instead of ベントウ; the offset slice gives ベントウ |
| Segmenter.SplitKatakanaReachable | instanceprv.py:264-270 | On 取り扱い, which passes the hiragana split as written, the katakana split as written gives 扱 the slice リア (and り and い nothing); the offset slice gives リ, アツカ and イ |
| Segmenter.SplitKatakanaSingle | instanceprv.py:258-274 | A single segment gets the whole katakana with its flag, as written and as intended |
| Segmenter.FixLongVowels | instanceprv.py:390-414 | Keeps the length; a character changes only from a vowel to `ー`; the katakana is unchanged when the word has no `ー` or its first `ー` is at index 0 |
| Segmenter.FixLongVowelsRestores | instanceprv.py:398-412 | For every `ー` that follows a vowel glyph, when the word does not start with `ー`, the glyph followed by its doubled vowel no longer occurs in the result |
| Segmenter.FixLongVowelsExample | instanceprv.py:398-412 | ラーメン屋 read ラアメンヤ gets its prolonged sound back: ラーメンヤ |
| Readings.HasReadingKana | instanceprv.py:58-70 | True exactly when some reading is written with the given katakana |
| Readings.HasReadingHira | instanceprv.py:72-84 | True exactly when some reading is written with the given hiragana |
| Readings.Absorb | instanceprv.py:107-157 | A candidate loop keeps what was found before as a prefix and adds only candidates |
| Readings.AbsorbInOrder | instanceprv.py:107-157 | The loop appends exactly the candidates whose key is neither already found nor taken by an earlier candidate, in candidate order |
| Readings.AbsorbCovers | instanceprv.py:107-157 | After a candidate loop, the key of every candidate is present |
| Readings.AbsorbFresh | instanceprv.py:107-157 | A candidate loop never adds a reading whose key is already present |
| Readings.CutKun | instanceprv.py:118-122 | A jamdict kun reading loses its leading dashes and everything from the first dot: the kept prefix holds no dot, and where something is cut the first character cut is a dot |
| Readings.MecabCandidates | instanceprv.py:133-147 | The MeCab candidates are exactly the readings whose length differs from the whole word's katakana |
| Readings.MecabCandidatesAppend | instanceprv.py:133-147 | The candidates of a node list are those of its front followed by those of its back, so the nodes' order is kept |
| Readings.MergeStages | instanceprv.py:98-157 | The on, kun, MeCab and kakasi stages only ever append to the list |
| Readings.MergeKeepsOn | instanceprv.py:107-114 | Every jamdict on reading ends up among the readings, by its katakana |
| Readings.MergeKeepsKun | instanceprv.py:116-127 | Every cut-down kun reading ends up among the readings, by its hiragana |
| Readings.KunCandidatesAt | instanceprv.py:116-127 | Kun candidate `j` is kun reading `j` with its dashes stripped and cut at the dot, paired with its katakana |
| Readings.MergeKeepsMecab | instanceprv.py:133-143 | Every MeCab reading not as long as the word's katakana ends up among the readings, by its katakana |
| Readings.MergeKeepsKakasi | instanceprv.py:150-157 | Every kakasi token of the kanji ends up among the readings, by its katakana |
| Readings.MergeOrigin | instanceprv.py:98-157 | Every merged reading comes from one of the four sources |
| Readings.InsertSorted | instanceprv.py:384 | Inserting into a list sorted longest first keeps it sorted |
| Readings.SortDesc | instanceprv.py:384 | The result is sorted longest first, is a permutation of the input, and keeps the input order among readings of equal length (Python's stable sort) |
| Readings.AddToCache | instanceprv.py:377-388 | Stores the sorted permutation under the kanji, adds that one key, leaves every other entry alone, and keeps a sorted cache sorted |
| Readings.GetKanjiReading | instanceprv.py:86-159 | A cache hit returns the stored list and leaves the cache alone; a miss caches the sorted merge; either way the cache only grows and stays sorted |
| Resolver.FirstPrefix | instanceprv.py:196-202 | Returns the first reading, in stored order, whose katakana starts the remaining kana; none exactly when no reading does |
| Resolver.FirstPrefixLongest | instanceprv.py:379-386 | Over readings sorted longest first, the first match is a longest match |
| Resolver.StepJoin | instanceprv.py:197-201 | Consuming a matching reading keeps the consumed kana and the remaining kana together equal to the word's katakana |
| Resolver.FindReading | instanceprv.py:161-216 | A saying is refused with no report. On success there is one reading per kanji, their katakana spell the word's katakana, and nothing is reported. A failure reports exactly one problem unless the run is a numeral, and a numeral never reports a failed match. The cache only grows |
| Resolver.Consume | instanceprv.py:185-213 | Per-kanji loop: on success the readings spell the whole katakana; at most one problem, about one kanji or the whole run |
| Resolver.SuppressOnlyNoMatch | instanceprv.py:172-176 | Suppressing reports for a numeral changes only the reports: the outcome, readings and cache are those of the reported run, less its failed-match problems |
| Resolver.FindReadingGreedy | instanceprv.py:196-202 | On success, each kanji's reading is the first cached reading whose katakana starts the kana left at that point |
| Resolver.ConsumeGreedy | instanceprv.py:185-208 | The greedy choice holds for every kanji the loop consumes |
| Resolver.GreedyStep | instanceprv.py:196-202 | A greedy choice for the next kanji extends a greedy prefix |
| Resolver.GreedyKept | instanceprv.py:185-202 | Earlier greedy choices survive a larger cache and a longer choice list |
| Markup.SplitCustReadTags | instanceprv.py:416-452 | Fails exactly when some open tag has no close tag after it; otherwise returns a split at the tags |
| Markup.SplitTagsFrom | instanceprv.py:425-452 | The loop from any start: fails exactly when the rest has an unclosed open tag, and otherwise returns a tag split of the rest |
| Markup.TagSplitClosed | instanceprv.py:433-434 | A text that has a split at its tags closes every open tag |
| Markup.TagSplitUnique | instanceprv.py:416-452 | A text has at most one split at its tags |
| Markup.SplitCustReadTagsCharacterised | instanceprv.py:416-452 | A sequence is a split of the text at its tags if and only if the function returns it |
| Markup.ScanBackStops | instanceprv.py:470-472 | The start search stops at whitespace or before the text and passes over no whitespace |
| Markup.ScanForwardStops | instanceprv.py:475-477 | The end search stops at whitespace or at the end and passes over no whitespace |
| Markup.UrlCutAt | instanceprv.py:464-477 | No cut exactly when the text lacks `://`; otherwise the cut encloses the first marker |
| Markup.SplitUrls | instanceprv.py:455-490 | The parts' texts, concatenated, are unchanged |
| Markup.SplitUrlsAppend | instanceprv.py:455-490 | The loop works part by part: splitting two lists one after the other is splitting them together |
| Markup.SplitUrlsKeepsKept | instanceprv.py:457-462 | A kept part comes out unchanged, still kept, and in its place between what the parts before and after it become |
| Markup.SplitUrlTextFlat | instanceprv.py:479-486 | Cutting around URLs loses and adds no text |
| Markup.UrlCut | instanceprv.py:469-481 | The prefix holds no marker and is empty or ends in whitespace; the cut is a URL; the rest is empty or starts with whitespace |
| Markup.SplitUrlTextShape | instanceprv.py:464-488 | Plain parts hold no marker; kept parts are URLs, with plain parts on either side that meet them at whitespace or are empty |
| Markup.SplitUrlTextNoUrl | instanceprv.py:464-467 | A text without a marker stays one plain part |
| Markup.SplitUrlsNoUrl | instanceprv.py:457-467 | Parts whose plain texts hold no marker pass through unchanged |
| Markup.SplitUrlsShape | instanceprv.py:455-490 | Afterwards no plain part holds a marker, and every kept part was kept before or is a URL |
| Annotator.RubyEach | instanceprv.py:560-562 | Each kanji gets its own reading, and taking the readings out leaves the run |
| Annotator.AnnotateKanji | instanceprv.py:555-564 | A kanji run comes out as annotated pieces that spell the run. A katakana reading of at most one character gives the whole hiragana as one reading, without lookup, problems or cache change; a failed lookup falls back to the same single reading. Problems carry the user data; the cache only grows |
| Annotator.AnnotateRun | instanceprv.py:547-567 | A kana run is written as it is; a kanji run is all annotated, with the whole hiragana as its one reading when the katakana is at most one character or the lookup fails; either way the text is preserved |
| Annotator.AnnotateRunMatched | instanceprv.py:556-562 | On a successful match, kanji `j` gets the hiragana of reading `j`, and the readings' katakana spell the run's katakana |
| Annotator.AnnotateRuns | instanceprv.py:546-567 | Taking the readings out of the annotated runs gives back the word |
| Annotator.Align | instanceprv.py:530-541 | The kanji split of the token, with hiragana and katakana splits (by the chosen splitters) of the same length and the same flags |
| Annotator.AlignFails | instanceprv.py:531-541 | For a token with kanji, alignment fails exactly when the hiragana split of a multi-run word fails; the single-run assertion and the katakana split cannot fail. With the splitters as written, every word that starts with kana fails |
| Annotator.SingleRunIsKanji | instanceprv.py:538-539 | A word with a kanji that is one run is one kanji run |
| Annotator.TokenFailsAsWritten | instanceprv.py:328-341 | The code as written fails on exactly the tokens the corrected code fails on plus every other token that would get furigana but starts with kana |
| Annotator.AnnotateToken | instanceprv.py:506-569 | Fails exactly on unequal kana lengths or a failed alignment. It flags furigana exactly for annotatable tokens and drops only untranslated tokens. It reports only for dropped or annotatable tokens. An untranslated token emits nothing and logs exactly one problem about itself. No reading is added to a token that is not annotatable |
| Annotator.AnnotateTokens | instanceprv.py:506-569 | Fails exactly when some token fails, keeping the problems and cache built before it; furigana exactly when some token is annotatable; the text less readings is the kept tokens |
| Annotator.TokensStep | instanceprv.py:506-569 | Failing and annotatable tokens of a list are the first token's plus the rest's |
| Annotator.ProcessTextpart | instanceprv.py:492-571 | `_process_textpart` over the conversion of the text, with the guarantees of the token loop |
| Annotator.NoFuriganaKeepsText | instanceprv.py:523-526 | Output without furigana is the text of the kept tokens, whatever the tags |
| Annotator.ApplyCustomTrace | instanceprv.py:588-596 | The custom-reading loop ends with the text after the last replacement, and flags furigana exactly when some replacement changes the length |
| Annotator.ProcessPart | instanceprv.py:603-613 | Fails exactly when a plain part has a failing token. The output is written from pieces that strip to the part's text (the kept tokens for a plain part). It counts as furigana exactly for a kept part or a plain part with an annotatable token. A kept part is written as it is |
| Annotator.ProcessParts | instanceprv.py:602-613 | Fails exactly when some part fails, keeping the problems and cache built before it; each part is written as `ProcessPart` says; furigana exactly when some part counts as furigana |
| Annotator.WrittenFlatten | instanceprv.py:615 | Joining the parts' outputs renders all their pieces, and taking the readings out gives the parts' texts |
| Annotator.ProcessText | instanceprv.py:573-617 | Fails exactly on a tag of the instance or a custom-reading tag in the text, an unclosed custom-reading tag after the replacements (both with nothing reported or cached), or a failing part (keeping the problems and cache built before it). Furigana exactly when a replacement changes the length or some part counts as furigana. The text is rendered from pieces that strip to the parts' texts. Problems carry the user data, and the cache only grows |
| Annotator.ProcessTextStrip | instanceprv.py:573-617 | With a collaborator that loses no text, taking the readings out of the output gives the replaced text less its custom-reading tags |
| Annotator.ProcessTextStripsBack | instanceprv.py:573-617 | Without custom readings and with a collaborator that loses no text, taking the readings out of the output gives back the input |
| Annotator.ProcessTextUntagged | instanceprv.py:598-615 | Without custom readings or tags, the text is split around its URLs and annotated part by part |
| Annotator.ProcessTextPlain | instanceprv.py:573-617 | Without custom readings, URLs or tags, `_process_text` on a non-empty text is `_process_textpart` on the whole text, failures included |
| Annotator.ProcessTextUrl | instanceprv.py:600-606 | Without custom readings, a text holding a URL that is processed successfully counts as having furigana |
| Annotator.ProcessTextWholeCustom | instanceprv.py:588-606 | A text that the replacements turn into one custom reading is written as that reading, with no problems and the cache untouched |
| Annotator.WholeTextSplit | instanceprv.py:447-450 | A non-empty text without an open tag is one plain part |
| Annotator.UrlTextKeeps | instanceprv.py:479-486 | A text holding a URL yields a kept part |
| Registration.MakeKanjiReading | instance.py:34-48 | Succeeds exactly when no kun reading holds `.` or `-` |
| Registration.UserReadings | instance.py:105-117 | The on readings paired with their hiragana, then the kun readings paired with their katakana, in the given order |
| Registration.AddKanjiReadings | instance.py:95-119 | The flag is true exactly when every key is one character. Each entry up to the first bad key holds its readings sorted longest first as a stable permutation. Kanji no entry names keep their readings. No other keys appear |
| Registration.AddKanjiFlag | instance.py:101-102 | After a one-character first key, the flag is that of the rest |
| Registration.AddKanjiHolds | instance.py:101-119 | The readings the first entry cached are still held once the rest is added |
| Registration.AddKanjiOthers | instance.py:101-119 | Kanji that no entry names keep their cached readings |
| Registration.AddKanjiKeys | instance.py:101-119 | Every key afterwards was cached before or is named by an entry |
| Registration.MakeWordReading | instance.py:55-67 | Succeeds exactly when there is one reading per part |
| Registration.WordPieces | instance.py:129-140 | A part that is a single kanji gets its reading; other parts are written as they are; taking the readings out gives the word |
| Registration.Replacement | instance.py:131-140 | The replacement text starts with the custom open tag and ends with the custom close tag |
| Registration.ReplacementPlain | instance.py:132-140 | A word none of whose parts is a single kanji is replaced by itself inside the custom tags: other parts are copied and their readings discarded |
| Registration.Put | instance.py:142 | A dictionary store: keys stay distinct, an existing key keeps its place and takes the new value, a new key goes last |
| Registration.PutLookup | instance.py:142 | After the store the key maps to the value and every other key as before |
| Registration.LookupUnique | instance.py:142 | With distinct keys, a lookup finds the entry stored under that key |
| Registration.AddWordReadingsKeepsOrder | instance.py:127-142 | Words already registered keep their places; new words follow |
| Registration.AddWordReadingsLookup | instance.py:127-142 | Each word maps to the replacement of its last reading; words no reading names keep their replacement |
| Registration.AndonExample | example_textfile.py:45 | 行灯 read あん + どん with tags `[` and `]` is registered as `<行[あん]灯[どん]>` |
| Registration.AndonProcessed | instance.py:144-152 | Once 行灯 is registered, processing 行灯 gives `行[あん]灯[どん]` with furigana, no problems and the cache untouched, whatever the splitters, collaborators and cache |

## Left out

- Collaborators: pykakasi, MeCab and jamdict are not modelled. `Collab.Env` takes the token stream, the kana conversions and the per-kanji dictionary readings as given functions. The length assertions inside `_kana2hira` and `_hira2kana` (instanceprv.py:357, 373) are not modelled: the conversions are total functions here, and no contract relies on the length they keep.
- MeCab's node walk (instanceprv.py:132-147) is reduced to the list of seventh features of the nodes with a surface. The `kanji + "一"` trick is part of what that list stands for.
- The `unidic` dictionary check in `Instance.__init__` (instance.py:83-85) is file-system I/O.
- Printing of problems (problem.py:38 onwards), `furiganamaker.py`, the example scripts and `setup.py` are outside the engine.
- The `isinstance` assertions (instance.py:40-41, 62-63, 104, 128) and the `katakana is not None` assertion (instanceprv.py:131) are type checks that Dafny's types make unnecessary.
- The single-character assertions of `is_kanji` (utils.py:26) and `_get_kanjireading` (instanceprv.py:96) are enforced by taking a `char`.
- Problem descriptions: a `Problem` keeps its kind, its subject and the user data, but not the English description text.
- User data is an `int` rather than any Python object; the engine only copies it into problems.
- Custom-reading tags: they are the characters `<` and `>`, the values the instance fixes (instanceprv.py:53-54). The source never changes them.
- Readings.GetKanjiReading: the assertions that a jamdict lookup finds exactly one character with exactly one reading group (instanceprv.py:104-105) are not modelled. The dictionary is a collaborator given as the list of on and kun readings of the kanji, so the entry's shape is not part of the model, and a lookup never fails here.
- Annotator.ProcessTextpart: the assertion that a kakasi instance is present (instanceprv.py:500) is not modelled. The conversion is always given as part of `Collab.Env`.
- Resolver.FindReading: requires a non-empty run. The only caller passes kanji runs, which are never empty. On an empty run the source would fail its own final assertion or report left-over kana.
- Segmenter.SplitKanji: requires a non-empty word, because the source reads `kanji[0]`. The only caller passes tokens that contain a kanji.
- Registration.AddWordReadings: requires every reading to satisfy what the `WordReading` constructor asserts (one reading per part).
- Registration.AddKanjiReadings: requires distinct keys, as a Python dict has.
- PyStr.IsSpace: Python's `str.isspace` is written out as the concrete list of whitespace code points.
- Segmenter.LoopEndsWith: does not state that `end` only moves left. That does not hold in general, because `endfind` can go below zero and Python then counts from the end. What is proved instead is that every alignment passing the shape checks tiles the hiragana exactly (`Segmenter.LoopTiles`).
- Annotator.ProcessTextStripsBack: requires a collaborator that keeps all text (`Lossless`); pykakasi is not modelled, so what it drops is not known.
- Annotator.ProcessText: the membership tests on the instance's tags are `Contains` of the tag string. An empty tag is therefore contained in every text, as in Python.
- Resource handling, concurrency and performance (the cache as a speed-up) are not modelled beyond the cache's contents.

## Findings

The token loop runs either pair of definitions (`Annotator.Splitters`); `AsWritten` is what the program does. `Annotator.TokenFailsAsWritten` states how the two differ on whole tokens.

| source | as written | input that shows it | evidently intended | confidence | as-written member | corrected member |
|---|---|---|---|---|---|---|
| instanceprv.py:328 | `if end >= 0:` always holds, so an empty leading kanji segment is added even when the first run is kana, and the shape assertions then fail | the word お茶 with hiragana おちゃ and katakana オチャ; every word that starts with kana (ご飯, お金) | a leading kanji segment exactly when the word starts with kanji or kana are left over (`end > 0` alone would reject 日か月 read かつき, which the code accepts), giving the split お / ちゃ | high, not executed | Segmenter.SplitHiraganaAsWritten, Segmenter.SplitHiraganaDiscrepancy | Segmenter.SplitHiragana, Segmenter.SplitHiraganaAsWrittenAgrees |
| instanceprv.py:268-270 | `katakana[start:len(t)]` with `start = len(t)` uses absolute bounds, so every segment after the first gets the wrong slice | 取り扱い read とりあつかい: the split と / り / あつか / い gives 扱 the katakana リア (the お / べんとう split of お弁当 shows the same, but the first finding stops that word earlier) | `katakana[start:start + len(t)]` and `start += len(t)`, giving アツカ | high, not executed | Segmenter.SplitKatakanaAsWritten, Segmenter.SplitKatakanaReachable, Segmenter.SplitKatakanaDiscrepancy | Segmenter.SplitKatakana |

=== FILE: annotator.dfy ===
/** Adding furigana to a text (`_process_textpart` and `_process_text` of
    instanceprv.py): each token of the collaborator's conversion is split
    into kanji runs, aligned with its kana, and every kanji run gets a
    reading between the instance's tags. */
module Annotator {
  import opened Base
  import opened PyStr
  import opened Utils
  import opened Collab
  import opened Readings
  import opened Segmenter
  import opened Resolver
  import opened Markup

  // ---------------------------------------------------------------------------
  // Output

  /** A piece of output: text as it was, or a base with its reading. */
  datatype Piece = Plain(text: string) | Ruby(base: string, reading: string)

  /** One piece as the source writes it: `base + opentag + reading + closetag`. */
  function RenderOne(p: Piece, open: string, close: string): string
  {
    match p
    case Plain(t) => t
    case Ruby(b, r) => b + open + r + close
  }

  /** The output text. */
  function Render(ps: seq<Piece>, open: string, close: string): string
  {
    if |ps| == 0 then [] else RenderOne(ps[0], open, close) + Render(ps[1..], open, close)
  }

  /** The text with every reading taken out. */
  function Strip(ps: seq<Piece>): string
  {
    if |ps| == 0 then [] else (match ps[0] case Plain(t) => t case Ruby(b, _) => b) + Strip(ps[1..])
  }

  /** Pieces without readings render as the text they hold. */
  predicate NoRuby(ps: seq<Piece>)
  {
    forall j :: 0 <= j < |ps| ==> ps[j].Plain?
  }

  lemma {:induction false} RenderPlain(ps: seq<Piece>, open: string, close: string)
    requires NoRuby(ps)
    ensures Render(ps, open, close) == Strip(ps)
  {
    if |ps| > 0 {
      RenderPlain(ps[1..], open, close);
    }
  }

  lemma {:induction false} RenderAppend(a: seq<Piece>, b: seq<Piece>, open: string, close: string)
    ensures Render(a + b, open, close) == Render(a, open, close) + Render(b, open, close)
  {
    if |a| == 0 {
      assert a + b == b;
    } else {
      assert (a + b)[1..] == a[1..] + b;
      RenderAppend(a[1..], b, open, close);
    }
  }

  lemma {:induction false} StripAppend(a: seq<Piece>, b: seq<Piece>)
    ensures Strip(a + b) == Strip(a) + Strip(b)
  {
    if |a| == 0 {
      assert a + b == b;
    } else {
      assert (a + b)[1..] == a[1..] + b;
      StripAppend(a[1..], b);
    }
  }

  /** One reading per kanji: `kanji[k] + opentag + readings[k] + closetag`. */
  function RubyEach(kanji: string, readings: seq<string>): (r: seq<Piece>)
    requires |readings| == |kanji|
    ensures Strip(r) == kanji
    ensures |r| == |kanji| && forall k :: 0 <= k < |kanji| ==> r[k] == Ruby([kanji[k]], readings[k])
  {
    if |kanji| == 0 then []
    else
      var r := [Ruby([kanji[0]], readings[0])] + RubyEach(kanji[1..], readings[1..]);
      assert r[1..] == RubyEach(kanji[1..], readings[1..]);
      assert kanji == [kanji[0]] + kanji[1..];
      r
  }

  // ---------------------------------------------------------------------------
  // One token

  /** The problems, cache and pieces one step of the loop produced. */
  datatype Annotated = Annotated(furigana: bool, pieces: seq<Piece>, problems: seq<Problem>, cache: Cache)

  /** Every problem carries the caller's user data. */
  predicate Tagged(ps: seq<Problem>, userdata: int)
  {
    forall p :: p in ps ==> p.userdata == userdata
  }

  /** The inner loop of `_process_textpart` over the runs of one token:
      a non-kanji run is written as it is; a kanji run whose katakana is
      longer than one character is matched kanji by kanji, and on success
      every kanji gets its own reading; otherwise the run gets the hiragana
      aligned with it. */
  function AnnotateRuns(env: Env, cache: Cache, ks: seq<Segment>, hs: seq<Segment>, kas: seq<Segment>,
                        userdata: int): (r: Annotated)
    requires |ks| == |hs| == |kas| && NonEmptyParts(ks)
    ensures Strip(r.pieces) == Concat(ks)
    decreases |ks|
    ensures Tagged(r.problems, userdata)
    ensures Extends(cache, r.cache) && (CacheSorted(cache) ==> CacheSorted(r.cache))
  {
    if |ks| == 0 then Annotated(true, [], [], cache)
    else
      var first := AnnotateRun(env, cache, ks[0], hs[0], kas[0], userdata);
      var rest := AnnotateRuns(env, first.cache, ks[1..], hs[1..], kas[1..], userdata);
      StripAppend(first.pieces, rest.pieces);
      ExtendsTrans(cache, first.cache);
      Annotated(true, first.pieces + rest.pieces, first.problems + rest.problems, rest.cache)
  }

  /** One run of the inner loop. */
  function AnnotateRun(env: Env, cache: Cache, k: Segment, h: Segment, kata: Segment, userdata: int): (r: Annotated)
    requires |k.text| > 0
    ensures Strip(r.pieces) == k.text
    ensures !k.isKanji ==> r.pieces == [Plain(k.text)]
    ensures k.isKanji ==> forall j :: 0 <= j < |r.pieces| ==> r.pieces[j].Ruby?
    ensures k.isKanji && |kata.text| <= 1 ==> r == Annotated(true, [Ruby(k.text, h.text)], [], cache)
    ensures k.isKanji && |kata.text| > 1 && !FindReading(env, cache, k.text, kata.text, userdata).ok ==>
      r.pieces == [Ruby(k.text, h.text)]
    ensures Tagged(r.problems, userdata)
    ensures Extends(cache, r.cache) && (CacheSorted(cache) ==> CacheSorted(r.cache))
  {
    if !k.isKanji then
      assert Strip([Plain(k.text)]) == k.text + Strip([]);
      Annotated(true, [Plain(k.text)], [], cache)
    else AnnotateKanji(env, cache, k.text, h.text, kata.text, userdata)
  }

  /** A kanji run: matched kanji by kanji when its katakana is longer than
      one character, and annotated as a whole otherwise or when no match is
      found. */
  function AnnotateKanji(env: Env, cache: Cache, kanji: string, hira: string, kata: string, userdata: int): (r: Annotated)
    requires |kanji| > 0
    ensures Strip(r.pieces) == kanji
    ensures forall j :: 0 <= j < |r.pieces| ==> r.pieces[j].Ruby?
    ensures |kata| <= 1 ==> r == Annotated(true, [Ruby(kanji, hira)], [], cache)
    ensures |kata| > 1 && !FindReading(env, cache, kanji, kata, userdata).ok ==> r.pieces == [Ruby(kanji, hira)]
    ensures Tagged(r.problems, userdata)
    ensures Extends(cache, r.cache) && (CacheSorted(cache) ==> CacheSorted(r.cache))
  {
    assert Strip([Ruby(kanji, hira)]) == kanji + Strip([]);
    if |kata| > 1 then
      var out := FindReading(env, cache, kanji, kata, userdata);
      if out.ok then Annotated(true, RubyEach(kanji, Hiras(out.chosen)), out.problems, out.cache)
      else Annotated(true, [Ruby(kanji, hira)], out.problems, out.cache)
    else Annotated(true, [Ruby(kanji, hira)], [], cache)
  }

  /** On a successful match, each kanji of the run is annotated with the
      hiragana of the reading chosen for it, and those readings' katakana
      spell the run's katakana. */
  lemma AnnotateRunMatched(env: Env, cache: Cache, k: Segment, h: Segment, kata: Segment, userdata: int)
    requires |k.text| > 0 && k.isKanji && |kata.text| > 1
    requires FindReading(env, cache, k.text, kata.text, userdata).ok
    ensures var out := FindReading(env, cache, k.text, kata.text, userdata);
      var r := AnnotateRun(env, cache, k, h, kata, userdata);
      |r.pieces| == |k.text| && Join(Katas(out.chosen)) == kata.text &&
      forall j :: 0 <= j < |k.text| ==> r.pieces[j] == Ruby([k.text[j]], out.chosen[j].hiragana)
  {
  }

  /** A token ends a line. */
  predicate EndsWithNewline(s: string)
  {
    |s| > 0 && s[|s| - 1] == '\n'
  }

  /** A token the collaborator could not read: it is dropped from the output
      and reported. */
  predicate Dropped(c: Token)
  {
    !EndsWithNewline(c.orig) && |c.hira| < 1
  }

  /** A token that gets furigana. */
  predicate Annotatable(c: Token)
  {
    !EndsWithNewline(c.orig) && |c.hira| >= 1 && HasKanji(c.orig) && c.orig != c.hira
  }

  /** Which `_split_hiragana` and `_split_katakana` the token loop calls: the
      code as written, or the definitions with both findings corrected. */
  datatype Splitters = AsWritten | Corrected

  /** The hiragana split the token loop calls. */
  function SplitHiraganaBy(sp: Splitters, ks: seq<Segment>, hira: string, kata: string): (r: Option<seq<Segment>>)
    ensures r.Some? ==> SameShape(ks, r.value) && |Concat(r.value)| == |hira|
  {
    match sp
    case AsWritten => SplitHiraganaAsWritten(ks, hira, kata)
    case Corrected => SplitHiragana(ks, hira, kata)
  }

  /** The katakana split the token loop calls. */
  function SplitKatakanaBy(sp: Splitters, hs: seq<Segment>, kata: string): (r: Option<seq<Segment>>)
    ensures r.Some? <==> |Concat(hs)| == |kata|
    ensures r.Some? ==> |r.value| == |hs| && forall j :: 0 <= j < |hs| ==> r.value[j].isKanji == hs[j].isKanji
  {
    match sp
    case AsWritten => SplitKatakanaAsWritten(hs, kata)
    case Corrected => SplitKatakana(hs, kata)
  }

  /** The kanji runs of a token and the hiragana and katakana aligned with
      them. A token of more than one run has its long vowels restored first;
      a single run must be kanji (the source asserts it). */
  function Align(sp: Splitters, orig: string, hira: string, kana: string): (r: Option<(seq<Segment>, seq<Segment>, seq<Segment>)>)
    requires |orig| > 0
    ensures r.Some? ==> r.value.0 == SplitKanji(orig) && |r.value.0| == |r.value.1| == |r.value.2|
    ensures r.Some? ==> forall j :: 0 <= j < |r.value.0| ==> r.value.1[j].isKanji == r.value.2[j].isKanji == r.value.0[j].isKanji
  {
    var ks := SplitKanji(orig);
    if |ks| > 1 then
      var kana' := FixLongVowels(orig, kana);
      match SplitHiraganaBy(sp, ks, hira, kana')
      case None => None
      case Some(hs) =>
        match SplitKatakanaBy(sp, hs, kana')
        case None => None
        case Some(kas) => Some((ks, hs, kas))
    else if !ks[0].isKanji then None
    else Some((ks, [Segment(hira, true)], [Segment(kana, true)]))
  }

  /** For a token with kanji and equally long kana, alignment fails only when
      the hiragana split fails: the single-run assertion and the katakana
      split cannot fail. With the splitters as written, it fails on every
      token that starts with kana. */
  lemma AlignFails(sp: Splitters, orig: string, hira: string, kana: string)
    requires HasKanji(orig) && |hira| == |kana|
    ensures Align(sp, orig, hira, kana).None? <==>
      |SplitKanji(orig)| > 1 && SplitHiraganaBy(sp, SplitKanji(orig), hira, FixLongVowels(orig, kana)).None?
    ensures sp == AsWritten && !IsKanji(orig[0]) ==> Align(sp, orig, hira, kana).None?
  {
    var ks := SplitKanji(orig);
    if |ks| == 1 {
      SingleRunIsKanji(orig, ks);
    }
  }

  /** A word with a kanji that is one run is one kanji run. */
  lemma SingleRunIsKanji(s: string, ks: seq<Segment>)
    requires HasKanji(s) && IsRunSplit(s, ks) && |ks| == 1
    ensures ks[0].isKanji
  {
    assert Concat(ks) == ks[0].text + Concat([]);
    var i :| 0 <= i < |s| && IsKanji(s[i]);
    assert Uniform(ks[0]);
    assert ks[0].text[i] == s[i];
  }

  /** One token of `_process_textpart`. `None` is a failed assertion: kana of
      different lengths, or an alignment that fails. Both come before the
      token reports or caches anything. */
  function AnnotateToken(sp: Splitters, env: Env, cache: Cache, c: Token, userdata: int): (r: Option<Annotated>)
    ensures r.None? <==> TokenFails(sp, c)
    ensures r.Some? ==> r.value.furigana == Annotatable(c)
    ensures r.Some? ==> Strip(r.value.pieces) == (if Dropped(c) then [] else c.orig)
    ensures r.Some? ==> Tagged(r.value.problems, userdata)
    ensures r.Some? ==> |r.value.problems| > 0 ==> Dropped(c) || Annotatable(c)
    ensures r.Some? && Dropped(c) ==> r.value.pieces == [] && r.value.problems == [Problem(Untranslated, c.orig, userdata)]
    ensures r.Some? && !Annotatable(c) ==> NoRuby(r.value.pieces)
    ensures r.Some? ==> Extends(cache, r.value.cache) && (CacheSorted(cache) ==> CacheSorted(r.value.cache))
  {
    if |c.hira| != |c.kana| then None
    else if EndsWithNewline(c.orig) then
      assert Strip([Plain(c.orig)]) == c.orig + Strip([]);
      Some(Annotated(false, [Plain(c.orig)], [], cache))
    else if |c.hira| < 1 then Some(Annotated(false, [], [Problem(Untranslated, c.orig, userdata)], cache))
    else if !HasKanji(c.orig) || c.orig == c.hira then
      assert Strip([Plain(c.orig)]) == c.orig + Strip([]);
      Some(Annotated(false, [Plain(c.orig)], [], cache))
    else
      AlignFails(sp, c.orig, c.hira, c.kana);
      match Align(sp, c.orig, c.hira, c.kana)
      case None => None
      case Some((ks, hs, kas)) =>
        var a := AnnotateRuns(env, cache, ks, hs, kas, userdata);
        Some(Annotated(true, a.pieces, a.problems, a.cache))
  }

  /** The tokens on which `_process_textpart` fails an assertion. */
  predicate TokenFails(sp: Splitters, c: Token)
  {
    |c.hira| != |c.kana| ||
    (Annotatable(c) && |SplitKanji(c.orig)| > 1 &&
     SplitHiraganaBy(sp, SplitKanji(c.orig), c.hira, FixLongVowels(c.orig, c.kana)).None?)
  }

  /** The code as written fails on the tokens the corrected code fails on,
      and on every other token that would get furigana but starts with
      kana (お茶, ご飯, ...). */
  lemma TokenFailsAsWritten(c: Token)
    ensures TokenFails(AsWritten, c) <==>
      TokenFails(Corrected, c) || (Annotatable(c) && !IsKanji(c.orig[0]))
  {
    if Annotatable(c) && |c.hira| == |c.kana| {
      var ks := SplitKanji(c.orig);
      if |ks| == 1 {
        SingleRunIsKanji(c.orig, ks);
      } else {
        SplitHiraganaAsWrittenAgrees(ks, c.hira, FixLongVowels(c.orig, c.kana));
      }
    }
  }

  /** The text the tokens keep: every token but the dropped ones. */
  function Kept(toks: seq<Token>): string
  {
    if |toks| == 0 then [] else (if Dropped(toks[0]) then [] else toks[0].orig) + Kept(toks[1..])
  }

  /** Some token fails an assertion. */
  predicate AnyFails(sp: Splitters, toks: seq<Token>)
  {
    exists j :: 0 <= j < |toks| && TokenFails(sp, toks[j])
  }

  /** Some token gets furigana. */
  predicate AnyAnnotatable(toks: seq<Token>)
  {
    exists j :: 0 <= j < |toks| && Annotatable(toks[j])
  }

  /** The result of a step that can fail an assertion: its value, or the
      problems reported and the cache built up before the failure. The
      caller's problem list and the instance's cache keep both, since the
      source appends to the one and writes the other in place. */
  datatype Outcome<T> = Done(value: T) | Failed(problems: seq<Problem>, cache: Cache)

  /** A failure keeps problems tagged with the user data and a cache that
      extends the one it started from (and is sorted if that one was). */
  predicate FailedFrom<T>(r: Outcome<T>, cache: Cache, userdata: int)
  {
    r.Failed? ==>
      Tagged(r.problems, userdata) && Extends(cache, r.cache) && (CacheSorted(cache) ==> CacheSorted(r.cache))
  }

  /** The loop of `_process_textpart` over the tokens. */
  function AnnotateTokens(sp: Splitters, env: Env, cache: Cache, toks: seq<Token>, userdata: int): (r: Outcome<Annotated>)
    ensures r.Failed? <==> AnyFails(sp, toks)
    ensures r.Done? ==> (r.value.furigana <==> AnyAnnotatable(toks))
    ensures r.Done? ==> Strip(r.value.pieces) == Kept(toks)
    ensures r.Done? && !r.value.furigana ==> NoRuby(r.value.pieces)
    ensures r.Done? ==> Tagged(r.value.problems, userdata)
    ensures r.Done? ==> Extends(cache, r.value.cache) && (CacheSorted(cache) ==> CacheSorted(r.value.cache))
    ensures FailedFrom(r, cache, userdata)
    decreases |toks|
  {
    if |toks| == 0 then Done(Annotated(false, [], [], cache))
    else
      match AnnotateToken(sp, env, cache, toks[0], userdata)
      case None =>
        TokensStep(sp, toks);
        Failed([], cache)
      case Some(first) =>
        match AnnotateTokens(sp, env, first.cache, toks[1..], userdata)
        case Failed(ps, c) =>
          TokensStep(sp, toks);
          ExtendsTrans(cache, first.cache);
          Failed(first.problems + ps, c)
        case Done(rest) =>
          TokensJoin(sp, cache, toks, first, rest, userdata);
          Done(Annotated(first.furigana || rest.furigana, first.pieces + rest.pieces,
                         first.problems + rest.problems, rest.cache))
  }

  /** The step of `AnnotateTokens` from the first token and the rest to the
      whole. */
  lemma TokensJoin(sp: Splitters, cache: Cache, toks: seq<Token>, first: Annotated, rest: Annotated, userdata: int)
    requires |toks| > 0 && !TokenFails(sp, toks[0])
    requires first.furigana == Annotatable(toks[0])
    requires Strip(first.pieces) == (if Dropped(toks[0]) then [] else toks[0].orig)
    requires !Annotatable(toks[0]) ==> NoRuby(first.pieces)
    requires Tagged(first.problems, userdata)
    requires Extends(cache, first.cache) && (CacheSorted(cache) ==> CacheSorted(first.cache))
    requires !AnyFails(sp, toks[1..])
    requires rest.furigana <==> AnyAnnotatable(toks[1..])
    requires Strip(rest.pieces) == Kept(toks[1..])
    requires !rest.furigana ==> NoRuby(rest.pieces)
    requires Tagged(rest.problems, userdata)
    requires Extends(first.cache, rest.cache) && (CacheSorted(first.cache) ==> CacheSorted(rest.cache))
    ensures var r := Annotated(first.furigana || rest.furigana, first.pieces + rest.pieces, first.problems + rest.problems, rest.cache);
      !AnyFails(sp, toks) &&
      (r.furigana <==> AnyAnnotatable(toks)) &&
      Strip(r.pieces) == Kept(toks) &&
      (!r.furigana ==> NoRuby(r.pieces)) &&
      Tagged(r.problems, userdata) &&
      Extends(cache, r.cache) && (CacheSorted(cache) ==> CacheSorted(r.cache))
  {
    TokensStep(sp, toks);
    StripAppend(first.pieces, rest.pieces);
    assert !first.furigana && !rest.furigana ==> NoRuby(first.pieces + rest.pieces);
    ExtendsTrans(cache, first.cache);
  }

  /** The tokens that fail, and those that get furigana, are the first one
      if it does and those of the rest. */
  lemma TokensStep(sp: Splitters, toks: seq<Token>)
    requires |toks| > 0
    ensures AnyFails(sp, toks) <==> TokenFails(sp, toks[0]) || AnyFails(sp, toks[1..])
    ensures AnyAnnotatable(toks) <==> Annotatable(toks[0]) || AnyAnnotatable(toks[1..])
  {
    assert forall j :: 0 <= j < |toks| - 1 ==> toks[1..][j] == toks[j + 1];
    assert forall j :: 1 <= j < |toks| ==> toks[j] == toks[1..][j - 1];
  }

  /** `_process_textpart`: the pieces of every token of the collaborator's
      conversion of `text`, in order. The output text is
      `Render(pieces, opentag, closetag)`. */
  function ProcessTextpart(sp: Splitters, env: Env, cache: Cache, text: string, userdata: int): (r: Outcome<Annotated>)
    ensures r.Failed? <==> AnyFails(sp, env.convert(text))
    ensures r.Done? ==> (r.value.furigana <==> AnyAnnotatable(env.convert(text)))
    ensures r.Done? ==> Strip(r.value.pieces) == Kept(env.convert(text))
    ensures r.Done? && !r.value.furigana ==> NoRuby(r.value.pieces)
    ensures r.Done? ==> Tagged(r.value.problems, userdata)
    ensures r.Done? ==> Extends(cache, r.value.cache) && (CacheSorted(cache) ==> CacheSorted(r.value.cache))
    ensures FailedFrom(r, cache, userdata)
  {
    AnnotateTokens(sp, env, cache, env.convert(text), userdata)
  }

  /** A text part without furigana comes out as the collaborator's tokens,
      less the dropped ones, whatever the tags. */
  lemma NoFuriganaKeepsText(sp: Splitters, env: Env, cache: Cache, text: string, userdata: int, open: string, close: string)
    requires ProcessTextpart(sp, env, cache, text, userdata).Done?
    requires !ProcessTextpart(sp, env, cache, text, userdata).value.furigana
    ensures Render(ProcessTextpart(sp, env, cache, text, userdata).value.pieces, open, close) == Kept(env.convert(text))
  {
    RenderPlain(ProcessTextpart(sp, env, cache, text, userdata).value.pieces, open, close);
  }

  // ---------------------------------------------------------------------------
  // A whole text

  /** The custom word readings: each word with its replacement, in insertion
      order (a Python dict). */
  type Table = seq<(string, string)>

  /** The state of an instance processing reads and updates. */
  datatype Instance = Instance(opentag: string, closetag: string, custom: Table, cache: Cache)

  /** The result of `_process_text`, with the pieces its text is written
      from. */
  datatype Processed = Processed(furigana: bool, text: string, pieces: seq<Piece>, problems: seq<Problem>, cache: Cache)

  /** The custom-reading loop of `_process_text`: every word is replaced in
      turn; a replacement that changes the length counts as furigana. */
  function ApplyCustom(table: Table, text: string): (r: (bool, string))
    ensures |table| == 0 ==> r == (false, text)
  {
    if |table| == 0 then (false, text)
    else
      var t := Replace(text, table[0].0, table[0].1);
      var rest := ApplyCustom(table[1..], t);
      (rest.0 || |t| != |text|, rest.1)
  }

  /** The texts the custom-reading loop passes through: entry `j + 1` is
      entry `j` with word `j` of the table replaced. */
  function CustomTrace(table: Table, text: string): (r: seq<string>)
    ensures |r| == |table| + 1 && r[0] == text
    ensures forall j :: 0 <= j < |table| ==> r[j + 1] == Replace(r[j], table[j].0, table[j].1)
  {
    if |table| == 0 then [text]
    else
      var rest := CustomTrace(table[1..], Replace(text, table[0].0, table[0].1));
      var r := [text] + rest;
      assert forall j :: 1 <= j < |table| ==> r[j + 1] == rest[j] && r[j] == rest[j - 1] && table[j] == table[1..][j - 1];
      r
  }

  /** Some replacement of the table changes the length of the text. */
  predicate LengthChanges(tr: seq<string>)
  {
    exists j :: 0 <= j < |tr| - 1 && |tr[j + 1]| != |tr[j]|
  }

  /** The custom-reading loop ends with the last text of the trace, and
      counts as furigana exactly when some replacement changes the length. */
  lemma {:induction false} ApplyCustomTrace(table: Table, text: string)
    ensures ApplyCustom(table, text).1 == CustomTrace(table, text)[|table|]
    ensures ApplyCustom(table, text).0 <==> LengthChanges(CustomTrace(table, text))
    decreases |table|
  {
    var tr := CustomTrace(table, text);
    if |table| > 0 {
      var t := Replace(text, table[0].0, table[0].1);
      var rest := CustomTrace(table[1..], t);
      ApplyCustomTrace(table[1..], t);
      assert tr == [text] + rest;
      assert forall j :: 0 <= j < |rest| ==> tr[j + 1] == rest[j];
      assert LengthChanges(tr) <==> |t| != |text| || LengthChanges(rest) by {
        if LengthChanges(rest) {
          var j :| 0 <= j < |rest| - 1 && |rest[j + 1]| != |rest[j]|;
          assert tr[j + 2] == rest[j + 1] && tr[j + 1] == rest[j];
        }
        if LengthChanges(tr) {
          var j :| 0 <= j < |tr| - 1 && |tr[j + 1]| != |tr[j]|;
          if j > 0 {
            assert tr[j + 1] == rest[j] && tr[j] == rest[j - 1];
          }
        }
      }
    }
  }

  /** What a part comes out as with its readings taken out: a kept part's
      text, or the tokens a plain part keeps. */
  function PartText(env: Env, part: Part): string
  {
    if part.custom then part.text else Kept(env.convert(part.text))
  }

  /** A part counts as furigana: a kept part (a custom reading or a URL), or
      a plain part with a token that gets furigana. */
  predicate PartFurigana(env: Env, part: Part)
  {
    part.custom || AnyAnnotatable(env.convert(part.text))
  }

  /** A plain part with a token that fails an assertion. */
  predicate PartFails(sp: Splitters, env: Env, part: Part)
  {
    !part.custom && AnyFails(sp, env.convert(part.text))
  }

  /** What one part comes out as: the text written from its pieces, the
      pieces stripping to the part's text, no readings unless the part
      counts as furigana, and a kept part written as it is. */
  predicate PartWritten(env: Env, open: string, close: string, part: Part, out: string, ps: seq<Piece>)
  {
    out == Render(ps, open, close) && Strip(ps) == PartText(env, part) &&
    (!PartFurigana(env, part) ==> NoRuby(ps)) &&
    (part.custom ==> out == part.text)
  }

  /** The outputs of the parts loop of `_process_text`, with the pieces each
      part's output is written from. */
  datatype PartsOut = PartsOut(furigana: bool, outs: seq<string>, pieces: seq<seq<Piece>>, problems: seq<Problem>, cache: Cache)

  /** One part of the parts loop of `_process_text`: a kept part is written
      as it is and counts as furigana; any other part is annotated. */
  function ProcessPart(sp: Splitters, env: Env, open: string, close: string, cache: Cache, part: Part, userdata: int): (r: Outcome<PartsOut>)
    ensures r.Failed? <==> PartFails(sp, env, part)
    ensures r.Done? ==> |r.value.outs| == 1 && |r.value.pieces| == 1
    ensures r.Done? ==> PartWritten(env, open, close, part, r.value.outs[0], r.value.pieces[0])
    ensures r.Done? ==> (r.value.furigana <==> PartFurigana(env, part))
    ensures part.custom ==> r == Done(PartsOut(true, [part.text], [[Plain(part.text)]], [], cache))
    ensures r.Done? ==> Tagged(r.value.problems, userdata)
    ensures r.Done? ==> Extends(cache, r.value.cache) && (CacheSorted(cache) ==> CacheSorted(r.value.cache))
    ensures FailedFrom(r, cache, userdata)
  {
    if part.custom then
      assert Render([Plain(part.text)], open, close) == part.text + Render([], open, close);
      assert Strip([Plain(part.text)]) == part.text + Strip([]);
      Done(PartsOut(true, [part.text], [[Plain(part.text)]], [], cache))
    else
      match ProcessTextpart(sp, env, cache, part.text, userdata)
      case Failed(ps, c) => Failed(ps, c)
      case Done(a) => Done(PartsOut(a.furigana, [Render(a.pieces, open, close)], [a.pieces], a.problems, a.cache))
  }

  /** Some part fails. */
  predicate AnyPartFails(sp: Splitters, env: Env, parts: seq<Part>)
  {
    exists j :: 0 <= j < |parts| && PartFails(sp, env, parts[j])
  }

  /** Some part counts as furigana. */
  predicate AnyPartFurigana(env: Env, parts: seq<Part>)
  {
    exists j :: 0 <= j < |parts| && PartFurigana(env, parts[j])
  }

  /** Every part is written as `PartWritten` says. */
  predicate AllWritten(env: Env, open: string, close: string, parts: seq<Part>, outs: seq<string>, pss: seq<seq<Piece>>)
  {
    |outs| == |parts| && |pss| == |parts| &&
    forall j :: 0 <= j < |parts| ==> PartWritten(env, open, close, parts[j], outs[j], pss[j])
  }

  /** The parts loop of `_process_text`. */
  function ProcessParts(sp: Splitters, env: Env, open: string, close: string, cache: Cache, parts: seq<Part>, userdata: int): (r: Outcome<PartsOut>)
    ensures r.Failed? <==> AnyPartFails(sp, env, parts)
    ensures r.Done? ==> AllWritten(env, open, close, parts, r.value.outs, r.value.pieces)
    ensures r.Done? ==> (r.value.furigana <==> AnyPartFurigana(env, parts))
    ensures r.Done? ==> Tagged(r.value.problems, userdata)
    ensures r.Done? ==> Extends(cache, r.value.cache) && (CacheSorted(cache) ==> CacheSorted(r.value.cache))
    ensures FailedFrom(r, cache, userdata)
    decreases |parts|
  {
    if |parts| == 0 then Done(PartsOut(false, [], [], [], cache))
    else
      match ProcessPart(sp, env, open, close, cache, parts[0], userdata)
      case Failed(ps, c) =>
        PartsFailStep(sp, env, parts);
        Failed(ps, c)
      case Done(a) =>
        match ProcessParts(sp, env, open, close, a.cache, parts[1..], userdata)
        case Failed(ps, c) =>
          PartsFailStep(sp, env, parts);
          ExtendsTrans(cache, a.cache);
          Failed(a.problems + ps, c)
        case Done(rest) =>
          PartsStep(sp, env, open, close, cache, parts, a, rest, userdata);
          Done(PartsOut(a.furigana || rest.furigana, a.outs + rest.outs, a.pieces + rest.pieces,
                        a.problems + rest.problems, rest.cache))
  }

  /** The parts that fail, and those that count as furigana, are the first
      one if it does and those of the rest. */
  lemma PartsFailStep(sp: Splitters, env: Env, parts: seq<Part>)
    requires |parts| > 0
    ensures AnyPartFails(sp, env, parts) <==> PartFails(sp, env, parts[0]) || AnyPartFails(sp, env, parts[1..])
    ensures AnyPartFurigana(env, parts) <==> PartFurigana(env, parts[0]) || AnyPartFurigana(env, parts[1..])
  {
    assert forall j :: 0 <= j < |parts| - 1 ==> parts[1..][j] == parts[j + 1];
    assert forall j :: 1 <= j < |parts| ==> parts[j] == parts[1..][j - 1];
  }

  /** The step of `ProcessParts` from the first part and the rest to the
      whole. */
  lemma PartsStep(sp: Splitters, env: Env, open: string, close: string, cache: Cache, parts: seq<Part>,
                  a: PartsOut, rest: PartsOut, userdata: int)
    requires |parts| > 0 && !PartFails(sp, env, parts[0])
    requires |a.outs| == 1 && |a.pieces| == 1 && PartWritten(env, open, close, parts[0], a.outs[0], a.pieces[0])
    requires a.furigana <==> PartFurigana(env, parts[0])
    requires Tagged(a.problems, userdata) && Extends(cache, a.cache) && (CacheSorted(cache) ==> CacheSorted(a.cache))
    requires !AnyPartFails(sp, env, parts[1..])
    requires AllWritten(env, open, close, parts[1..], rest.outs, rest.pieces)
    requires rest.furigana <==> AnyPartFurigana(env, parts[1..])
    requires Tagged(rest.problems, userdata)
    requires Extends(a.cache, rest.cache) && (CacheSorted(a.cache) ==> CacheSorted(rest.cache))
    ensures var r := PartsOut(a.furigana || rest.furigana, a.outs + rest.outs, a.pieces + rest.pieces, a.problems + rest.problems, rest.cache);
      !AnyPartFails(sp, env, parts) &&
      AllWritten(env, open, close, parts, r.outs, r.pieces) &&
      (r.furigana <==> AnyPartFurigana(env, parts)) &&
      Tagged(r.problems, userdata) &&
      Extends(cache, r.cache) && (CacheSorted(cache) ==> CacheSorted(r.cache))
  {
    PartsFailStep(sp, env, parts);
    AllWrittenStep(env, open, close, parts, a.outs, a.pieces, rest.outs, rest.pieces);
    ExtendsTrans(cache, a.cache);
  }

  /** The first part written in front of the rest, all written. */
  lemma AllWrittenStep(env: Env, open: string, close: string, parts: seq<Part>,
                       out: seq<string>, ps: seq<seq<Piece>>, outs: seq<string>, pss: seq<seq<Piece>>)
    requires |parts| > 0 && |out| == 1 && |ps| == 1 && PartWritten(env, open, close, parts[0], out[0], ps[0])
    requires AllWritten(env, open, close, parts[1..], outs, pss)
    ensures AllWritten(env, open, close, parts, out + outs, ps + pss)
  {
    forall j | 0 <= j < |parts| ensures PartWritten(env, open, close, parts[j], (out + outs)[j], (ps + pss)[j]) {
      if j > 0 {
        assert parts[j] == parts[1..][j - 1] && (out + outs)[j] == outs[j - 1] && (ps + pss)[j] == pss[j - 1];
      }
    }
  }

  /** The pieces of all parts, in order. */
  function Flatten(pss: seq<seq<Piece>>): seq<Piece>
  {
    if |pss| == 0 then [] else pss[0] + Flatten(pss[1..])
  }

  /** The parts' texts with their readings taken out, joined. */
  function PartsText(env: Env, parts: seq<Part>): string
  {
    if |parts| == 0 then [] else PartText(env, parts[0]) + PartsText(env, parts[1..])
  }

  /** Joining the parts' outputs is rendering all their pieces, and taking
      the readings out of all pieces gives the parts' texts. */
  lemma {:induction false} WrittenFlatten(env: Env, open: string, close: string, parts: seq<Part>, outs: seq<string>, pss: seq<seq<Piece>>)
    requires AllWritten(env, open, close, parts, outs, pss)
    ensures Join(outs) == Render(Flatten(pss), open, close)
    ensures Strip(Flatten(pss)) == PartsText(env, parts)
    decreases |parts|
  {
    if |parts| > 0 {
      assert PartWritten(env, open, close, parts[0], outs[0], pss[0]);
      assert AllWritten(env, open, close, parts[1..], outs[1..], pss[1..]) by {
        forall j | 0 <= j < |parts| - 1
          ensures PartWritten(env, open, close, parts[1..][j], outs[1..][j], pss[1..][j])
        {
          assert PartWritten(env, open, close, parts[j + 1], outs[j + 1], pss[j + 1]);
        }
      }
      WrittenFlatten(env, open, close, parts[1..], outs[1..], pss[1..]);
      RenderAppend(pss[0], Flatten(pss[1..]), open, close);
      StripAppend(pss[0], Flatten(pss[1..]));
    }
  }

  /** A tag of the instance or a custom-reading tag occurs in the text. */
  predicate HasTag(inst: Instance, text: string)
  {
    Contains(text, inst.opentag) || Contains(text, inst.closetag) || CustomOpen in text || CustomClose in text
  }

  /** The parts `_process_text` walks: the text after the custom readings,
      split at its custom-reading tags, then around its URLs. `None` when a
      custom-reading tag is left open. */
  function TextParts(table: Table, text: string): Option<seq<Part>>
  {
    match SplitCustReadTags(ApplyCustom(table, text).1)
    case None => None
    case Some(ps) => Some(SplitUrls(ps))
  }

  /** `_process_text`. `Failed` is a failed assertion: a tag of the instance or
      a custom-reading tag in the text, an open custom-reading tag without a
      close tag after the replacements, or a failed token. */
  function ProcessText(sp: Splitters, env: Env, inst: Instance, text: string, userdata: int): (r: Outcome<Processed>)
    ensures HasTag(inst, text) ==> r == Failed([], inst.cache)
    ensures TextParts(inst.custom, text).None? ==> r == Failed([], inst.cache)
    ensures r.Failed? <==>
      (HasTag(inst, text) || TextParts(inst.custom, text).None? ||
       AnyPartFails(sp, env, TextParts(inst.custom, text).value))
    ensures r.Done? ==> (r.value.furigana <==>
      ApplyCustom(inst.custom, text).0 || AnyPartFurigana(env, TextParts(inst.custom, text).value))
    ensures r.Done? ==> r.value.text == Render(r.value.pieces, inst.opentag, inst.closetag)
    ensures r.Done? ==> Strip(r.value.pieces) == PartsText(env, TextParts(inst.custom, text).value)
    ensures r.Done? ==> Tagged(r.value.problems, userdata)
    ensures r.Done? ==> Extends(inst.cache, r.value.cache) && (CacheSorted(inst.cache) ==> CacheSorted(r.value.cache))
    ensures FailedFrom(r, inst.cache, userdata)
  {
    if Contains(text, inst.opentag) || Contains(text, inst.closetag) then Failed([], inst.cache)
    else if CustomOpen in text || CustomClose in text then Failed([], inst.cache)
    else
      var (changed, text2) := ApplyCustom(inst.custom, text);
      match SplitCustReadTags(text2)
      case None => Failed([], inst.cache)
      case Some(parts) =>
        match ProcessParts(sp, env, inst.opentag, inst.closetag, inst.cache, SplitUrls(parts), userdata)
        case Failed(ps, c) => Failed(ps, c)
        case Done(res) =>
          WrittenFlatten(env, inst.opentag, inst.closetag, SplitUrls(parts), res.outs, res.pieces);
          Done(Processed(changed || res.furigana, Join(res.outs), Flatten(res.pieces), res.problems, res.cache))
  }

  /** The collaborator loses no text: the tokens it keeps of a text are the
      text. */
  ghost predicate Lossless(env: Env)
  {
    forall t :: Kept(env.convert(t)) == t
  }

  /** With a lossless collaborator the parts' texts are the parts' texts. */
  lemma {:induction false} PartsTextFlat(env: Env, parts: seq<Part>)
    requires Lossless(env)
    ensures PartsText(env, parts) == Flat(parts)
    decreases |parts|
  {
    if |parts| > 0 {
      PartsTextFlat(env, parts[1..]);
      assert Kept(env.convert(parts[0].text)) == parts[0].text;
    }
  }

  /** With a lossless collaborator, taking the readings out of the output
      gives back the text after the custom readings, less the custom-reading
      tags: URL splitting loses and adds nothing. */
  lemma ProcessTextStrip(sp: Splitters, env: Env, inst: Instance, text: string, userdata: int)
    requires Lossless(env)
    requires ProcessText(sp, env, inst, text, userdata).Done?
    ensures SplitCustReadTags(ApplyCustom(inst.custom, text).1).Some?
    ensures var ps := SplitCustReadTags(ApplyCustom(inst.custom, text).1).value;
      Wrap(ps) == ApplyCustom(inst.custom, text).1 &&
      Strip(ProcessText(sp, env, inst, text, userdata).value.pieces) == Flat(ps)
  {
    var ps := SplitCustReadTags(ApplyCustom(inst.custom, text).1).value;
    PartsTextFlat(env, SplitUrls(ps));
  }

  /** Without custom readings, and with a lossless collaborator, taking the
      readings out of the output gives back the input. */
  lemma ProcessTextStripsBack(sp: Splitters, env: Env, inst: Instance, text: string, userdata: int)
    requires Lossless(env) && |inst.custom| == 0
    requires ProcessText(sp, env, inst, text, userdata).Done?
    ensures Strip(ProcessText(sp, env, inst, text, userdata).value.pieces) == text
  {
    ProcessTextStrip(sp, env, inst, text, userdata);
    assert ApplyCustom(inst.custom, text).1 == text;
    if |text| > 0 {
      WholeTextSplit(text);
      assert Flat([Part(text, false)]) == text + Flat([]);
    } else {
      assert IsTagSplit(text, []);
      SplitCustReadTagsCharacterised(text, []);
    }
  }

  /** Without custom readings or tags, `_process_text` runs the parts loop
      on the text split around its URLs. */
  lemma ProcessTextUntagged(sp: Splitters, env: Env, inst: Instance, text: string, userdata: int)
    requires |inst.custom| == 0 && |text| > 0 && !HasTag(inst, text)
    ensures TextParts(inst.custom, text) == Some(SplitUrlText(text))
    ensures var res := ProcessParts(sp, env, inst.opentag, inst.closetag, inst.cache, SplitUrlText(text), userdata);
      ProcessText(sp, env, inst, text, userdata) ==
        if res.Failed? then Failed(res.problems, res.cache)
        else Done(Processed(res.value.furigana, Join(res.value.outs), Flatten(res.value.pieces), res.value.problems, res.value.cache))
  {
    WholeTextSplit(text);
    assert ApplyCustom(inst.custom, text) == (false, text);
    assert SplitUrls([Part(text, false)]) == SplitUrlText(text) + SplitUrls([]);
    assert SplitUrls([Part(text, false)]) == SplitUrlText(text);
    var res := ProcessParts(sp, env, inst.opentag, inst.closetag, inst.cache, SplitUrlText(text), userdata);
    if res.Done? {
      assert ProcessText(sp, env, inst, text, userdata) == Done(Processed(false || res.value.furigana, Join(res.value.outs),
        Flatten(res.value.pieces), res.value.problems, res.value.cache));
    }
  }

  /** Without custom readings, URLs or tags, `_process_text` is
      `_process_textpart` on the whole text. */
  lemma ProcessTextPlain(sp: Splitters, env: Env, inst: Instance, text: string, userdata: int)
    requires |inst.custom| == 0 && |text| > 0 && !HasTag(inst, text) && !Contains(text, UrlMark)
    ensures var r := ProcessText(sp, env, inst, text, userdata);
      var p := ProcessTextpart(sp, env, inst.cache, text, userdata);
      (r.Failed? <==> p.Failed?) &&
      (r.Failed? ==> r.problems == p.problems && r.cache == p.cache) &&
      (r.Done? ==> r.value == Processed(p.value.furigana, Render(p.value.pieces, inst.opentag, inst.closetag),
                                        p.value.pieces, p.value.problems, p.value.cache))
  {
    ProcessTextUntagged(sp, env, inst, text, userdata);
    SplitUrlTextNoUrl(text);
    PlainPart(sp, env, inst.opentag, inst.closetag, inst.cache, text, userdata);
    var p := ProcessTextpart(sp, env, inst.cache, text, userdata);
    if p.Done? {
      JoinSingle(Render(p.value.pieces, inst.opentag, inst.closetag));
      assert Flatten([p.value.pieces]) == p.value.pieces + Flatten([]);
    }
  }

  /** A lone plain part is annotated. */
  lemma PlainPart(sp: Splitters, env: Env, open: string, close: string, cache: Cache, text: string, userdata: int)
    ensures var p := ProcessTextpart(sp, env, cache, text, userdata);
      ProcessParts(sp, env, open, close, cache, [Part(text, false)], userdata) ==
        if p.Failed? then Failed(p.problems, p.cache)
        else Done(PartsOut(p.value.furigana, [Render(p.value.pieces, open, close)], [p.value.pieces], p.value.problems, p.value.cache))
  {
    var parts := [Part(text, false)];
    assert parts[1..] == [];
    var p := ProcessTextpart(sp, env, cache, text, userdata);
    if p.Done? {
      var c := p.value.cache;
      assert ProcessParts(sp, env, open, close, c, [], userdata) == Done(PartsOut(false, [], [], [], c));
      var none: seq<Problem> := [];
      var out := Render(p.value.pieces, open, close);
      assert [out] + [] == [out] && [p.value.pieces] + [] == [p.value.pieces] && p.value.problems + none == p.value.problems;
    }
  }

  /** A text without custom-reading tags is one part. */
  lemma WholeTextSplit(text: string)
    requires |text| > 0 && CustomOpen !in text
    ensures SplitCustReadTags(text) == Some([Part(text, false)])
  {
    var parts := [Part(text, false)];
    assert IsTagSplit(text, parts) by {
      assert Wrap(parts) == text + Wrap([]);
    }
    SplitCustReadTagsCharacterised(text, parts);
  }

  /** A text holding a URL (and nothing that aborts) always counts as having
      furigana: the URL is kept as it is. */
  lemma ProcessTextUrl(sp: Splitters, env: Env, inst: Instance, text: string, userdata: int)
    requires |inst.custom| == 0 && Contains(text, UrlMark)
    ensures var r := ProcessText(sp, env, inst, text, userdata); r.Done? ==> r.value.furigana
  {
    if ProcessText(sp, env, inst, text, userdata).Done? {
      var p :| 0 <= p <= |text| && MatchAt(text, UrlMark, p);
      assert |text| > 0;
      ProcessTextUntagged(sp, env, inst, text, userdata);
      UrlTextKeeps(text);
      var sp' := SplitUrlText(text);
      assert PartFurigana(env, sp'[1]);
    }
  }

  /** A text the custom readings turn into a single tagged reading is written
      as that reading, without consulting the collaborators or the cache. */
  lemma ProcessTextWholeCustom(sp: Splitters, env: Env, inst: Instance, text: string, userdata: int, x: string)
    requires !HasTag(inst, text)
    requires ApplyCustom(inst.custom, text).1 == [CustomOpen] + x + [CustomClose] && CustomClose !in x
    ensures ProcessText(sp, env, inst, text, userdata) == Done(Processed(true, x, [Plain(x)], [], inst.cache))
  {
    var parts := [Part(x, true)];
    assert IsTagSplit([CustomOpen] + x + [CustomClose], parts) by {
      assert Wrap(parts) == WrapOne(parts[0]) + Wrap([]);
    }
    SplitCustReadTagsCharacterised([CustomOpen] + x + [CustomClose], parts);
    assert SplitUrls(parts) == parts + SplitUrls([]);
    KeptPart(sp, env, inst.opentag, inst.closetag, inst.cache, x, userdata);
    JoinSingle(x);
    assert Flatten([[Plain(x)]]) == [Plain(x)] + Flatten([]);
    var changed := ApplyCustom(inst.custom, text).0;
    assert ProcessText(sp, env, inst, text, userdata) == Done(Processed(changed || true, Join([x]), Flatten([[Plain(x)]]), [], inst.cache));
    assert Join([x]) == x;
    assert Processed(changed || true, Join([x]), Flatten([[Plain(x)]]), [], inst.cache) == Processed(true, x, [Plain(x)], [], inst.cache);
  }

  /** A lone kept part is written as it is. */
  lemma KeptPart(sp: Splitters, env: Env, open: string, close: string, cache: Cache, x: string, userdata: int)
    ensures ProcessParts(sp, env, open, close, cache, [Part(x, true)], userdata) == Done(PartsOut(true, [x], [[Plain(x)]], [], cache))
  {
    var parts := [Part(x, true)];
    assert parts[1..] == [];
    assert ProcessParts(sp, env, open, close, cache, [], userdata) == Done(PartsOut(false, [], [], [], cache));
    assert ProcessPart(sp, env, open, close, cache, parts[0], userdata) == Done(PartsOut(true, [x], [[Plain(x)]], [], cache));
    var none: seq<Problem> := [];
    var nopieces: seq<seq<Piece>> := [];
    assert [x] + [] == [x] && none + none == none && [[Plain(x)]] + nopieces == [[Plain(x)]];
    assert ProcessParts(sp, env, open, close, cache, parts, userdata) == Done(PartsOut(true, [x] + [], [[Plain(x)]] + nopieces, none + none, cache));
  }

  /** Splitting a text with a URL yields a kept part. */
  lemma UrlTextKeeps(t: string)
    requires Contains(t, UrlMark)
    ensures |SplitUrlText(t)| > 1 && SplitUrlText(t)[1].custom
  {
    var p :| 0 <= p <= |t| && MatchAt(t, UrlMark, p);
    FindFirst(t, UrlMark, 0);
    assert Find(t, UrlMark, 0) >= 0;
  }
}

=== FILE: base.dfy ===
/** Small shared vocabulary: an optional value and string joining. */
module Base {

  /** A value that may be missing; `None` also stands for an aborted computation
      (a failed Python `assert`) where the source raises instead of returning. */
  datatype Option<+T> = None | Some(value: T)

  /** Python's `"".join(parts)`. */
  function Join(parts: seq<string>): (r: string)
    ensures |parts| == 0 ==> r == []
  {
    if |parts| == 0 then [] else parts[0] + Join(parts[1..])
  }

  lemma {:induction false} JoinAppend(a: seq<string>, b: seq<string>)
    ensures Join(a + b) == Join(a) + Join(b)
  {
    if |a| == 0 {
      assert a + b == b;
    } else {
      assert (a + b)[1..] == a[1..] + b;
      JoinAppend(a[1..], b);
    }
  }

  lemma JoinSingle(s: string)
    ensures Join([s]) == s
  {
    assert [s][1..] == [];
  }
}

=== FILE: collab.dfy ===
/** The engine's collaborators, given as data and functions: pykakasi's
    token stream and kana conversions, and the readings that jamdict and MeCab
    report for one kanji. */
module Collab {

  /** One token of `kakasi.convert`: the original text, its hiragana and its
      katakana. */
  datatype Token = Token(orig: string, hira: string, kana: string)

  /** What the dictionaries report for one kanji: jamdict's on-readings
      (katakana) and kun-readings (hiragana, possibly marked with `-` and
      `.`), and the seventh MeCab feature of each node with a surface. A
      missing dictionary reports nothing. */
  datatype Sources = Sources(on: seq<string>, kun: seq<string>, mecab: seq<string>)

  /** The collaborators of one instance. `kana2hira` and `hira2kana` are
      `_kana2hira` and `_hira2kana`: pykakasi conversions of kana. */
  datatype Env = Env(
    convert: string -> seq<Token>,
    kana2hira: string -> string,
    hira2kana: string -> string,
    dictionary: char -> Sources)
}

=== FILE: instancedata.dfy ===
/** The static tables of the engine (instancedata.py). */
module InstanceData {
  import opened Utils

  /** The prolonged-sound mark `ー` (U+30FC). */
  const LongVowelMark: char := 'ー'

  /** The five katakana vowel glyphs. */
  const Vowels: seq<char> := ['ア', 'イ', 'ウ', 'エ', 'オ']

  /** The source's vowel groups: the katakana whose sound ends in each vowel. */
  const GroupA: seq<char> := ['ア', 'カ', 'サ', 'タ', 'ナ', 'ハ', 'マ', 'ヤ', 'ラ', 'ワ', 'ガ', 'ザ', 'ダ', 'バ', 'パ', 'ャ']
  const GroupI: seq<char> := ['イ', 'キ', 'シ', 'チ', 'ニ', 'ヒ', 'ミ', 'リ', 'ヰ', 'ギ', 'ジ', 'ヂ', 'ビ', 'ピ']
  const GroupU: seq<char> := ['ウ', 'ク', 'ス', 'ツ', 'ヌ', 'フ', 'ム', 'ユ', 'ル', 'グ', 'ズ', 'ヅ', 'ブ', 'プ', 'ュ']
  const GroupE: seq<char> := ['エ', 'ケ', 'セ', 'テ', 'ネ', 'ヘ', 'メ', 'レ', 'ヱ', 'ゲ', 'ゼ', 'デ', 'ベ', 'ペ']
  const GroupO: seq<char> := ['オ', 'コ', 'ソ', 'ト', 'ノ', 'ホ', 'モ', 'ヨ', 'ロ', 'ヲ', 'ゴ', 'ゾ', 'ド', 'ボ', 'ポ', 'ョ']

  /** One inner loop of `katakana_vowels_init`: every glyph of `ks` is mapped to
      `v`, overwriting an earlier entry (the right operand of `+` wins). */
  function AddGroup(m: map<char, char>, v: char, ks: seq<char>): map<char, char>
  {
    m + map x | x in ks :: v
  }

  /** One group adds its glyphs to the keys and no others. */
  lemma AddGroupKeys(m: map<char, char>, v: char, ks: seq<char>)
    ensures forall x :: x in AddGroup(m, v, ks) <==> x in m || x in ks
  {
  }

  /** An entry whose glyph is not in the group survives it. */
  lemma AddGroupKeeps(m: map<char, char>, v: char, ks: seq<char>, x: char)
    requires x in m && x !in ks
    ensures x in AddGroup(m, v, ks) && AddGroup(m, v, ks)[x] == m[x]
  {
  }

  /** `_katakana_vowels` as `katakana_vowels_init` builds it, one group after the
      other in the source's dictionary order; keyed by character rather than by
      code point (`ord` is injective, so nothing is lost). */
  const KatakanaVowels: map<char, char> :=
    AddGroup(AddGroup(AddGroup(AddGroup(AddGroup(map[], 'ア', GroupA), 'イ', GroupI), 'ウ', GroupU), 'エ', GroupE), 'オ', GroupO)

  /** No katakana is listed in two vowel groups (one pair at a time). */
  lemma DisjointAI()
    ensures forall x :: x in GroupA ==> x !in GroupI
  {
  }

  lemma DisjointAU()
    ensures forall x :: x in GroupA ==> x !in GroupU
  {
  }

  lemma DisjointAE()
    ensures forall x :: x in GroupA ==> x !in GroupE
  {
  }

  lemma DisjointAO()
    ensures forall x :: x in GroupA ==> x !in GroupO
  {
  }

  lemma DisjointIU()
    ensures forall x :: x in GroupI ==> x !in GroupU
  {
  }

  lemma DisjointIE()
    ensures forall x :: x in GroupI ==> x !in GroupE
  {
  }

  lemma DisjointIO()
    ensures forall x :: x in GroupI ==> x !in GroupO
  {
  }

  lemma DisjointUE()
    ensures forall x :: x in GroupU ==> x !in GroupE
  {
  }

  lemma DisjointUO()
    ensures forall x :: x in GroupU ==> x !in GroupO
  {
  }

  lemma DisjointEO()
    ensures forall x :: x in GroupE ==> x !in GroupO
  {
  }

  /** Every glyph of group ア keeps vowel ア: no later group overwrites it. */
  lemma GroupAVowel()
    ensures forall x :: x in GroupA ==> x in KatakanaVowels && KatakanaVowels[x] == 'ア'
  {
    var m1 := AddGroup(map[], 'ア', GroupA);
    var m2 := AddGroup(m1, 'イ', GroupI);
    var m3 := AddGroup(m2, 'ウ', GroupU);
    var m4 := AddGroup(m3, 'エ', GroupE);
    var m5 := AddGroup(m4, 'オ', GroupO);
    assert KatakanaVowels == m5;
    DisjointAI();
    DisjointAU();
    DisjointAE();
    DisjointAO();
    forall x | x in GroupA
      ensures x in KatakanaVowels && KatakanaVowels[x] == 'ア'
    {
      assert x in m1 && m1[x] == 'ア';
      AddGroupKeeps(m1, 'イ', GroupI, x);
      AddGroupKeeps(m2, 'ウ', GroupU, x);
      AddGroupKeeps(m3, 'エ', GroupE, x);
      AddGroupKeeps(m4, 'オ', GroupO, x);
    }
  }

  /** Every glyph of group イ keeps vowel イ: no later group overwrites it. */
  lemma GroupIVowel()
    ensures forall x :: x in GroupI ==> x in KatakanaVowels && KatakanaVowels[x] == 'イ'
  {
    var m1 := AddGroup(map[], 'ア', GroupA);
    var m2 := AddGroup(m1, 'イ', GroupI);
    var m3 := AddGroup(m2, 'ウ', GroupU);
    var m4 := AddGroup(m3, 'エ', GroupE);
    var m5 := AddGroup(m4, 'オ', GroupO);
    assert KatakanaVowels == m5;
    DisjointIU();
    DisjointIE();
    DisjointIO();
    forall x | x in GroupI
      ensures x in KatakanaVowels && KatakanaVowels[x] == 'イ'
    {
      assert x in m2 && m2[x] == 'イ';
      AddGroupKeeps(m2, 'ウ', GroupU, x);
      AddGroupKeeps(m3, 'エ', GroupE, x);
      AddGroupKeeps(m4, 'オ', GroupO, x);
    }
  }

  /** Every glyph of group ウ keeps vowel ウ: no later group overwrites it. */
  lemma GroupUVowel()
    ensures forall x :: x in GroupU ==> x in KatakanaVowels && KatakanaVowels[x] == 'ウ'
  {
    var m1 := AddGroup(map[], 'ア', GroupA);
    var m2 := AddGroup(m1, 'イ', GroupI);
    var m3 := AddGroup(m2, 'ウ', GroupU);
    var m4 := AddGroup(m3, 'エ', GroupE);
    var m5 := AddGroup(m4, 'オ', GroupO);
    assert KatakanaVowels == m5;
    DisjointUE();
    DisjointUO();
    forall x | x in GroupU
      ensures x in KatakanaVowels && KatakanaVowels[x] == 'ウ'
    {
      assert x in m3 && m3[x] == 'ウ';
      AddGroupKeeps(m3, 'エ', GroupE, x);
      AddGroupKeeps(m4, 'オ', GroupO, x);
    }
  }

  /** Every glyph of group エ keeps vowel エ: no later group overwrites it. */
  lemma GroupEVowel()
    ensures forall x :: x in GroupE ==> x in KatakanaVowels && KatakanaVowels[x] == 'エ'
  {
    var m1 := AddGroup(map[], 'ア', GroupA);
    var m2 := AddGroup(m1, 'イ', GroupI);
    var m3 := AddGroup(m2, 'ウ', GroupU);
    var m4 := AddGroup(m3, 'エ', GroupE);
    var m5 := AddGroup(m4, 'オ', GroupO);
    assert KatakanaVowels == m5;
    DisjointEO();
    forall x | x in GroupE
      ensures x in KatakanaVowels && KatakanaVowels[x] == 'エ'
    {
      assert x in m4 && m4[x] == 'エ';
      AddGroupKeeps(m4, 'オ', GroupO, x);
    }
  }

  /** Every glyph of group オ keeps vowel オ: no later group overwrites it. */
  lemma GroupOVowel()
    ensures forall x :: x in GroupO ==> x in KatakanaVowels && KatakanaVowels[x] == 'オ'
  {
    var m1 := AddGroup(map[], 'ア', GroupA);
    var m2 := AddGroup(m1, 'イ', GroupI);
    var m3 := AddGroup(m2, 'ウ', GroupU);
    var m4 := AddGroup(m3, 'エ', GroupE);
    var m5 := AddGroup(m4, 'オ', GroupO);
    assert KatakanaVowels == m5;
    forall x | x in GroupO
      ensures x in KatakanaVowels && KatakanaVowels[x] == 'オ'
    {
      assert x in m5 && m5[x] == 'オ';
    }
  }

  /** The table's keys are exactly the grouped glyphs. */
  lemma KatakanaVowelsKeys()
    ensures forall x :: x in KatakanaVowels <==>
      x in GroupA || x in GroupI || x in GroupU || x in GroupE || x in GroupO
  {
    var m1 := AddGroup(map[], 'ア', GroupA);
    var m2 := AddGroup(m1, 'イ', GroupI);
    var m3 := AddGroup(m2, 'ウ', GroupU);
    var m4 := AddGroup(m3, 'エ', GroupE);
    var m5 := AddGroup(m4, 'オ', GroupO);
    assert KatakanaVowels == m5;
    AddGroupKeys(map[], 'ア', GroupA);
    AddGroupKeys(m1, 'イ', GroupI);
    AddGroupKeys(m2, 'ウ', GroupU);
    AddGroupKeys(m3, 'エ', GroupE);
    AddGroupKeys(m4, 'オ', GroupO);
  }

  /** The prolonged-sound mark is neither a key of the table nor a vowel. */
  lemma MarkNotInTable()
    ensures LongVowelMark !in KatakanaVowels && LongVowelMark !in Vowels
  {
    assert LongVowelMark !in GroupA && LongVowelMark !in GroupI && LongVowelMark !in GroupU;
    assert LongVowelMark !in GroupE && LongVowelMark !in GroupO;
    KatakanaVowelsKeys();
  }

  /** Every value is one of the five vowel glyphs. */
  lemma KatakanaVowelsValues()
    ensures forall x :: x in KatakanaVowels ==> KatakanaVowels[x] in Vowels
  {
    KatakanaVowelsKeys();
    GroupAVowel();
    GroupIVowel();
    GroupUVowel();
    GroupEVowel();
    GroupOVowel();
  }

  /** Each vowel glyph maps to itself. */
  lemma KatakanaVowelsFixed()
    ensures forall v :: v in Vowels ==> v in KatakanaVowels && KatakanaVowels[v] == v
  {
    GroupAVowel();
    GroupIVowel();
    GroupUVowel();
    GroupEVowel();
    GroupOVowel();
    assert GroupA[0] == 'ア' && GroupI[0] == 'イ' && GroupU[0] == 'ウ' && GroupE[0] == 'エ' && GroupO[0] == 'オ';
  }

  /** `_basehiragana`: each voiced or semi-voiced hiragana and its unvoiced base. */
  const BaseHiragana: map<char, char> := map[
    'が' := 'か', 'ざ' := 'さ', 'だ' := 'た', 'ば' := 'は', 'ぱ' := 'は',
    'ぎ' := 'き', 'じ' := 'し', 'ぢ' := 'ち', 'び' := 'ひ', 'ぴ' := 'ひ',
    'ぐ' := 'く', 'ず' := 'す', 'づ' := 'つ', 'ぶ' := 'ふ', 'ぷ' := 'ふ',
    'げ' := 'け', 'ぜ' := 'せ', 'で' := 'て', 'べ' := 'へ', 'ぺ' := 'へ',
    'ご' := 'こ', 'ぞ' := 'そ', 'ど' := 'と', 'ぼ' := 'ほ', 'ぽ' := 'ほ'
  ]

  /** The base form of a character: its table entry, or itself. */
  function Base(c: char): char
  {
    if c in BaseHiragana then BaseHiragana[c] else c
  }

  /** No base form is itself voiced. */
  lemma BaseHiraganaUnvoiced()
    ensures forall k :: k in BaseHiragana ==> BaseHiragana[k] !in BaseHiragana
  {
  }

  /** Taking the base twice is taking it once. */
  lemma BaseIdempotent(c: char)
    ensures Base(Base(c)) == Base(c)
  {
    BaseHiraganaUnvoiced();
  }

  /** `_kanjinumbers`: the numeral glyphs one to ten and zero. */
  const KanjiNumbers: seq<char> := ['一', '二', '三', '四', '五', '六', '七', '八', '九', '十', '零']

  /** Every numeral glyph is classified as kanji. */
  lemma KanjiNumbersAreKanji()
    ensures forall i :: 0 <= i < |KanjiNumbers| ==> IsKanji(KanjiNumbers[i])
  {
  }
}

=== FILE: markup.dfy ===
/** Splitting a text into the parts the engine annotates and the parts it
    leaves alone: custom word readings between `<` and `>`
    (`_split_custreadtags`) and URLs (`_split_urls`). */
module Markup {
  import opened Base
  import opened PyStr

  /** The tags around an applied word reading (instanceprv.py:53-54). */
  const CustomOpen: char := '<'
  const CustomClose: char := '>'

  /** A part of a text and whether it is kept as it is (`iswordreading`). */
  datatype Part = Part(text: string, custom: bool)

  // ---------------------------------------------------------------------------
  // Custom reading tags

  /** One part as it stood in the text: a custom part inside its tags. */
  function WrapOne(p: Part): (r: string)
    ensures p.custom ==> |r| == |p.text| + 2 && r[0] == CustomOpen && r[|r| - 1] == CustomClose
    ensures !p.custom ==> r == p.text
  {
    if p.custom then [CustomOpen] + p.text + [CustomClose] else p.text
  }

  /** The text the parts were split from. */
  function Wrap(parts: seq<Part>): string
  {
    if |parts| == 0 then [] else WrapOne(parts[0]) + Wrap(parts[1..])
  }

  lemma {:induction false} WrapAppend(a: seq<Part>, b: seq<Part>)
    ensures Wrap(a + b) == Wrap(a) + Wrap(b)
  {
    if |a| == 0 {
      assert a + b == b;
    } else {
      assert (a + b)[1..] == a[1..] + b;
      WrapAppend(a[1..], b);
    }
  }

  /** A plain part is non-empty and holds no open tag; a custom part holds no
      close tag. */
  predicate WellFormed(p: Part)
  {
    if p.custom then CustomClose !in p.text else |p.text| > 0 && CustomOpen !in p.text
  }

  /** `parts` is a split of `s` at its tags: it puts `s` back together, every
      part is well formed, and no two plain parts are adjacent. */
  predicate IsTagSplit(s: string, parts: seq<Part>)
  {
    Wrap(parts) == s &&
    (forall i :: 0 <= i < |parts| ==> WellFormed(parts[i])) &&
    (forall i :: 0 < i < |parts| ==> parts[i - 1].custom || parts[i].custom)
  }

  /** Some open tag of `s` has no close tag after it. */
  predicate Unclosed(s: string)
  {
    exists p :: 0 <= p < |s| && s[p] == CustomOpen && CustomClose !in s[p + 1..]
  }

  /** `_split_custreadtags` with the instance's tags. The source asserts that
      every open tag it meets has a close tag after it; that failure is
      `None`. */
  function SplitCustReadTags(text: string): (r: Option<seq<Part>>)
    ensures r.None? <==> Unclosed(text)
    ensures r.Some? ==> IsTagSplit(text, r.value)
  {
    assert text[0..] == text;
    SplitTagsFrom(text, 0)
  }

  /** The plain text before an open tag, if there is any. */
  function Head(text: string, start: nat, pos: nat): (r: seq<Part>)
    requires start <= pos <= |text|
    ensures Wrap(r) == text[start..pos]
  {
    if start < pos then [Part(text[start..pos], false)] else []
  }

  /** The loop of `_split_custreadtags` from index `start`; `IndexOf` is the
      source's `find` of a one-character tag (`IndexOfIsFind`). */
  function SplitTagsFrom(text: string, start: nat): (r: Option<seq<Part>>)
    requires start <= |text|
    ensures r.None? <==> Unclosed(text[start..])
    ensures r.Some? ==> IsTagSplit(text[start..], r.value)
    decreases |text| - start
  {
    var pos := IndexOf(text, CustomOpen, start);
    if pos < 0 then
      NoOpen(text, start);
      if start < |text| then Some([Part(text[start..], false)]) else Some([])
    else
      var pos2 := IndexOf(text, CustomClose, pos);
      if pos2 <= pos then
        MissingClose(text, start, pos);
        None
      else
        TagStepUnclosed(text, start, pos, pos2);
        match SplitTagsFrom(text, pos2 + 1)
        case None => None
        case Some(rest) =>
          TagStepSplit(text, start, pos, pos2, rest);
          Some(Head(text, start, pos) + [Part(text[pos + 1..pos2], true)] + rest)
  }

  lemma NoOpen(text: string, start: nat)
    requires start <= |text|
    requires forall q :: start <= q < |text| ==> text[q] != CustomOpen
    ensures !Unclosed(text[start..])
    ensures IsTagSplit(text[start..], if start < |text| then [Part(text[start..], false)] else [])
  {
    var s := text[start..];
    assert forall q :: 0 <= q < |s| ==> s[q] == text[start + q];
    assert CustomOpen !in s;
    assert Wrap([Part(s, false)]) == s + Wrap([]);
  }

  lemma MissingClose(text: string, start: nat, pos: nat)
    requires start <= pos < |text| && text[pos] == CustomOpen
    requires forall q :: pos <= q < |text| ==> text[q] != CustomClose
    ensures Unclosed(text[start..])
  {
    var s := text[start..];
    var t := text[pos + 1..];
    assert s[pos - start] == CustomOpen;
    assert s[pos - start + 1..] == t;
    assert forall q :: 0 <= q < |t| ==> t[q] == text[pos + 1 + q];
    assert CustomClose !in t;
  }

  lemma TagStepUnclosed(text: string, start: nat, pos: nat, pos2: nat)
    requires start <= pos < pos2 < |text|
    requires forall q :: start <= q < pos ==> text[q] != CustomOpen
    requires forall q :: pos <= q < pos2 ==> text[q] != CustomClose
    requires text[pos2] == CustomClose
    ensures Unclosed(text[start..]) <==> Unclosed(text[pos2 + 1..])
  {
    UnclosedLater(text, start, pos2);
    UnclosedEarlier(text, start, pos, pos2);
  }

  /** An open tag left unclosed after `pos2` is left unclosed in any suffix
      that holds it. */
  lemma UnclosedLater(text: string, start: nat, pos2: nat)
    requires start <= pos2 < |text|
    ensures Unclosed(text[pos2 + 1..]) ==> Unclosed(text[start..])
  {
    var s := text[start..];
    var t := text[pos2 + 1..];
    if Unclosed(t) {
      var p :| 0 <= p < |t| && t[p] == CustomOpen && CustomClose !in t[p + 1..];
      var q := p + pos2 + 1 - start;
      assert s[q] == CustomOpen;
      assert s[q + 1..] == t[p + 1..];
    }
  }

  /** An open tag left unclosed from `start` lies after the tag that
      `pos2` closes. */
  lemma UnclosedEarlier(text: string, start: nat, pos: nat, pos2: nat)
    requires start <= pos < pos2 < |text|
    requires forall q :: start <= q < pos ==> text[q] != CustomOpen
    requires text[pos2] == CustomClose
    ensures Unclosed(text[start..]) ==> Unclosed(text[pos2 + 1..])
  {
    var s := text[start..];
    var t := text[pos2 + 1..];
    if Unclosed(s) {
      var q :| 0 <= q < |s| && s[q] == CustomOpen && CustomClose !in s[q + 1..];
      var j := start + q;
      assert text[j] == CustomOpen;
      var u := s[q + 1..];
      assert u == text[j + 1..];
      assert j >= pos;
      assert forall k :: 0 <= k < |u| ==> u[k] == text[j + 1 + k];
      assert j > pos2;
      var p := j - pos2 - 1;
      assert t[p] == CustomOpen;
      assert t[p + 1..] == u;
    }
  }

  lemma TagStepSplit(text: string, start: nat, pos: nat, pos2: nat, rest: seq<Part>)
    requires start <= pos < pos2 < |text|
    requires forall q :: start <= q < pos ==> text[q] != CustomOpen
    requires forall q :: pos <= q < pos2 ==> text[q] != CustomClose
    requires text[pos] == CustomOpen && text[pos2] == CustomClose
    requires IsTagSplit(text[pos2 + 1..], rest)
    ensures IsTagSplit(text[start..], Head(text, start, pos) + [Part(text[pos + 1..pos2], true)] + rest)
  {
    TagStepWrap(text, start, pos, pos2, rest);
    HeadWellFormed(text, start, pos);
    var m := text[pos + 1..pos2];
    assert forall q :: 0 <= q < |m| ==> m[q] == text[pos + 1 + q];
    assert CustomClose !in m;
    CustomStepShape(Head(text, start, pos), m, rest);
  }

  /** The plain text before the first open tag is well formed. */
  lemma HeadWellFormed(text: string, start: nat, pos: nat)
    requires start <= pos <= |text|
    requires forall q :: start <= q < pos ==> text[q] != CustomOpen
    ensures |Head(text, start, pos)| <= 1
    ensures forall i :: 0 <= i < |Head(text, start, pos)| ==> WellFormed(Head(text, start, pos)[i]) && !Head(text, start, pos)[i].custom
  {
    var h := text[start..pos];
    assert forall q :: 0 <= q < |h| ==> h[q] == text[start + q];
    assert CustomOpen !in h;
  }

  /** At most one plain part, a kept part, and a split: every part is well
      formed and no two plain parts are adjacent. */
  lemma CustomStepShape(head: seq<Part>, m: string, rest: seq<Part>)
    requires |head| <= 1 && forall i :: 0 <= i < |head| ==> WellFormed(head[i])
    requires CustomClose !in m
    requires forall i :: 0 <= i < |rest| ==> WellFormed(rest[i])
    requires forall i :: 0 < i < |rest| ==> rest[i - 1].custom || rest[i].custom
    ensures var parts := head + [Part(m, true)] + rest;
      (forall i :: 0 <= i < |parts| ==> WellFormed(parts[i])) &&
      (forall i :: 0 < i < |parts| ==> parts[i - 1].custom || parts[i].custom)
  {
    var parts := head + [Part(m, true)] + rest;
    forall i | 0 <= i < |parts|
      ensures WellFormed(parts[i])
    {
      if i > |head| {
        assert parts[i] == rest[i - |head| - 1];
      }
    }
    forall i | 0 < i < |parts|
      ensures parts[i - 1].custom || parts[i].custom
    {
      if i > |head| + 1 {
        assert parts[i] == rest[i - |head| - 1];
        assert parts[i - 1] == rest[i - |head| - 2];
      }
    }
  }

  lemma TagStepWrap(text: string, start: nat, pos: nat, pos2: nat, rest: seq<Part>)
    requires start <= pos < pos2 < |text|
    requires text[pos] == CustomOpen && text[pos2] == CustomClose
    requires Wrap(rest) == text[pos2 + 1..]
    ensures Wrap(Head(text, start, pos) + [Part(text[pos + 1..pos2], true)] + rest) == text[start..]
  {
    WrapCustomStep(Head(text, start, pos), text[pos + 1..pos2], rest);
    Around(text, start, pos, pos2);
  }

  lemma WrapCustomStep(h: seq<Part>, m: string, rest: seq<Part>)
    ensures Wrap(h + [Part(m, true)] + rest) == Wrap(h) + ([CustomOpen] + m + [CustomClose]) + Wrap(rest)
  {
    var c := Part(m, true);
    WrapAppend(h + [c], rest);
    WrapAppend(h, [c]);
    var w := WrapOne(c);
    assert w == [CustomOpen] + m + [CustomClose];
    assert Wrap([c]) == w by {
      assert Wrap([c]) == w + Wrap([]);
    }
    assert Wrap(h + [c]) == Wrap(h) + w;
  }

  /** A text cut around two positions. */
  lemma Around(text: string, start: nat, pos: nat, pos2: nat)
    requires start <= pos < pos2 < |text|
    ensures text[start..] == text[start..pos] + ([text[pos]] + text[pos + 1..pos2] + [text[pos2]]) + text[pos2 + 1..]
  {
    assert text[start..] == text[start..pos] + text[pos..];
    assert text[pos..] == [text[pos]] + text[pos + 1..];
    assert text[pos + 1..] == text[pos + 1..pos2] + text[pos2..];
    assert text[pos2..] == [text[pos2]] + text[pos2 + 1..];
  }

  /** A text split at its tags closes every open tag. */
  lemma {:induction false} TagSplitClosed(s: string, parts: seq<Part>)
    requires IsTagSplit(s, parts)
    ensures !Unclosed(s)
    decreases |parts|
  {
    if |parts| > 0 {
      TailSplit(s, parts);
      TagSplitClosed(Wrap(parts[1..]), parts[1..]);
      FirstClosed(parts[0]);
      ClosedAppend(WrapOne(parts[0]), Wrap(parts[1..]));
    }
  }

  /** Two texts that close their open tags still do so together. */
  lemma ClosedAppend(x: string, y: string)
    requires !Unclosed(x) && !Unclosed(y)
    ensures !Unclosed(x + y)
  {
    var s := x + y;
    forall p | 0 <= p < |s| && s[p] == CustomOpen
      ensures CustomClose in s[p + 1..]
    {
      if p < |x| {
        assert x[p] == CustomOpen;
        var k :| 0 <= k < |x[p + 1..]| && x[p + 1..][k] == CustomClose;
        assert s[p + 1..][k] == CustomClose;
      } else {
        var q := p - |x|;
        assert y[q] == CustomOpen;
        assert s[p + 1..] == y[q + 1..];
      }
    }
  }

  /** Inside one well-formed part, every open tag is followed by a close
      tag. */
  lemma FirstClosed(p: Part)
    requires WellFormed(p)
    ensures !Unclosed(WrapOne(p))
  {
    var w := WrapOne(p);
    if p.custom {
      forall k | 0 <= k < |w| && w[k] == CustomOpen
        ensures CustomClose in w[k + 1..]
      {
        assert w[k + 1..][|w| - k - 2] == w[|w| - 1];
      }
    } else {
      assert forall k :: 0 <= k < |w| ==> w[k] != CustomOpen;
    }
  }

  /** The split at the tags, if any, is unique. */
  lemma {:induction false} TagSplitUnique(s: string, a: seq<Part>, b: seq<Part>)
    requires IsTagSplit(s, a) && IsTagSplit(s, b)
    ensures a == b
    decreases |s|
  {
    NonEmptyWrap(a);
    NonEmptyWrap(b);
    if |s| > 0 {
      TailSplit(s, a);
      TailSplit(s, b);
      FirstPartUnique(s, a, b);
      TagSplitUnique(Wrap(a[1..]), a[1..], b[1..]);
      assert a == [a[0]] + a[1..];
      assert b == [b[0]] + b[1..];
    }
  }

  lemma NonEmptyWrap(parts: seq<Part>)
    requires forall i :: 0 <= i < |parts| ==> WellFormed(parts[i])
    ensures |parts| > 0 <==> |Wrap(parts)| > 0
  {
    if |parts| > 0 {
      assert WellFormed(parts[0]);
    }
  }

  /** Dropping the first part leaves a split of the rest of the text. */
  lemma TailSplit(s: string, parts: seq<Part>)
    requires IsTagSplit(s, parts) && |parts| > 0
    ensures IsTagSplit(Wrap(parts[1..]), parts[1..])
    ensures s == WrapOne(parts[0]) + Wrap(parts[1..]) && |WrapOne(parts[0])| > 0
    ensures WellFormed(parts[0])
    ensures |parts| > 1 && !parts[0].custom ==> parts[1].custom
  {
    assert WellFormed(parts[0]);
    forall i | 0 < i < |parts[1..]|
      ensures parts[1..][i - 1].custom || parts[1..][i].custom
    {
      assert parts[1..][i - 1] == parts[i] && parts[1..][i] == parts[i + 1];
    }
  }

  /** Two splits of the same text agree on their first part. */
  lemma FirstPartUnique(s: string, a: seq<Part>, b: seq<Part>)
    requires IsTagSplit(s, a) && IsTagSplit(s, b) && |a| > 0 && |b| > 0
    ensures a[0] == b[0] && Wrap(a[1..]) == Wrap(b[1..])
  {
    TailSplit(s, a);
    TailSplit(s, b);
    FirstPartSame(s, a, b);
    var x := WrapOne(a[0]);
    assert s[|x|..] == Wrap(a[1..]) && s[|x|..] == Wrap(b[1..]);
  }

  /** The first part of a split is fixed by the text: its kind by the first
      character, its text by the first tag that ends it. */
  lemma FirstPartSame(s: string, a: seq<Part>, b: seq<Part>)
    requires IsTagSplit(s, a) && IsTagSplit(s, b) && |a| > 0 && |b| > 0
    ensures a[0] == b[0]
  {
    FirstKindSame(s, a, b);
    if a[0].custom {
      CustomFirstSame(s, a, b);
    } else {
      PlainFirstSame(s, a, b);
    }
  }

  /** Both first parts are custom, or neither is. */
  lemma FirstKindSame(s: string, a: seq<Part>, b: seq<Part>)
    requires IsTagSplit(s, a) && IsTagSplit(s, b) && |a| > 0 && |b| > 0
    ensures a[0].custom == b[0].custom
  {
    TailSplit(s, a);
    TailSplit(s, b);
    StartsWithOpen(a[0]);
    StartsWithOpen(b[0]);
    assert WrapOne(a[0])[0] == s[0] == WrapOne(b[0])[0];
  }

  lemma CustomFirstSame(s: string, a: seq<Part>, b: seq<Part>)
    requires IsTagSplit(s, a) && IsTagSplit(s, b) && |a| > 0 && |b| > 0
    requires a[0].custom && b[0].custom
    ensures a[0] == b[0]
  {
    assert WellFormed(a[0]) && WellFormed(b[0]);
    CustomFirst(s, a);
    CustomFirst(s, b);
    PrefixBeforeMark(s + [CustomOpen, CustomClose], a[0].text, b[0].text, CustomClose, 1);
  }

  lemma PlainFirstSame(s: string, a: seq<Part>, b: seq<Part>)
    requires IsTagSplit(s, a) && IsTagSplit(s, b) && |a| > 0 && |b| > 0
    requires !a[0].custom && !b[0].custom
    ensures a[0] == b[0]
  {
    assert WellFormed(a[0]) && WellFormed(b[0]);
    PlainFirst(s, a);
    PlainFirst(s, b);
    PrefixBeforeMark(s + [CustomOpen, CustomClose], a[0].text, b[0].text, CustomOpen, 0);
  }

  /** A part begins with an open tag exactly when it is custom. */
  lemma StartsWithOpen(p: Part)
    requires WellFormed(p)
    ensures |WrapOne(p)| > 0 && (WrapOne(p)[0] == CustomOpen <==> p.custom)
  {
    if !p.custom {
      assert p.text[0] in p.text;
    }
  }

  /** A custom first part runs from after the open tag up to the first close
      tag. */
  lemma CustomFirst(s: string, parts: seq<Part>)
    requires IsTagSplit(s, parts) && |parts| > 0 && parts[0].custom
    ensures var t := parts[0].text;
      |t| + 1 < |s| + 2 && (s + [CustomOpen, CustomClose])[1..|t| + 2] == t + [CustomClose]
  {
    TailSplit(s, parts);
    var t := parts[0].text;
    assert s == [CustomOpen] + t + [CustomClose] + Wrap(parts[1..]);
    assert (s + [CustomOpen, CustomClose])[1..|t| + 2] == s[1..|t| + 2];
  }

  /** A plain first part runs up to the first open tag, or to the end. */
  lemma PlainFirst(s: string, parts: seq<Part>)
    requires IsTagSplit(s, parts) && |parts| > 0 && !parts[0].custom
    ensures var t := parts[0].text;
      |t| < |s| + 2 && (s + [CustomOpen, CustomClose])[0..|t| + 1] == t + [CustomOpen]
  {
    TailSplit(s, parts);
    var t := parts[0].text;
    var s' := s + [CustomOpen, CustomClose];
    if |parts| > 1 {
      TailSplit(Wrap(parts[1..]), parts[1..]);
      StartsWithOpen(parts[1]);
      var w := Wrap(parts[1..]);
      assert s == t + w && w[0] == CustomOpen;
      assert s'[|t|] == CustomOpen;
    } else {
      assert parts[1..] == [];
      assert s == t;
    }
    assert s'[0..|t| + 1] == s'[0..|t|] + [s'[|t|]];
  }

  /** Two strings free of `m` that, each followed by `m`, start a text at
      `off` are equal. */
  lemma PrefixBeforeMark(s: string, x: string, y: string, m: char, off: nat)
    requires m !in x && m !in y
    requires off + |x| < |s| && s[off..off + |x| + 1] == x + [m]
    requires off + |y| < |s| && s[off..off + |y| + 1] == y + [m]
    ensures x == y
  {
    NoMarkBefore(s, x, m, off);
    NoMarkBefore(s, y, m, off);
    assert s[off + |x|] == m && s[off + |y|] == m;
    assert |x| == |y|;
    assert (x + [m])[..|x|] == x && (y + [m])[..|y|] == y;
    assert s[off..off + |x| + 1][..|x|] == s[off..off + |x|];
    assert x == s[off..off + |x|] == y;
  }

  /** The mark does not occur in `s` between `off` and the end of `x`, and
      occurs right after it. */
  lemma NoMarkBefore(s: string, x: string, m: char, off: nat)
    requires m !in x
    requires off + |x| < |s| && s[off..off + |x| + 1] == x + [m]
    ensures forall j :: off <= j < off + |x| ==> s[j] != m
    ensures s[off + |x|] == m
  {
    assert s[off + |x|] == s[off..off + |x| + 1][|x|] == (x + [m])[|x|];
    forall j | off <= j < off + |x|
      ensures s[j] != m
    {
      assert s[j] == s[off..off + |x| + 1][j - off] == x[j - off];
    }
  }

  /** The tag split succeeds exactly on texts that have a split at their tags,
      and then it is that split. */
  lemma SplitCustReadTagsCharacterised(text: string, q: seq<Part>)
    ensures IsTagSplit(text, q) <==> SplitCustReadTags(text) == Some(q)
  {
    if IsTagSplit(text, q) {
      TagSplitClosed(text, q);
      TagSplitUnique(text, q, SplitCustReadTags(text).value);
    }
  }

  // ---------------------------------------------------------------------------
  // URLs

  /** The marker `_split_urls` looks for. */
  const UrlMark: string := "://"

  /** The texts of the parts, concatenated. */
  function Flat(parts: seq<Part>): string
  {
    if |parts| == 0 then [] else parts[0].text + Flat(parts[1..])
  }

  lemma {:induction false} FlatAppend(a: seq<Part>, b: seq<Part>)
    ensures Flat(a + b) == Flat(a) + Flat(b)
  {
    if |a| == 0 {
      assert a + b == b;
    } else {
      assert (a + b)[1..] == a[1..] + b;
      FlatAppend(a[1..], b);
    }
  }

  /** The start search of `_split_urls`: from index `a` leftwards, the first
      whitespace character, or -1 (`ScanBackStops`). */
  function ScanBack(t: string, a: int): (r: int)
    requires -1 <= a < |t|
    ensures -1 <= r <= a
    decreases a + 1
  {
    if a >= 0 && !IsSpace(t[a]) then ScanBack(t, a - 1) else a
  }

  /** The start search stops at whitespace or before the text, and passes
      over no whitespace. */
  lemma {:induction false} ScanBackStops(t: string, a: int)
    requires -1 <= a < |t|
    ensures var r := ScanBack(t, a);
      (r >= 0 ==> IsSpace(t[r])) && forall k :: r < k <= a ==> !IsSpace(t[k])
    decreases a + 1
  {
    if a >= 0 && !IsSpace(t[a]) {
      ScanBackStops(t, a - 1);
    }
  }

  /** The end search of `_split_urls`: from index `b` rightwards, the first
      whitespace character, or the end (`ScanForwardStops`). */
  function ScanForward(t: string, b: nat): (r: nat)
    requires b <= |t|
    ensures b <= r <= |t|
    decreases |t| - b
  {
    if b < |t| && !IsSpace(t[b]) then ScanForward(t, b + 1) else b
  }

  /** The end search stops at whitespace or at the end, and passes over no
      whitespace. */
  lemma {:induction false} ScanForwardStops(t: string, b: nat)
    requires b <= |t|
    ensures var r := ScanForward(t, b);
      (r < |t| ==> IsSpace(t[r])) && forall k :: b <= k < r ==> !IsSpace(t[k])
    decreases |t| - b
  {
    if b < |t| && !IsSpace(t[b]) {
      ScanForwardStops(t, b + 1);
    }
  }

  /** What `_split_urls` turns one plain part into: the text before the first
      URL, the URL as a kept part, and then the rest, which the loop visits
      next. The text around a URL may be empty. */
  function SplitUrlText(t: string): (r: seq<Part>)
    ensures |r| > 0
    decreases |t|
  {
    match UrlCutAt(t)
    case None => [Part(t, false)]
    case Some((i, j)) => [Part(t[..i], false), Part(t[i..j], true)] + SplitUrlText(t[j..])
  }

  /** Where `_split_urls` cuts a text: around the first marker, from just
      after the whitespace before it to the whitespace after it; `None` when
      the text holds no marker. */
  function UrlCutAt(t: string): (r: Option<(nat, nat)>)
    ensures r.None? <==> Find(t, UrlMark, 0) < 0
    ensures r.Some? ==> r.value.0 <= Find(t, UrlMark, 0) && Find(t, UrlMark, 0) + 3 <= r.value.1 <= |t|
  {
    var pos := Find(t, UrlMark, 0);
    if pos < 0 then None
    else Some((ScanBack(t, pos - 1) + 1, ScanForward(t, pos + 3)))
  }

  /** `_split_urls`: kept parts stay; every plain part is split around its
      URLs. */
  function SplitUrls(parts: seq<Part>): (r: seq<Part>)
    ensures Flat(r) == Flat(parts)
  {
    if |parts| == 0 then []
    else
      var first := if parts[0].custom then [parts[0]] else SplitUrlText(parts[0].text);
      SplitUrlTextFlat(parts[0].text);
      FlatAppend(first, SplitUrls(parts[1..]));
      first + SplitUrls(parts[1..])
  }

  /** Splitting around URLs loses and adds no text. */
  lemma {:induction false} SplitUrlTextFlat(t: string)
    ensures Flat(SplitUrlText(t)) == t
    decreases |t|
  {
    var pos := Find(t, UrlMark, 0);
    if pos >= 0 {
      var a := ScanBack(t, pos - 1);
      var b := ScanForward(t, pos + 3);
      SplitUrlTextCut(t, pos, a, b);
      SplitUrlTextFlat(t[b..]);
      FlatCut(t, a + 1, b, SplitUrlText(t[b..]));
    } else {
      assert SplitUrlText(t) == [Part(t, false)];
      assert Flat([Part(t, false)]) == t + Flat([]);
    }
  }

  /** One step of `SplitUrlText`: the cut around the first marker, then the
      split of the rest. */
  lemma SplitUrlTextCut(t: string, pos: int, a: int, b: nat)
    requires pos == Find(t, UrlMark, 0) && pos >= 0
    requires a == ScanBack(t, pos - 1) && b == ScanForward(t, pos + 3)
    ensures SplitUrlText(t) == [Part(t[..a + 1], false), Part(t[a + 1..b], true)] + SplitUrlText(t[b..])
  {
    UrlCutIs(t, pos, a, b);
  }

  /** The cut of a text holding the marker, spelled out. */
  lemma UrlCutIs(t: string, pos: int, a: int, b: nat)
    requires pos == Find(t, UrlMark, 0) && pos >= 0
    requires a == ScanBack(t, pos - 1) && b == ScanForward(t, pos + 3)
    ensures 0 <= a + 1 <= b <= |t| && UrlCutAt(t) == Some((a + 1, b))
  {
  }

  lemma FlatCut(t: string, i: nat, j: nat, tail: seq<Part>)
    requires i <= j <= |t| && Flat(tail) == t[j..]
    ensures Flat([Part(t[..i], false), Part(t[i..j], true)] + tail) == t
  {
    var front := [Part(t[..i], false), Part(t[i..j], true)];
    FlatAppend(front, tail);
    assert Flat(front) == t[..i] + (t[i..j] + Flat([]));
    Thirds(t, i, j);
  }

  /** No character of the marker is whitespace. */
  lemma UrlMarkNotSpace()
    ensures forall k :: 0 <= k < |UrlMark| ==> !IsSpace(UrlMark[k])
  {
  }

  /** A URL: holds the marker and no whitespace. */
  predicate IsUrl(u: string)
  {
    Contains(u, UrlMark) && forall k :: 0 <= k < |u| ==> !IsSpace(u[k])
  }

  /** No plain part holds the marker. */
  predicate PlainNoUrl(r: seq<Part>)
  {
    forall i :: 0 <= i < |r| && !r[i].custom ==> !Contains(r[i].text, UrlMark)
  }

  /** The parts made from one plain text: plain parts hold no marker; kept
      parts are URLs, with whitespace or nothing on either side. */
  predicate UrlSplitShape(r: seq<Part>)
  {
    PlainNoUrl(r) &&
    (forall i :: 0 <= i < |r| && r[i].custom ==>
       IsUrl(r[i].text) && 0 < i < |r| - 1 && SpaceAround(r[i - 1], r[i + 1]))
  }

  /** The plain parts on either side of a URL: the one before ends in
      whitespace and the one after starts with it, unless empty. */
  predicate SpaceAround(before: Part, after: Part)
  {
    !before.custom && !after.custom &&
    (|before.text| == 0 || IsSpace(before.text[|before.text| - 1])) &&
    (|after.text| == 0 || IsSpace(after.text[0]))
  }

  /** Every URL is cut out whole and nothing else is kept. */
  lemma {:induction false} SplitUrlTextShape(t: string)
    ensures UrlSplitShape(SplitUrlText(t))
    decreases |t|
  {
    var pos := Find(t, UrlMark, 0);
    if pos >= 0 {
      var b := ScanForward(t, pos + 3);
      SplitUrlTextShape(t[b..]);
      ShapeStep(t, pos, ScanBack(t, pos - 1), b);
    } else {
      FindFirst(t, UrlMark, 0);
      assert !Contains(t, UrlMark);
    }
  }

  lemma ShapeStep(t: string, pos: int, a: int, b: nat)
    requires pos == Find(t, UrlMark, 0) && pos >= 0
    requires a == ScanBack(t, pos - 1) && b == ScanForward(t, pos + 3)
    requires UrlSplitShape(SplitUrlText(t[b..]))
    ensures UrlSplitShape(SplitUrlText(t))
  {
    var tail := SplitUrlText(t[b..]);
    SplitUrlTextCut(t, pos, a, b);
    UrlCut(t, pos, a, b);
    FirstPlain(t, b);
    ShapeCons(t[..a + 1], t[a + 1..b], tail);
  }

  /** A plain prefix, a URL and the split of the rest make a split. */
  lemma ShapeCons(x: string, u: string, tail: seq<Part>)
    requires !Contains(x, UrlMark) && (|x| == 0 || IsSpace(x[|x| - 1]))
    requires IsUrl(u)
    requires UrlSplitShape(tail) && |tail| > 0 && !tail[0].custom
    requires |tail[0].text| == 0 || IsSpace(tail[0].text[0])
    ensures UrlSplitShape([Part(x, false), Part(u, true)] + tail)
  {
    var r := [Part(x, false), Part(u, true)] + tail;
    forall i | 0 <= i < |r| && !r[i].custom
      ensures !Contains(r[i].text, UrlMark)
    {
      if i >= 2 {
        assert r[i] == tail[i - 2];
      }
    }
    forall i | 2 <= i < |r| && r[i].custom
      ensures IsUrl(r[i].text) && i < |r| - 1 && SpaceAround(r[i - 1], r[i + 1])
    {
      assert r[i] == tail[i - 2] && r[i + 1] == tail[i - 1] && r[i - 1] == tail[i - 3];
    }
    assert r[2] == tail[0];
    assert SpaceAround(r[0], r[2]);
  }

  /** The cut around the first marker of `t`: the prefix holds no marker and
      ends in whitespace if it is not empty; the cut is a URL; the rest is
      empty or starts with whitespace. */
  lemma UrlCut(t: string, pos: int, a: int, b: nat)
    requires pos == Find(t, UrlMark, 0) && pos >= 0
    requires a == ScanBack(t, pos - 1) && b == ScanForward(t, pos + 3)
    ensures 0 <= a + 1 <= pos && pos + 3 <= b <= |t|
    ensures !Contains(t[..a + 1], UrlMark)
    ensures a + 1 == 0 || IsSpace(t[..a + 1][a])
    ensures IsUrl(t[a + 1..b])
    ensures b < |t| ==> IsSpace(t[b])
  {
    ScanBackStops(t, pos - 1);
    ScanForwardStops(t, pos + 3);
    FindFirst(t, UrlMark, 0);
    UrlCutFacts(t, pos, a, b);
  }

  lemma UrlCutFacts(t: string, pos: nat, a: int, b: nat)
    requires MatchAt(t, UrlMark, pos) && forall p :: 0 <= p < pos ==> !MatchAt(t, UrlMark, p)
    requires -1 <= a < pos && (a >= 0 ==> IsSpace(t[a])) && forall k :: a < k < pos ==> !IsSpace(t[k])
    requires pos + 3 <= b <= |t| && forall k :: pos + 3 <= k < b ==> !IsSpace(t[k])
    ensures !Contains(t[..a + 1], UrlMark)
    ensures a + 1 == 0 || IsSpace(t[..a + 1][a])
    ensures IsUrl(t[a + 1..b])
  {
    PrefixNoMatch(t, UrlMark, a + 1);
    if a >= 0 {
      assert t[..a + 1][a] == t[a];
    }
    UrlBody(t, pos, a, b);
  }

  /** The text from after the whitespace before the marker to the whitespace
      after it is a URL. */
  lemma UrlBody(t: string, pos: nat, a: int, b: nat)
    requires MatchAt(t, UrlMark, pos)
    requires -1 <= a < pos && forall k :: a < k < pos ==> !IsSpace(t[k])
    requires pos + 3 <= b <= |t| && forall k :: pos + 3 <= k < b ==> !IsSpace(t[k])
    ensures IsUrl(t[a + 1..b])
  {
    MatchInSlice(t, UrlMark, a + 1, b, pos);
    var u := t[a + 1..b];
    UrlMarkNotSpace();
    assert forall k :: 0 <= k < 3 ==> t[pos + k] == t[pos..pos + 3][k] == UrlMark[k];
    forall k | 0 <= k < |u|
      ensures !IsSpace(u[k])
    {
      var i := a + 1 + k;
      assert u[k] == t[i];
      if pos <= i < pos + 3 {
        assert t[i] == UrlMark[i - pos];
      }
    }
  }

  /** Whatever `SplitUrlText` makes of a text, its first part is plain and
      starts the text. */
  lemma FirstPlain(t: string, b: nat)
    requires b <= |t| && (b < |t| ==> IsSpace(t[b]))
    ensures var r := SplitUrlText(t[b..]);
      !r[0].custom && (|r[0].text| == 0 || IsSpace(r[0].text[0]))
  {
    var s := t[b..];
    var r := SplitUrlText(s);
    assert !r[0].custom && StartsWith(s, r[0].text);
    if |r[0].text| > 0 {
      assert r[0].text[0] == s[0] == t[b];
    }
  }

  /** A text without a marker is left whole. */
  lemma SplitUrlTextNoUrl(t: string)
    requires !Contains(t, UrlMark)
    ensures SplitUrlText(t) == [Part(t, false)]
  {
    assert Find(t, UrlMark, 0) >= 0 ==> MatchAt(t, UrlMark, Find(t, UrlMark, 0));
  }

  /** Parts whose plain texts hold no marker pass through unchanged. */
  lemma {:induction false} SplitUrlsNoUrl(parts: seq<Part>)
    requires PlainNoUrl(parts)
    ensures SplitUrls(parts) == parts
  {
    if |parts| > 0 {
      if !parts[0].custom {
        SplitUrlTextNoUrl(parts[0].text);
      }
      assert PlainNoUrl(parts[1..]) by {
        forall i | 0 <= i < |parts[1..]| && !parts[1..][i].custom
          ensures !Contains(parts[1..][i].text, UrlMark)
        {
          assert parts[1..][i] == parts[i + 1];
        }
      }
      SplitUrlsNoUrl(parts[1..]);
      assert parts == [parts[0]] + parts[1..];
    }
  }

  /** `_split_urls` works part by part: splitting two lists one after the
      other is splitting them together. */
  lemma {:induction false} SplitUrlsAppend(a: seq<Part>, b: seq<Part>)
    ensures SplitUrls(a + b) == SplitUrls(a) + SplitUrls(b)
    decreases |a|
  {
    if |a| == 0 {
      assert a + b == b;
    } else {
      assert (a + b)[0] == a[0] && (a + b)[1..] == a[1..] + b;
      SplitUrlsAppend(a[1..], b);
    }
  }

  /** A kept part comes out of `_split_urls` unchanged, still kept and in its
      place between what the parts before and after it become. */
  lemma SplitUrlsKeepsKept(a: seq<Part>, p: Part, b: seq<Part>)
    requires p.custom
    ensures SplitUrls(a + [p] + b) == SplitUrls(a) + [p] + SplitUrls(b)
  {
    SplitUrlsAppend(a + [p], b);
    SplitUrlsAppend(a, [p]);
    assert [p][1..] == [];
    assert SplitUrls([p]) == [p] + SplitUrls([p][1..]);
    assert SplitUrls([p]) == [p];
  }

  /** Every kept part of `r` was kept in `parts` or is a URL. */
  predicate KeptOrUrl(r: seq<Part>, parts: seq<Part>)
  {
    forall i :: 0 <= i < |r| && r[i].custom ==> r[i] in parts || IsUrl(r[i].text)
  }

  /** After the URL split no plain part holds a marker, and every kept part
      was kept before or is a URL. */
  lemma {:induction false} SplitUrlsShape(parts: seq<Part>)
    ensures PlainNoUrl(SplitUrls(parts)) && KeptOrUrl(SplitUrls(parts), parts)
  {
    if |parts| > 0 {
      var first := if parts[0].custom then [parts[0]] else SplitUrlText(parts[0].text);
      if !parts[0].custom {
        SplitUrlTextShape(parts[0].text);
      }
      assert PlainNoUrl(first) && KeptOrUrl(first, parts);
      SplitUrlsShape(parts[1..]);
      var rest := SplitUrls(parts[1..]);
      assert KeptOrUrl(rest, parts) by {
        forall i | 0 <= i < |rest| && rest[i].custom
          ensures rest[i] in parts || IsUrl(rest[i].text)
        {
          if rest[i] in parts[1..] {
            assert rest[i] in parts;
          }
        }
      }
      ShapeAppend(first, rest, parts);
    }
  }

  lemma ShapeAppend(a: seq<Part>, b: seq<Part>, parts: seq<Part>)
    requires PlainNoUrl(a) && PlainNoUrl(b) && KeptOrUrl(a, parts) && KeptOrUrl(b, parts)
    ensures PlainNoUrl(a + b) && KeptOrUrl(a + b, parts)
  {
    assert forall i :: |a| <= i < |a + b| ==> (a + b)[i] == b[i - |a|];
  }
}

=== FILE: pystr.dfy ===
/** The Python `str` operations the engine relies on, with Python's own
    bound-clamping and not-found conventions written out. */
module PyStr {

  /** Python's normalisation of a slice bound against a length `n`: a negative
      bound counts from the end, and the result is clamped into [0, n]. */
  function Clamp(i: int, n: nat): (r: nat)
    ensures r <= n
    ensures 0 <= i <= n ==> r == i
    ensures i < 0 ==> r <= n
  {
    if i < 0 then (if i + n < 0 then 0 else i + n) else if i > n then n else i
  }

  /** `s[i:j]`: both bounds normalised; an inverted range is empty. */
  function Slice(s: string, i: int, j: int): (r: string)
    ensures 0 <= i <= j <= |s| ==> r == s[i..j]
    ensures 0 <= j <= i ==> r == []
    ensures |r| <= |s|
  {
    var a := Clamp(i, |s|);
    var b := Clamp(j, |s|);
    if a < b then s[a..b] else []
  }

  /** `sub` occurs in `s` starting at index `p`. */
  predicate MatchAt(s: string, sub: string, p: int)
  {
    0 <= p && p + |sub| <= |s| && s[p..p + |sub|] == sub
  }

  /** `s.startswith(prefix)`. */
  predicate StartsWith(s: string, prefix: string)
  {
    |prefix| <= |s| && s[..|prefix|] == prefix
  }

  /** `sub in s`. */
  predicate Contains(s: string, sub: string)
  {
    exists p | 0 <= p <= |s| :: MatchAt(s, sub, p)
  }

  /** `s.find(sub, start)` for a non-negative `start`: the least index at or after
      `start` where `sub` occurs, or -1. A start past the end finds nothing, not
      even the empty string. */
  function Find(s: string, sub: string, start: nat): (r: int)
    ensures r == -1 || (start <= r && MatchAt(s, sub, r))
    decreases |s| + 1 - start
  {
    if start + |sub| > |s| then -1
    else if s[start..start + |sub|] == sub then start
    else Find(s, sub, start + 1)
  }

  /** `Find` returns the first occurrence: there is none before it, and none
      at all when it returns -1. */
  lemma {:induction false} FindFirst(s: string, sub: string, start: nat)
    ensures forall p :: start <= p && (Find(s, sub, start) == -1 || p < Find(s, sub, start)) ==> !MatchAt(s, sub, p)
    decreases |s| + 1 - start
  {
    if start + |sub| <= |s| && s[start..start + |sub|] != sub {
      FindFirst(s, sub, start + 1);
    }
  }

  /** Looking for a single character: -1 exactly when it does not occur,
      otherwise the index of its first occurrence. */
  lemma FindChar(s: string, c: char)
    ensures Find(s, [c], 0) == -1 <==> c !in s
    ensures Find(s, [c], 0) >= 0 ==> Find(s, [c], 0) < |s| && s[Find(s, [c], 0)] == c && c !in s[..Find(s, [c], 0)]
  {
    var d := Find(s, [c], 0);
    FindFirst(s, [c], 0);
    forall i | 0 <= i < |s| && s[i] == c ensures MatchAt(s, [c], i) {
      assert s[i..i + 1] == [s[i]];
    }
    if d >= 0 {
      assert s[d..d + 1] == [c];
      assert s[d] == s[d..d + 1][0];
      forall i | 0 <= i < d ensures s[..d][i] != c {
        assert !MatchAt(s, [c], i);
      }
    }
  }

  /** A one-character string occurs exactly where its character does. */
  lemma ContainsChar(s: string, c: char)
    ensures Contains(s, [c]) <==> c in s
  {
    if c in s {
      var i :| 0 <= i < |s| && s[i] == c;
      assert s[i..i + 1] == [c];
      assert MatchAt(s, [c], i);
    }
    if Contains(s, [c]) {
      var p :| 0 <= p <= |s| && MatchAt(s, [c], p);
      assert s[p] == s[p..p + 1][0];
    }
  }

  /** The least index at or after `start` holding `c`, or -1. */
  function IndexOf(s: string, c: char, start: nat): (r: int)
    ensures r == -1 || (start <= r < |s| && s[r] == c)
    ensures forall q :: start <= q < |s| && (r == -1 || q < r) ==> s[q] != c
    decreases |s| - start
  {
    if start >= |s| then -1 else if s[start] == c then start else IndexOf(s, c, start + 1)
  }

  /** `IndexOf` is `s.find` of a one-character string. */
  lemma {:induction false} IndexOfIsFind(s: string, c: char, start: nat)
    ensures IndexOf(s, c, start) == Find(s, [c], start)
    decreases |s| - start
  {
    if start < |s| {
      assert s[start..start + 1] == [s[start]];
      if s[start] != c {
        IndexOfIsFind(s, c, start + 1);
      }
    }
  }

  /** A slice of a slice is a slice. */
  lemma SliceOfSlice(s: string, i: nat, j: nat, a: nat, b: nat)
    requires i <= j <= |s| && a <= b <= j - i
    ensures s[i..j][a..b] == s[i + a..i + b]
  {
    assert forall k :: 0 <= k < b - a ==> s[i..j][a..b][k] == s[i + a + k];
  }

  /** A prefix of `s` holds only the occurrences that fit inside it. */
  lemma PrefixNoMatch(s: string, sub: string, n: nat)
    requires n <= |s|
    requires forall p :: 0 <= p && p + |sub| <= n ==> !MatchAt(s, sub, p)
    ensures !Contains(s[..n], sub)
  {
    forall p | 0 <= p <= n
      ensures !MatchAt(s[..n], sub, p)
    {
      if p + |sub| <= n {
        assert s[..n] == s[0..n];
        SliceOfSlice(s, 0, n, p, p + |sub|);
        assert s[..n][p..p + |sub|] == s[p..p + |sub|];
        assert !MatchAt(s, sub, p);
      }
    }
  }

  /** An occurrence inside a slice is an occurrence in the slice. */
  lemma MatchInSlice(s: string, sub: string, i: nat, j: nat, p: nat)
    requires i <= p && p + |sub| <= j <= |s| && MatchAt(s, sub, p)
    ensures Contains(s[i..j], sub)
  {
    SliceOfSlice(s, i, j, p - i, p - i + |sub|);
    assert MatchAt(s[i..j], sub, p - i);
  }

  /** A string is its three consecutive slices. */
  lemma Thirds(s: string, i: nat, j: nat)
    requires i <= j <= |s|
    ensures s == s[..i] + s[i..j] + s[j..]
  {
  }

  /** `s.rfind(sub, 0, end)`: the greatest index `p` with `sub` occurring at `p`
      and ending by the normalised `end`, or -1. */
  function RFind(s: string, sub: string, end: int): (r: int)
    ensures r == -1 || (r + |sub| <= Clamp(end, |s|) && MatchAt(s, sub, r))
    ensures forall p :: r < p && p + |sub| <= Clamp(end, |s|) ==> !MatchAt(s, sub, p)
  {
    RFindAt(s, sub, Clamp(end, |s|) - |sub|)
  }

  /** Tries the candidate positions `p`, `p - 1`, ..., `0` in turn. */
  function RFindAt(s: string, sub: string, p: int): (r: int)
    requires p + |sub| <= |s|
    ensures r == -1 || (r <= p && MatchAt(s, sub, r))
    ensures forall q :: r < q <= p ==> !MatchAt(s, sub, q)
    decreases p + 1
  {
    if p < 0 then -1
    else if s[p..p + |sub|] == sub then p
    else RFindAt(s, sub, p - 1)
  }

  /** `s.replace(pat, rep)`: every non-overlapping occurrence, scanned left to
      right; an empty `pat` inserts `rep` around every character. */
  function Replace(s: string, pat: string, rep: string): string
    decreases |s|
  {
    if |pat| == 0 then
      (if |s| == 0 then rep else rep + [s[0]] + Replace(s[1..], pat, rep))
    else if |s| < |pat| then s
    else if s[..|pat|] == pat then rep + Replace(s[|pat|..], pat, rep)
    else [s[0]] + Replace(s[1..], pat, rep)
  }

  /** Replacing by a string of the same (non-zero) length keeps the length, and
      every character either stays or becomes the corresponding character of
      `rep` in place of the matching character of `pat`. */
  lemma {:induction false} ReplaceSameLength(s: string, pat: string, rep: string)
    requires |pat| == |rep| > 0
    ensures |Replace(s, pat, rep)| == |s|
    ensures forall i :: 0 <= i < |s| ==>
      Replace(s, pat, rep)[i] == s[i] ||
      exists k :: 0 <= k < |pat| && s[i] == pat[k] && Replace(s, pat, rep)[i] == rep[k]
    decreases |s|
  {
    var r := Replace(s, pat, rep);
    if |s| < |pat| {
    } else if s[..|pat|] == pat {
      var tail := Replace(s[|pat|..], pat, rep);
      ReplaceSameLength(s[|pat|..], pat, rep);
      assert r == rep + tail;
      forall i | 0 <= i < |s|
        ensures r[i] == s[i] || exists k :: 0 <= k < |pat| && s[i] == pat[k] && r[i] == rep[k]
      {
        if i < |pat| {
          assert s[i] == pat[i] && r[i] == rep[i];
        } else {
          assert r[i] == tail[i - |pat|];
          assert s[i] == s[|pat|..][i - |pat|];
        }
      }
    } else {
      var tail := Replace(s[1..], pat, rep);
      ReplaceSameLength(s[1..], pat, rep);
      assert r == [s[0]] + tail;
      forall i | 0 <= i < |s|
        ensures r[i] == s[i] || exists k :: 0 <= k < |pat| && s[i] == pat[k] && r[i] == rep[k]
      {
        if i > 0 {
          assert r[i] == tail[i - 1];
          assert s[i] == s[1..][i - 1];
        }
      }
    }
  }

  /** A string in which `pat` (non-empty) never occurs is left as it is. */
  lemma {:induction false} ReplaceAbsent(s: string, pat: string, rep: string)
    requires |pat| > 0
    requires !Contains(s, pat)
    ensures Replace(s, pat, rep) == s
    decreases |s|
  {
    if |s| < |pat| {
    } else {
      assert !MatchAt(s, pat, 0);
      assert s[..|pat|] != pat;
      if !Contains(s[1..], pat) {
        ReplaceAbsent(s[1..], pat, rep);
      } else {
        var p :| 0 <= p <= |s[1..]| && MatchAt(s[1..], pat, p);
        assert s[1..][p..p + |pat|] == s[p + 1..p + 1 + |pat|];
        assert MatchAt(s, pat, p + 1);
        assert false;
      }
    }
  }

  /** `s.lstrip(c)` for a single character: drops every leading `c`. */
  function LStrip(s: string, c: char): (r: string)
    ensures |r| <= |s| && r == s[|s| - |r|..]
    ensures |r| > 0 ==> r[0] != c
    ensures forall i :: 0 <= i < |s| - |r| ==> s[i] == c
  {
    if |s| > 0 && s[0] == c then
      var r := LStrip(s[1..], c);
      assert r == s[|s| - |r|..] && forall i :: 0 <= i < |s| - |r| ==> s[i] == c by {
        assert s[1..][|s| - 1 - |r|..] == s[|s| - |r|..];
        forall i | 0 < i < |s| - |r| ensures s[i] == c {
          assert s[i] == s[1..][i - 1];
        }
      }
      r
    else s
  }

  /** Python's `str.isspace` for one character: the characters of Unicode
      category Zs or bidirectional class WS, B or S. */
  predicate IsSpace(c: char)
  {
    ('\t' <= c <= '\r') || ('\U{1C}' <= c <= '\U{1F}') || c == ' ' ||
    c == '\U{85}' || c == '\U{A0}' || c == '\U{1680}' ||
    ('\U{2000}' <= c <= '\U{200A}') || c == '\U{2028}' || c == '\U{2029}' ||
    c == '\U{202F}' || c == '\U{205F}' || c == '\U{3000}'
  }
}

=== FILE: readings.dfy ===
/** The per-kanji reading cache: candidate readings gathered from the
    dictionaries, de-duplicated, stably sorted longest first and stored
    (`CachedReading`, `_has_reading_kana`, `_has_reading_hira`,
    `_get_kanjireading` and `_addtocache` of instanceprv.py). */
module Readings {
  import opened Base
  import opened PyStr
  import opened Collab

  /** `CachedReading`: one reading of a kanji, in katakana and in hiragana. */
  datatype Reading = Reading(katakana: string, hiragana: string)

  /** `readingscache`: the sorted readings of each kanji seen so far. */
  type Cache = map<char, seq<Reading>>

  // ---------------------------------------------------------------------------
  // Membership tests

  /** `_has_reading_kana`: some reading is written `k` in katakana. */
  function HasReadingKana(rs: seq<Reading>, k: string): (r: bool)
    ensures r <==> exists j :: 0 <= j < |rs| && rs[j].katakana == k
  {
    if |rs| == 0 then false
    else if rs[0].katakana == k then true
    else
      var rest := HasReadingKana(rs[1..], k);
      assert forall j :: 1 <= j < |rs| ==> rs[j] == rs[1..][j - 1];
      rest
  }

  /** `_has_reading_hira`: some reading is written `h` in hiragana. */
  function HasReadingHira(rs: seq<Reading>, h: string): (r: bool)
    ensures r <==> exists j :: 0 <= j < |rs| && rs[j].hiragana == h
  {
    if |rs| == 0 then false
    else if rs[0].hiragana == h then true
    else
      var rest := HasReadingHira(rs[1..], h);
      assert forall j :: 1 <= j < |rs| ==> rs[j] == rs[1..][j - 1];
      rest
  }

  /** The form a candidate is de-duplicated by: katakana for on, MeCab and
      kakasi readings, hiragana for kun readings. */
  function Key(r: Reading, byKana: bool): string
  {
    if byKana then r.katakana else r.hiragana
  }

  function Has(rs: seq<Reading>, key: string, byKana: bool): (r: bool)
    ensures r <==> exists j :: 0 <= j < |rs| && Key(rs[j], byKana) == key
  {
    if byKana then HasReadingKana(rs, key) else HasReadingHira(rs, key)
  }

  /** One candidate loop of `_get_kanjireading`: each candidate, in order, is
      appended unless a reading with the same key is already there. */
  function Absorb(found: seq<Reading>, cands: seq<Reading>, byKana: bool): (r: seq<Reading>)
    ensures |found| <= |r| && r[..|found|] == found
    ensures forall j :: |found| <= j < |r| ==> r[j] in cands
    decreases |cands|
  {
    if |cands| == 0 then found
    else
      var c := cands[0];
      var found' := if Has(found, Key(c, byKana), byKana) then found else found + [c];
      var r := Absorb(found', cands[1..], byKana);
      assert r[..|found|] == r[..|found'|][..|found|];
      assert forall x :: x in cands[1..] ==> x in cands;
      r
  }

  /** After the loop every candidate's key is present. */
  lemma {:induction false} AbsorbCovers(found: seq<Reading>, cands: seq<Reading>, byKana: bool)
    ensures forall c :: c in cands ==> Has(Absorb(found, cands, byKana), Key(c, byKana), byKana)
    decreases |cands|
  {
    if |cands| > 0 {
      var c := cands[0];
      var found' := if Has(found, Key(c, byKana), byKana) then found else found + [c];
      var r := Absorb(found', cands[1..], byKana);
      AbsorbCovers(found', cands[1..], byKana);
      assert r[..|found'|] == found';
      assert Has(r, Key(c, byKana), byKana) by {
        if Has(found, Key(c, byKana), byKana) {
          var j :| 0 <= j < |found| && Key(found[j], byKana) == Key(c, byKana);
          assert r[j] == found'[j] == found[j];
        } else {
          assert r[|found|] == found'[|found|] == c;
        }
      }
      assert forall x :: x in cands ==> x == c || x in cands[1..];
    }
  }

  /** From index `n` on, every reading's key differs from the keys of all
      readings before it. */
  predicate FreshFrom(r: seq<Reading>, n: nat, byKana: bool)
  {
    forall i, j :: 0 <= i < j < |r| && n <= j ==> Key(r[i], byKana) != Key(r[j], byKana)
  }

  /** Nothing is added twice: each added reading's key differs from the key
      of every reading before it. */
  lemma {:induction false} AbsorbFresh(found: seq<Reading>, cands: seq<Reading>, byKana: bool)
    ensures FreshFrom(Absorb(found, cands, byKana), |found|, byKana)
    decreases |cands|
  {
    if |cands| > 0 {
      var c := cands[0];
      var found' := if Has(found, Key(c, byKana), byKana) then found else found + [c];
      var r := Absorb(found', cands[1..], byKana);
      AbsorbFresh(found', cands[1..], byKana);
      assert Absorb(found, cands, byKana) == r;
      assert r[..|found'|] == found';
      forall i, j | 0 <= i < j < |r| && |found| <= j
        ensures Key(r[i], byKana) != Key(r[j], byKana)
      {
        if j < |found'| {
          assert !Has(found, Key(c, byKana), byKana);
          assert r[j] == found'[j] == c;
          assert r[i] == found'[i] == found[i];
          assert Key(found[i], byKana) != Key(c, byKana);
        }
      }
    }
  }

  /** Candidate `j` is the first of its key: no reading of `found` and no
      earlier candidate has that key. */
  predicate FirstOfKey(found: seq<Reading>, cands: seq<Reading>, j: nat, byKana: bool)
    requires j < |cands|
  {
    !Has(found, Key(cands[j], byKana), byKana) &&
    forall i :: 0 <= i < j ==> Key(cands[i], byKana) != Key(cands[j], byKana)
  }

  /** The first `n` candidates, keeping only those that are the first of
      their key, in candidate order. */
  function NewCandidates(found: seq<Reading>, cands: seq<Reading>, n: nat, byKana: bool): seq<Reading>
    requires n <= |cands|
  {
    if n == 0 then []
    else NewCandidates(found, cands, n - 1, byKana) + (if FirstOfKey(found, cands, n - 1, byKana) then [cands[n - 1]] else [])
  }

  /** The loop appends exactly the candidates that are the first of their
      key, in candidate order: a later candidate never displaces an earlier
      one with the same key. */
  lemma {:induction false} AbsorbInOrder(found: seq<Reading>, cands: seq<Reading>, byKana: bool)
    ensures Absorb(found, cands, byKana) == found + NewCandidates(found, cands, |cands|, byKana)
    decreases |cands|
  {
    if |cands| == 0 {
      assert found + [] == found;
    } else {
      var c := cands[0];
      var found' := if Has(found, Key(c, byKana), byKana) then found else found + [c];
      AbsorbInOrder(found', cands[1..], byKana);
      NewShift(found, found', cands, byKana, |cands| - 1);
    }
  }

  /** Taking the first candidate into `found` shifts the filter by one. */
  lemma {:induction false} NewShift(found: seq<Reading>, found': seq<Reading>, cands: seq<Reading>, byKana: bool, m: nat)
    requires m < |cands|
    requires found' == if Has(found, Key(cands[0], byKana), byKana) then found else found + [cands[0]]
    ensures found' + NewCandidates(found', cands[1..], m, byKana) == found + NewCandidates(found, cands, m + 1, byKana)
  {
    if m == 0 {
      NewFirst(found, found', cands, byKana);
    } else {
      assert found' + NewCandidates(found', cands[1..], m - 1, byKana) == found + NewCandidates(found, cands, m, byKana) by {
        NewShift(found, found', cands, byKana, m - 1);
      }
      NewShiftStep(found, found', cands, byKana, m);
    }
  }

  /** The inductive step of `NewShift`. */
  lemma NewShiftStep(found: seq<Reading>, found': seq<Reading>, cands: seq<Reading>, byKana: bool, m: nat)
    requires 0 < m < |cands|
    requires found' == if Has(found, Key(cands[0], byKana), byKana) then found else found + [cands[0]]
    requires found' + NewCandidates(found', cands[1..], m - 1, byKana) == found + NewCandidates(found, cands, m, byKana)
    ensures found' + NewCandidates(found', cands[1..], m, byKana) == found + NewCandidates(found, cands, m + 1, byKana)
  {
    FirstOfKeyShift(found, found', cands, byKana, m);
    NewStep(found, found', cands, byKana, m);
  }

  /** The base case of `NewShift`: the first candidate is kept exactly when
      its key is not in `found`. */
  lemma NewFirst(found: seq<Reading>, found': seq<Reading>, cands: seq<Reading>, byKana: bool)
    requires 0 < |cands|
    requires found' == if Has(found, Key(cands[0], byKana), byKana) then found else found + [cands[0]]
    ensures found' + NewCandidates(found', cands[1..], 0, byKana) == found + NewCandidates(found, cands, 1, byKana)
  {
    assert FirstOfKey(found, cands, 0, byKana) == !Has(found, Key(cands[0], byKana), byKana);
    assert NewCandidates(found, cands, 1, byKana) == [] + (if FirstOfKey(found, cands, 0, byKana) then [cands[0]] else []);
    assert found' + [] == found';
  }

  /** One more candidate on both sides of `NewShift`. */
  lemma NewStep(found: seq<Reading>, found': seq<Reading>, cands: seq<Reading>, byKana: bool, m: nat)
    requires 0 < m < |cands|
    requires FirstOfKey(found', cands[1..], m - 1, byKana) == FirstOfKey(found, cands, m, byKana)
    requires found' + NewCandidates(found', cands[1..], m - 1, byKana) == found + NewCandidates(found, cands, m, byKana)
    ensures found' + NewCandidates(found', cands[1..], m, byKana) == found + NewCandidates(found, cands, m + 1, byKana)
  {
    var rest := cands[1..];
    assert rest[m - 1] == cands[m];
    var x := if FirstOfKey(found, cands, m, byKana) then [cands[m]] else [];
    var a := NewCandidates(found', rest, m - 1, byKana);
    var b := NewCandidates(found, cands, m, byKana);
    assert NewCandidates(found', rest, m, byKana) == a + x;
    assert NewCandidates(found, cands, m + 1, byKana) == b + x;
    assert found' + (a + x) == (found' + a) + x;
    assert found + (b + x) == (found + b) + x;
  }

  /** Candidate `m` is the first of its key exactly when it is so among the
      rest after the first candidate was taken in. */
  lemma FirstOfKeyShift(found: seq<Reading>, found': seq<Reading>, cands: seq<Reading>, byKana: bool, m: nat)
    requires 0 < m < |cands|
    requires found' == if Has(found, Key(cands[0], byKana), byKana) then found else found + [cands[0]]
    ensures FirstOfKey(found', cands[1..], m - 1, byKana) == FirstOfKey(found, cands, m, byKana)
  {
    var c := cands[0];
    var k := Key(cands[m], byKana);
    var rest := cands[1..];
    assert rest[m - 1] == cands[m];
    assert forall i :: 0 <= i < m - 1 ==> rest[i] == cands[i + 1];
    assert forall i :: 1 <= i < m ==> cands[i] == rest[i - 1];
    if !Has(found, Key(c, byKana), byKana) {
      assert Has(found', k, byKana) <==> Has(found, k, byKana) || Key(c, byKana) == k by {
        if Has(found', k, byKana) && !Has(found, k, byKana) {
          var j :| 0 <= j < |found'| && Key(found'[j], byKana) == k;
          assert j == |found|;
        }
        if Has(found, k, byKana) {
          var j :| 0 <= j < |found| && Key(found[j], byKana) == k;
          assert found'[j] == found[j];
        }
        if Key(c, byKana) == k {
          assert found'[|found|] == c;
        }
      }
    }
  }

  // ---------------------------------------------------------------------------
  // Candidate sources

  /** A kun reading as jamdict writes it, reduced to the kana the kanji itself
      covers: leading `-` removed, then everything from the first `.` cut. */
  function CutKun(h: string): (r: string)
    ensures '.' !in r
    ensures StartsWith(LStrip(h, '-'), r)
    ensures '.' !in LStrip(h, '-') ==> r == LStrip(h, '-')
    ensures |r| < |LStrip(h, '-')| ==> LStrip(h, '-')[|r|] == '.'
  {
    CutAtDot(LStrip(h, '-'))
  }

  /** `s[:s.find(".")]` when there is a dot, else `s`. */
  function CutAtDot(s: string): (r: string)
    ensures '.' !in r
    ensures StartsWith(s, r)
    ensures '.' !in s ==> r == s
    ensures |r| < |s| ==> s[|r|] == '.'
  {
    var dot := Find(s, ".", 0);
    FindChar(s, '.');
    if dot >= 0 then s[..dot] else s
  }

  /** On readings, each paired with its hiragana. */
  function OnCandidates(env: Env, on: seq<string>): (r: seq<Reading>)
    ensures |r| == |on|
    ensures forall j :: 0 <= j < |on| ==> r[j] == Reading(on[j], env.kana2hira(on[j]))
  {
    if |on| == 0 then [] else [Reading(on[0], env.kana2hira(on[0]))] + OnCandidates(env, on[1..])
  }

  /** One kun reading, cut down and paired with its katakana. */
  function KunReading(env: Env, kun: string): Reading
  {
    var h := CutKun(kun);
    Reading(env.hira2kana(h), h)
  }

  /** Kun readings, cut down and paired with their katakana. */
  function KunCandidates(env: Env, kun: seq<string>): (r: seq<Reading>)
    ensures |r| == |kun|
  {
    if |kun| == 0 then [] else [KunReading(env, kun[0])] + KunCandidates(env, kun[1..])
  }

  /** Kun candidate `j` is kun reading `j`, cut down. */
  lemma {:induction false} KunCandidatesAt(env: Env, kun: seq<string>, j: nat)
    requires j < |kun|
    ensures KunCandidates(env, kun)[j] == KunReading(env, kun[j])
    decreases j
  {
    var r := KunCandidates(env, kun);
    assert r == [KunReading(env, kun[0])] + KunCandidates(env, kun[1..]);
    if j > 0 {
      KunCandidatesAt(env, kun[1..], j - 1);
      assert kun[1..][j - 1] == kun[j];
      assert r[j] == KunCandidates(env, kun[1..])[j - 1];
    }
  }

  /** The kun candidates are the kun readings, cut down, in order. */
  lemma KunCandidatesAll(env: Env, kun: seq<string>)
    ensures forall j :: 0 <= j < |kun| ==> KunCandidates(env, kun)[j] == KunReading(env, kun[j])
  {
    forall j | 0 <= j < |kun|
      ensures KunCandidates(env, kun)[j] == KunReading(env, kun[j])
    {
      KunCandidatesAt(env, kun, j);
    }
  }

  /** MeCab readings, except those as long as the whole word's katakana (the
      reading of the word rather than of the kanji). */
  function MecabCandidates(env: Env, mecab: seq<string>, wordKata: string): (r: seq<Reading>)
    ensures forall x :: x in r <==>
      exists j :: 0 <= j < |mecab| && |mecab[j]| != |wordKata| && x == Reading(mecab[j], env.kana2hira(mecab[j]))
  {
    if |mecab| == 0 then []
    else
      var rest := MecabCandidates(env, mecab[1..], wordKata);
      assert forall j :: 1 <= j < |mecab| ==> mecab[j] == mecab[1..][j - 1];
      assert forall j :: 0 <= j < |mecab| - 1 ==> mecab[1..][j] == mecab[j + 1];
      if |mecab[0]| != |wordKata| then [Reading(mecab[0], env.kana2hira(mecab[0]))] + rest else rest
  }

  /** The MeCab filter works element by element, so it keeps the order of
      MeCab's nodes: filtering two lists one after the other is filtering
      them together. */
  lemma {:induction false} MecabCandidatesAppend(env: Env, a: seq<string>, b: seq<string>, wordKata: string)
    ensures MecabCandidates(env, a + b, wordKata) == MecabCandidates(env, a, wordKata) + MecabCandidates(env, b, wordKata)
    decreases |a|
  {
    if |a| == 0 {
      assert a + b == b;
    } else {
      assert (a + b)[0] == a[0] && (a + b)[1..] == a[1..] + b;
      MecabCandidatesAppend(env, a[1..], b, wordKata);
    }
  }

  /** The tokens of `kakasi.convert(kanji)` as readings. */
  function KakasiCandidates(tokens: seq<Token>): (r: seq<Reading>)
    ensures |r| == |tokens|
    ensures forall j :: 0 <= j < |tokens| ==> r[j] == Reading(tokens[j].kana, tokens[j].hira)
  {
    if |tokens| == 0 then [] else [Reading(tokens[0].kana, tokens[0].hira)] + KakasiCandidates(tokens[1..])
  }

  /** The cache-miss path of `_get_kanjireading` before sorting: on readings,
      kun readings, MeCab readings and kakasi readings, in that order, each
      skipped when already present. */
  function Merge(env: Env, kanji: char, wordKata: string): (r: seq<Reading>)
  {
    var src := env.dictionary(kanji);
    var f1 := Absorb([], OnCandidates(env, src.on), true);
    var f2 := Absorb(f1, KunCandidates(env, src.kun), false);
    var f3 := Absorb(f2, MecabCandidates(env, src.mecab, wordKata), true);
    Absorb(f3, KakasiCandidates(env.convert([kanji])), true)
  }

  /** The stages of the merge: each stage's list begins with the previous
      one. */
  lemma MergeStages(env: Env, kanji: char, wordKata: string)
    ensures var src := env.dictionary(kanji);
      var f1 := Absorb([], OnCandidates(env, src.on), true);
      var f2 := Absorb(f1, KunCandidates(env, src.kun), false);
      var f3 := Absorb(f2, MecabCandidates(env, src.mecab, wordKata), true);
      var r := Merge(env, kanji, wordKata);
      |f1| <= |f2| <= |f3| <= |r| &&
      (forall i :: 0 <= i < |f1| ==> r[i] == f1[i]) &&
      (forall i :: 0 <= i < |f2| ==> r[i] == f2[i]) &&
      (forall i :: 0 <= i < |f3| ==> r[i] == f3[i])
  {
    var src := env.dictionary(kanji);
    var f1 := Absorb([], OnCandidates(env, src.on), true);
    var f2 := Absorb(f1, KunCandidates(env, src.kun), false);
    var f3 := Absorb(f2, MecabCandidates(env, src.mecab, wordKata), true);
    var r := Merge(env, kanji, wordKata);
    PrefixChain(f1, f2, f3, r);
  }

  /** A key present in a prefix is present in the whole list. */
  lemma HasThroughPrefix(found: seq<Reading>, r: seq<Reading>, key: string, byKana: bool)
    requires |found| <= |r| && r[..|found|] == found
    requires Has(found, key, byKana)
    ensures Has(r, key, byKana)
  {
    var i :| 0 <= i < |found| && Key(found[i], byKana) == key;
    assert r[i] == r[..|found|][i] == found[i];
  }

  /** Three prefixes in a row: each list is a prefix of the last one. */
  lemma PrefixChain(f1: seq<Reading>, f2: seq<Reading>, f3: seq<Reading>, r: seq<Reading>)
    requires |f1| <= |f2| && f2[..|f1|] == f1
    requires |f2| <= |f3| && f3[..|f2|] == f2
    requires |f3| <= |r| && r[..|f3|] == f3
    ensures forall i :: 0 <= i < |f1| ==> r[i] == f1[i]
    ensures forall i :: 0 <= i < |f2| ==> r[i] == f2[i]
    ensures forall i :: 0 <= i < |f3| ==> r[i] == f3[i]
  {
    assert forall i :: 0 <= i < |f3| ==> r[i] == r[..|f3|][i];
    assert forall i :: 0 <= i < |f2| ==> f3[i] == f3[..|f2|][i];
    assert forall i :: 0 <= i < |f1| ==> f2[i] == f2[..|f1|][i];
  }

  /** Every on reading ends up in the merged list, by its katakana. */
  lemma MergeKeepsOn(env: Env, kanji: char, wordKata: string, j: nat)
    requires j < |env.dictionary(kanji).on|
    ensures HasReadingKana(Merge(env, kanji, wordKata), env.dictionary(kanji).on[j])
  {
    var src := env.dictionary(kanji);
    var c1 := OnCandidates(env, src.on);
    var f1 := Absorb([], c1, true);
    MergeStages(env, kanji, wordKata);
    AbsorbCovers([], c1, true);
    assert c1[j] in c1;
    var i :| 0 <= i < |f1| && f1[i].katakana == src.on[j];
    assert Merge(env, kanji, wordKata)[i] == f1[i];
  }

  /** Every kun reading, cut down, ends up in the merged list by its
      hiragana. */
  lemma MergeKeepsKun(env: Env, kanji: char, wordKata: string, j: nat)
    requires j < |env.dictionary(kanji).kun|
    ensures HasReadingHira(Merge(env, kanji, wordKata), CutKun(env.dictionary(kanji).kun[j]))
  {
    var src := env.dictionary(kanji);
    var c2 := KunCandidates(env, src.kun);
    var f1 := Absorb([], OnCandidates(env, src.on), true);
    var f2 := Absorb(f1, c2, false);
    MergeStages(env, kanji, wordKata);
    AbsorbCovers(f1, c2, false);
    KunCandidatesAt(env, src.kun, j);
    assert c2[j] in c2;
    var i :| 0 <= i < |f2| && f2[i].hiragana == CutKun(src.kun[j]);
    assert Merge(env, kanji, wordKata)[i] == f2[i];
  }

  /** Every MeCab reading not as long as the word's katakana ends up in the
      merged list by its katakana. */
  lemma MergeKeepsMecab(env: Env, kanji: char, wordKata: string, j: nat)
    requires j < |env.dictionary(kanji).mecab|
    requires |env.dictionary(kanji).mecab[j]| != |wordKata|
    ensures HasReadingKana(Merge(env, kanji, wordKata), env.dictionary(kanji).mecab[j])
  {
    var src := env.dictionary(kanji);
    var c3 := MecabCandidates(env, src.mecab, wordKata);
    var f1 := Absorb([], OnCandidates(env, src.on), true);
    var f2 := Absorb(f1, KunCandidates(env, src.kun), false);
    var f3 := Absorb(f2, c3, true);
    var r := Absorb(f3, KakasiCandidates(env.convert([kanji])), true);
    assert r == Merge(env, kanji, wordKata);
    AbsorbCovers(f2, c3, true);
    var x := Reading(src.mecab[j], env.kana2hira(src.mecab[j]));
    assert 0 <= j < |src.mecab| && |src.mecab[j]| != |wordKata| && x == Reading(src.mecab[j], env.kana2hira(src.mecab[j]));
    assert x in c3;
    assert Has(f3, x.katakana, true);
    HasThroughPrefix(f3, r, x.katakana, true);
  }

  /** Every kakasi token of the kanji ends up in the merged list by its
      katakana. */
  lemma MergeKeepsKakasi(env: Env, kanji: char, wordKata: string, t: Token)
    requires t in env.convert([kanji])
    ensures HasReadingKana(Merge(env, kanji, wordKata), t.kana)
  {
    var src := env.dictionary(kanji);
    var c4 := KakasiCandidates(env.convert([kanji]));
    var f1 := Absorb([], OnCandidates(env, src.on), true);
    var f2 := Absorb(f1, KunCandidates(env, src.kun), false);
    var f3 := Absorb(f2, MecabCandidates(env, src.mecab, wordKata), true);
    AbsorbCovers(f3, c4, true);
    var j :| 0 <= j < |env.convert([kanji])| && env.convert([kanji])[j] == t;
    assert c4[j] in c4;
  }

  /** Every merged reading comes from one of the four sources; a MeCab reading
      as long as the word's katakana is never a candidate. */
  lemma MergeOrigin(env: Env, kanji: char, wordKata: string, x: Reading)
    requires x in Merge(env, kanji, wordKata)
    ensures var src := env.dictionary(kanji);
      x in OnCandidates(env, src.on) || x in KunCandidates(env, src.kun) ||
      x in MecabCandidates(env, src.mecab, wordKata) || x in KakasiCandidates(env.convert([kanji]))
  {
    var src := env.dictionary(kanji);
    var f1 := Absorb([], OnCandidates(env, src.on), true);
    var f2 := Absorb(f1, KunCandidates(env, src.kun), false);
    var f3 := Absorb(f2, MecabCandidates(env, src.mecab, wordKata), true);
    var r := Merge(env, kanji, wordKata);
    MergeStages(env, kanji, wordKata);
    var i :| 0 <= i < |r| && r[i] == x;
    if i < |f1| {
      assert x == f1[i];
    } else if i < |f2| {
      assert x == f2[i];
    } else if i < |f3| {
      assert x == f3[i];
    }
  }

  // ---------------------------------------------------------------------------
  // Sorting

  /** Longest katakana first. */
  predicate SortedDesc(r: seq<Reading>)
  {
    forall i, j :: 0 <= i < j < |r| ==> |r[i].katakana| >= |r[j].katakana|
  }

  /** The readings whose katakana has length `n`, in their order. */
  function WithLength(s: seq<Reading>, n: nat): (r: seq<Reading>)
    ensures forall x :: x in r ==> x in s && |x.katakana| == n
  {
    if |s| == 0 then []
    else if |s[0].katakana| == n then [s[0]] + WithLength(s[1..], n)
    else WithLength(s[1..], n)
  }

  /** Inserts `x` in front of the first reading that is not longer. */
  function Insert(x: Reading, t: seq<Reading>): (r: seq<Reading>)
    ensures multiset(r) == multiset(t) + multiset{x}
  {
    if |t| == 0 then [x]
    else if |t[0].katakana| > |x.katakana| then
      assert t == [t[0]] + t[1..];
      [t[0]] + Insert(x, t[1..])
    else [x] + t
  }

  lemma {:induction false} InsertSorted(x: Reading, t: seq<Reading>)
    requires SortedDesc(t)
    ensures SortedDesc(Insert(x, t))
  {
    if |t| > 0 && |t[0].katakana| > |x.katakana| {
      var rest := Insert(x, t[1..]);
      InsertSorted(x, t[1..]);
      var r := [t[0]] + rest;
      forall i, j | 0 <= i < j < |r| ensures |r[i].katakana| >= |r[j].katakana| {
        if i == 0 {
          assert r[j] in multiset(rest);
          assert r[j] == x || r[j] in multiset(t[1..]);
        }
      }
    }
  }

  lemma {:induction false} InsertWithLength(x: Reading, t: seq<Reading>, n: nat)
    ensures WithLength(Insert(x, t), n) == (if |x.katakana| == n then [x] else []) + WithLength(t, n)
  {
    if |t| == 0 {
      assert [x][1..] == [];
    } else if |t[0].katakana| > |x.katakana| {
      var rest := Insert(x, t[1..]);
      InsertWithLength(x, t[1..], n);
      var r := [t[0]] + rest;
      assert r[0] == t[0] && r[1..] == rest;
      var head := if |t[0].katakana| == n then [t[0]] else [];
      assert WithLength(r, n) == head + WithLength(rest, n);
      assert WithLength(t, n) == head + WithLength(t[1..], n);
      if |x.katakana| == n {
        assert head == [];
      } else {
        assert WithLength(rest, n) == WithLength(t[1..], n);
      }
    } else {
      assert ([x] + t)[1..] == t;
    }
  }

  /** `sorted(..., key=len(katakana), reverse=True)`: Python's sort is stable,
      also in reverse, so readings of equal length keep their order. */
  function SortDesc(s: seq<Reading>): (r: seq<Reading>)
    ensures SortedDesc(r)
    ensures multiset(r) == multiset(s)
    ensures forall n :: WithLength(r, n) == WithLength(s, n)
  {
    if |s| == 0 then []
    else
      var t := SortDesc(s[1..]);
      InsertSorted(s[0], t);
      forall n ensures WithLength(Insert(s[0], t), n) == WithLength(s, n) {
        InsertWithLength(s[0], t, n);
      }
      assert s == [s[0]] + s[1..];
      Insert(s[0], t)
  }

  // ---------------------------------------------------------------------------
  // The cache

  /** Every cached list is sorted longest first. */
  predicate CacheSorted(c: Cache)
  {
    forall k :: k in c ==> SortedDesc(c[k])
  }

  /** `d` keeps every entry of `c`. */
  predicate Extends(c: Cache, d: Cache)
  {
    forall k :: k in c ==> k in d && d[k] == c[k]
  }

  /** `_addtocache`: stores the readings sorted longest first (stably) under
      `kanji`, replacing any older entry, and returns them. */
  function AddToCache(cache: Cache, kanji: char, rs: seq<Reading>): (r: (Cache, seq<Reading>))
    ensures SortedDesc(r.1) && multiset(r.1) == multiset(rs)
    ensures forall n :: WithLength(r.1, n) == WithLength(rs, n)
    ensures r.0.Keys == cache.Keys + {kanji} && r.0[kanji] == r.1
    ensures forall k :: k in cache && k != kanji ==> r.0[k] == cache[k]
    ensures CacheSorted(cache) ==> CacheSorted(r.0)
  {
    var sorted := SortDesc(rs);
    (cache[kanji := sorted], sorted)
  }

  /** `_get_kanjireading`: a cached kanji returns its stored list untouched;
      otherwise the merged candidates are sorted and cached. The source's
      single-character assertion is the `char` type. */
  function GetKanjiReading(env: Env, cache: Cache, kanji: char, wordKata: string): (r: (Cache, seq<Reading>))
    ensures kanji in cache ==> r == (cache, cache[kanji])
    ensures kanji !in cache ==> r == AddToCache(cache, kanji, Merge(env, kanji, wordKata))
    ensures Extends(cache, r.0) && kanji in r.0 && r.0[kanji] == r.1
    ensures CacheSorted(cache) ==> CacheSorted(r.0) && SortedDesc(r.1)
  {
    if kanji in cache then (cache, cache[kanji])
    else AddToCache(cache, kanji, Merge(env, kanji, wordKata))
  }
}

=== FILE: registration.dfy ===
/** The public side of an instance (instance.py): readings the user supplies
    for single kanji, which go straight into the reading cache, and readings
    for whole words, which become custom-reading replacements. */
module Registration {
  import opened Base
  import opened PyStr
  import opened Utils
  import opened Collab
  import opened Readings
  import opened Markup
  import opened Annotator

  // ---------------------------------------------------------------------------
  // Kanji readings

  /** `KanjiReading`: on-readings in katakana, kun-readings in hiragana. */
  datatype KanjiReading = KanjiReading(on: seq<string>, kun: seq<string>)

  /** The constructor of `KanjiReading`: a kun-reading may hold neither the
      okurigana dot nor the affix dash. `None` is its failed assertion. */
  function MakeKanjiReading(on: seq<string>, kun: seq<string>): (r: Option<KanjiReading>)
    ensures r.Some? <==> forall j :: 0 <= j < |kun| ==> '.' !in kun[j] && '-' !in kun[j]
    ensures r.Some? ==> r.value == KanjiReading(on, kun)
  {
    if forall j :: 0 <= j < |kun| ==> '.' !in kun[j] && '-' !in kun[j] then Some(KanjiReading(on, kun)) else None
  }

  /** Kun-readings as the user gives them, paired with their katakana. */
  function UserKun(env: Env, kun: seq<string>): (r: seq<Reading>)
    ensures |r| == |kun|
    ensures forall j :: 0 <= j < |kun| ==> r[j] == Reading(env.hira2kana(kun[j]), kun[j])
  {
    if |kun| == 0 then [] else [Reading(env.hira2kana(kun[0]), kun[0])] + UserKun(env, kun[1..])
  }

  /** The readings `add_kanjireadings` caches for one kanji: the on-readings,
      then the kun-readings. */
  function UserReadings(env: Env, kr: KanjiReading): (r: seq<Reading>)
    ensures |r| == |kr.on| + |kr.kun|
    ensures forall j :: 0 <= j < |kr.on| ==> r[j] == Reading(kr.on[j], env.kana2hira(kr.on[j]))
    ensures forall j :: 0 <= j < |kr.kun| ==> r[|kr.on| + j] == Reading(env.hira2kana(kr.kun[j]), kr.kun[j])
  {
    OnCandidates(env, kr.on) + UserKun(env, kr.kun)
  }

  /** The keys of a dictionary are distinct. */
  predicate DistinctKeys<V>(d: seq<(string, V)>)
  {
    forall i, j :: 0 <= i < j < |d| ==> d[i].0 != d[j].0
  }

  /** The first `n` keys are single characters. */
  predicate SingleUpTo(d: seq<(string, KanjiReading)>, n: nat)
  {
    forall i :: 0 <= i < n && i < |d| ==> |d[i].0| == 1
  }

  /** The cache holds the user's readings for `kr` under `k`: all of them,
      sorted longest first, keeping the given order among readings of equal
      length. */
  ghost predicate Holds(env: Env, cache: Cache, k: char, kr: KanjiReading)
  {
    k in cache && SortedDesc(cache[k]) &&
    multiset(cache[k]) == multiset(UserReadings(env, kr)) &&
    forall n :: WithLength(cache[k], n) == WithLength(UserReadings(env, kr), n)
  }

  /** `add_kanjireadings`: every entry is cached under its kanji, replacing
      what was there. The flag is false when an entry's key is not a single
      character; the entries before it have been added by then, and the
      others have not. */
  function AddKanjiReadings(env: Env, cache: Cache, additional: seq<(string, KanjiReading)>): (r: (bool, Cache))
    requires DistinctKeys(additional)
    ensures r.0 <==> SingleUpTo(additional, |additional|)
    ensures forall j :: 0 <= j < |additional| && SingleUpTo(additional, j + 1) ==>
      Holds(env, r.1, additional[j].0[0], additional[j].1)
    ensures forall k :: k in cache && (forall j :: 0 <= j < |additional| ==> additional[j].0 != [k]) ==>
      k in r.1 && r.1[k] == cache[k]
    ensures forall k :: k in r.1 ==> k in cache || exists j :: 0 <= j < |additional| && additional[j].0 == [k]
    ensures CacheSorted(cache) ==> CacheSorted(r.1)
    decreases |additional|
  {
    if |additional| == 0 then (true, cache)
    else if |additional[0].0| != 1 then (false, cache)
    else
      var k := additional[0].0[0];
      var added := AddToCache(cache, k, UserReadings(env, additional[0].1)).0;
      var rest := AddKanjiReadings(env, added, additional[1..]);
      AddKanjiFlag(additional);
      AddKanjiHolds(env, additional, added, rest.1);
      AddKanjiOthers(cache, additional, added, rest.1);
      AddKanjiKeys(cache, additional, added, rest.1);
      rest
  }

  /** The flag of `AddKanjiReadings` after a single-character first key is
      the flag of the rest. */
  lemma AddKanjiFlag(additional: seq<(string, KanjiReading)>)
    requires |additional| > 0 && |additional[0].0| == 1
    ensures SingleUpTo(additional, |additional|) <==> SingleUpTo(additional[1..], |additional| - 1)
  {
    var tail := additional[1..];
    if SingleUpTo(tail, |tail|) {
      forall i | 0 <= i < |additional| ensures |additional[i].0| == 1 {
        if i > 0 {
          assert additional[i] == tail[i - 1];
        }
      }
    }
  }

  /** The readings the first entry put in the cache, and those the rest
      put there, are all held once the rest is added. */
  lemma AddKanjiHolds(env: Env, additional: seq<(string, KanjiReading)>, added: Cache, rest: Cache)
    requires DistinctKeys(additional) && |additional| > 0 && |additional[0].0| == 1
    requires Holds(env, added, additional[0].0[0], additional[0].1)
    requires var tail := additional[1..];
      (forall j :: 0 <= j < |tail| && SingleUpTo(tail, j + 1) ==> Holds(env, rest, tail[j].0[0], tail[j].1)) &&
      (forall k :: k in added && (forall j :: 0 <= j < |tail| ==> tail[j].0 != [k]) ==> k in rest && rest[k] == added[k])
    ensures forall j :: 0 <= j < |additional| && SingleUpTo(additional, j + 1) ==>
      Holds(env, rest, additional[j].0[0], additional[j].1)
  {
    var tail := additional[1..];
    var k0 := additional[0].0[0];
    assert additional[0].0 == [k0];
    forall j | 0 <= j < |additional| && SingleUpTo(additional, j + 1)
      ensures Holds(env, rest, additional[j].0[0], additional[j].1)
    {
      if j == 0 {
        forall m | 0 <= m < |tail| ensures tail[m].0 != [k0] {
          assert tail[m] == additional[m + 1];
          assert additional[m + 1].0 != additional[0].0;
        }
      } else {
        assert tail[j - 1] == additional[j];
        assert SingleUpTo(tail, j);
      }
    }
  }

  /** A cached kanji that no entry names keeps its readings through the
      first entry and the rest. */
  lemma AddKanjiOthers(cache: Cache, additional: seq<(string, KanjiReading)>, added: Cache, rest: Cache)
    requires |additional| > 0 && |additional[0].0| == 1
    requires forall k :: k in cache && k != additional[0].0[0] ==> k in added && added[k] == cache[k]
    requires var tail := additional[1..];
      forall k :: k in added && (forall j :: 0 <= j < |tail| ==> tail[j].0 != [k]) ==> k in rest && rest[k] == added[k]
    ensures forall k :: k in cache && (forall j :: 0 <= j < |additional| ==> additional[j].0 != [k]) ==>
      k in rest && rest[k] == cache[k]
  {
    var tail := additional[1..];
    assert additional[0].0 == [additional[0].0[0]];
    forall k | k in cache && (forall j :: 0 <= j < |additional| ==> additional[j].0 != [k])
      ensures k in rest && rest[k] == cache[k]
    {
      assert forall j :: 0 <= j < |tail| ==> tail[j] == additional[j + 1];
    }
  }

  /** Every key of the cache after the rest is added was cached before or
      is named by some entry. */
  lemma AddKanjiKeys(cache: Cache, additional: seq<(string, KanjiReading)>, added: Cache, rest: Cache)
    requires |additional| > 0 && |additional[0].0| == 1
    requires added.Keys == cache.Keys + {additional[0].0[0]}
    requires var tail := additional[1..];
      forall k :: k in rest ==> k in added || exists j :: 0 <= j < |tail| && tail[j].0 == [k]
    ensures forall k :: k in rest ==> k in cache || exists j :: 0 <= j < |additional| && additional[j].0 == [k]
  {
    var tail := additional[1..];
    var k0 := additional[0].0[0];
    assert additional[0].0 == [k0];
    forall k | k in rest ensures k in cache || exists j :: 0 <= j < |additional| && additional[j].0 == [k] {
      if k !in added {
        var j :| 0 <= j < |tail| && tail[j].0 == [k];
        assert additional[j + 1].0 == [k];
      } else if k == k0 {
        assert additional[0].0 == [k];
      }
    }
  }

  // ---------------------------------------------------------------------------
  // Word readings

  /** `WordReading`: the parts of a word and a reading for each. */
  datatype WordReading = WordReading(on: seq<string>, kun: seq<string>)

  /** What the constructor of `WordReading` asserts: one reading per part. */
  predicate WellFormedWord(w: WordReading)
  {
    |w.on| == |w.kun|
  }

  /** The constructor of `WordReading`; `None` is its failed assertion. */
  function MakeWordReading(on: seq<string>, kun: seq<string>): (r: Option<WordReading>)
    ensures r.Some? <==> |on| == |kun|
    ensures r.Some? ==> r.value == WordReading(on, kun) && WellFormedWord(r.value)
  {
    if |on| == |kun| then Some(WordReading(on, kun)) else None
  }

  /** The word a reading is for: its parts joined. */
  function Word(w: WordReading): string
  {
    Join(w.on)
  }

  /** The pieces of a word reading: a part that is a single kanji gets its
      reading; any other part is written as it is. */
  function WordPieces(w: WordReading): (r: seq<Piece>)
    requires WellFormedWord(w)
    ensures |r| == |w.on|
    ensures forall i :: 0 <= i < |w.on| ==>
      r[i] == if |w.on[i]| == 1 && IsKanji(w.on[i][0]) then Ruby(w.on[i], w.kun[i]) else Plain(w.on[i])
    ensures Strip(r) == Word(w)
    decreases |w.on|
  {
    if |w.on| == 0 then []
    else
      var first := if |w.on[0]| == 1 && IsKanji(w.on[0][0]) then Ruby(w.on[0], w.kun[0]) else Plain(w.on[0]);
      var rest := WordPieces(WordReading(w.on[1..], w.kun[1..]));
      assert Strip([first] + rest) == w.on[0] + Strip(rest) by {
        assert ([first] + rest)[1..] == rest;
      }
      assert w.on == [w.on[0]] + w.on[1..];
      JoinAppend([w.on[0]], w.on[1..]);
      JoinSingle(w.on[0]);
      [first] + rest
  }

  /** The replacement text of a word: its pieces rendered with the
      instance's tags, inside the custom-reading tags. */
  function Replacement(open: string, close: string, w: WordReading): (r: string)
    requires WellFormedWord(w)
    ensures |r| >= 2 && r[0] == CustomOpen && r[|r| - 1] == CustomClose
  {
    [CustomOpen] + Render(WordPieces(w), open, close) + [CustomClose]
  }

  /** A word none of whose parts is a single kanji is replaced by itself,
      inside the custom-reading tags. */
  lemma ReplacementPlain(open: string, close: string, w: WordReading)
    requires WellFormedWord(w)
    requires forall i :: 0 <= i < |w.on| ==> !(|w.on[i]| == 1 && IsKanji(w.on[i][0]))
    ensures Replacement(open, close, w) == [CustomOpen] + Word(w) + [CustomClose]
  {
    var ps := WordPieces(w);
    assert NoRuby(ps);
    RenderPlain(ps, open, close);
  }

  /** The value of `key` in a dictionary. */
  function Lookup(t: Table, key: string): (r: Option<string>)
    ensures r.None? <==> forall j :: 0 <= j < |t| ==> t[j].0 != key
    ensures r.Some? ==> exists j :: 0 <= j < |t| && t[j] == (key, r.value)
  {
    if |t| == 0 then None
    else if t[0].0 == key then Some(t[0].1)
    else
      var r := Lookup(t[1..], key);
      assert forall j :: 1 <= j < |t| ==> t[j] == t[1..][j - 1];
      r
  }

  /** `d[key] = value`: an existing key keeps its place; a new one goes last. */
  function Put(t: Table, key: string, value: string): (r: Table)
    requires DistinctKeys(t)
    ensures DistinctKeys(r)
    ensures |r| == |t| || |r| == |t| + 1
    ensures forall j :: 0 <= j < |t| ==> r[j].0 == t[j].0
    ensures forall j :: 0 <= j < |t| && t[j].0 != key ==> r[j] == t[j]
    ensures |r| == |t| + 1 <==> forall j :: 0 <= j < |t| ==> t[j].0 != key
    ensures |r| == |t| + 1 ==> r[|t|] == (key, value)
    ensures forall j :: 0 <= j < |r| && r[j].0 == key ==> r[j].1 == value
  {
    if |t| == 0 then [(key, value)]
    else if t[0].0 == key then [(key, value)] + t[1..]
    else
      var rest := Put(t[1..], key, value);
      assert forall j :: 1 <= j < |t| ==> t[j] == t[1..][j - 1];
      var r := [t[0]] + rest;
      assert forall j :: 1 <= j < |r| ==> r[j] == rest[j - 1];
      assert forall j :: 0 <= j < |rest| ==> rest[j].0 != t[0].0 by {
        forall j | 0 <= j < |rest| ensures rest[j].0 != t[0].0 {
          if j < |t| - 1 {
            assert rest[j].0 == t[j + 1].0;
          } else {
            assert rest[j] == (key, value);
          }
        }
      }
      r
  }

  /** After `d[key] = value`, the dictionary maps `key` to `value` and every
      other key as before, and its keys stay distinct. */
  lemma PutLookup(t: Table, key: string, value: string)
    requires DistinctKeys(t)
    ensures Lookup(Put(t, key, value), key) == Some(value)
    ensures forall k :: k != key ==> Lookup(Put(t, key, value), k) == Lookup(t, k)
  {
    PutFindsKey(t, key, value);
    forall k | k != key ensures Lookup(Put(t, key, value), k) == Lookup(t, k) {
      PutKeepsOther(t, key, value, k);
    }
  }

  /** After the store the key is found with the new value. */
  lemma PutFindsKey(t: Table, key: string, value: string)
    requires DistinctKeys(t)
    ensures Lookup(Put(t, key, value), key) == Some(value)
  {
    var r := Put(t, key, value);
    LookupUnique(r, key);
    if |r| == |t| + 1 {
      assert r[|t|] == (key, value);
    } else {
      var j :| 0 <= j < |t| && t[j].0 == key;
      assert r[j].0 == key;
    }
  }

  /** The store leaves the lookup of every other key alone. */
  lemma PutKeepsOther(t: Table, key: string, value: string, k: string)
    requires DistinctKeys(t) && k != key
    ensures Lookup(Put(t, key, value), k) == Lookup(t, k)
  {
    var r := Put(t, key, value);
    LookupUnique(t, k);
    LookupUnique(r, k);
    if Lookup(t, k).Some? {
      var j :| 0 <= j < |t| && t[j] == (k, Lookup(t, k).value);
      assert r[j] == t[j];
    } else {
      forall j | 0 <= j < |r| ensures r[j].0 != k {
        if j < |t| {
          assert r[j].0 == t[j].0;
        } else {
          assert r[j] == (key, value);
        }
      }
    }
  }

  /** In a dictionary with distinct keys, `Lookup` finds the entry of `key`. */
  lemma LookupUnique(t: Table, key: string)
    requires DistinctKeys(t)
    ensures forall j :: 0 <= j < |t| && t[j].0 == key ==> Lookup(t, key) == Some(t[j].1)
  {
    forall j | 0 <= j < |t| && t[j].0 == key ensures Lookup(t, key) == Some(t[j].1) {
      var i :| 0 <= i < |t| && t[i] == (key, Lookup(t, key).value);
      assert i == j;
    }
  }

  /** `add_wordreadings`: every reading is rendered and stored under its word,
      in order, so a later reading of the same word wins. */
  function AddWordReadings(open: string, close: string, table: Table, readings: seq<WordReading>): Table
    requires DistinctKeys(table)
    requires forall j :: 0 <= j < |readings| ==> WellFormedWord(readings[j])
    decreases |readings|
  {
    if |readings| == 0 then table
    else
      var w := readings[0];
      AddWordReadings(open, close, Put(table, Word(w), Replacement(open, close, w)), readings[1..])
  }

  /** The words already in the table keep their places; new words follow. */
  lemma {:induction false} AddWordReadingsKeepsOrder(open: string, close: string, table: Table, readings: seq<WordReading>)
    requires DistinctKeys(table)
    requires forall j :: 0 <= j < |readings| ==> WellFormedWord(readings[j])
    ensures var r := AddWordReadings(open, close, table, readings);
      |table| <= |r| && forall j :: 0 <= j < |table| ==> r[j].0 == table[j].0
    decreases |readings|
  {
    if |readings| > 0 {
      var w := readings[0];
      var t := Put(table, Word(w), Replacement(open, close, w));
      AddWordReadingsKeepsOrder(open, close, t, readings[1..]);
    }
  }

  /** After `add_wordreadings`, each word maps to the replacement of its last
      reading, and every other word keeps its replacement. */
  lemma {:induction false} AddWordReadingsLookup(open: string, close: string, table: Table, readings: seq<WordReading>)
    requires DistinctKeys(table)
    requires forall j :: 0 <= j < |readings| ==> WellFormedWord(readings[j])
    ensures forall k :: (forall j :: 0 <= j < |readings| ==> Word(readings[j]) != k) ==>
      Lookup(AddWordReadings(open, close, table, readings), k) == Lookup(table, k)
    ensures forall j :: 0 <= j < |readings| && (forall m :: j < m < |readings| ==> Word(readings[m]) != Word(readings[j])) ==>
      Lookup(AddWordReadings(open, close, table, readings), Word(readings[j])) == Some(Replacement(open, close, readings[j]))
    decreases |readings|
  {
    if |readings| > 0 {
      var w := readings[0];
      var t := Put(table, Word(w), Replacement(open, close, w));
      var tail := readings[1..];
      PutLookup(table, Word(w), Replacement(open, close, w));
      AddWordReadingsLookup(open, close, t, tail);
      assert forall j :: 0 <= j < |tail| ==> tail[j] == readings[j + 1];
      var r := AddWordReadings(open, close, table, readings);
      assert r == AddWordReadings(open, close, t, tail);
      forall j | 0 <= j < |readings| && (forall m :: j < m < |readings| ==> Word(readings[m]) != Word(readings[j]))
        ensures Lookup(r, Word(readings[j])) == Some(Replacement(open, close, readings[j]))
      {
        if j == 0 {
          assert forall m :: 0 <= m < |tail| ==> Word(tail[m]) != Word(w) by {
            forall m | 0 <= m < |tail| ensures Word(tail[m]) != Word(w) {
              assert tail[m] == readings[m + 1];
            }
          }
        } else {
          assert readings[j] == tail[j - 1];
          assert forall m :: j - 1 < m < |tail| ==> tail[m] == readings[m + 1];
        }
      }
    }
  }

  /** The word `行灯` read `あん`+`どん`, with `[` and `]` as the tags. */
  lemma AndonExample()
    ensures AddWordReadings("[", "]", [], [WordReading(["行", "灯"], ["あん", "どん"])])
      == [("行灯", "<行[あん]灯[どん]>")]
  {
    var w := WordReading(["行", "灯"], ["あん", "どん"]);
    assert IsKanji('行') && IsKanji('灯');
    assert WordPieces(w) == [Ruby("行", "あん"), Ruby("灯", "どん")];
    assert Render(WordPieces(w), "[", "]") == "行[あん]灯[どん]" by {
      assert Render([Ruby("灯", "どん")], "[", "]") == "灯[どん]" + Render([], "[", "]");
    }
    assert Replacement("[", "]", w) == "<行[あん]灯[どん]>";
    assert Word(w) == "行灯" by {
      assert Join(["灯"]) == "灯" + Join([]);
    }
    assert Put([], "行灯", "<行[あん]灯[どん]>") == [("行灯", "<行[あん]灯[どん]>")];
  }

  /** Once `行灯` is registered, processing the word writes the registered
      readings, whatever the collaborators and the cache. */
  lemma AndonProcessed(sp: Splitters, env: Env, cache: Cache, userdata: int)
    ensures var table := AddWordReadings("[", "]", [], [WordReading(["行", "灯"], ["あん", "どん"])]);
      ProcessText(sp, env, Instance("[", "]", table, cache), "行灯", userdata)
        == Done(Processed(true, "行[あん]灯[どん]", [Plain("行[あん]灯[どん]")], [], cache))
  {
    AndonExample();
    AndonReplaced();
    AndonStrings();
    var table := [("行灯", "<行[あん]灯[どん]>")];
    ProcessTextWholeCustom(sp, env, Instance("[", "]", table, cache), "行灯", userdata, "行[あん]灯[どん]");
  }

  /** The strings of the example: the word holds no tag of either kind, and
      its replacement is its rendering inside the custom tags. */
  lemma AndonStrings()
    ensures !Contains("行灯", "[") && !Contains("行灯", "]")
    ensures CustomOpen !in "行灯" && CustomClose !in "行灯" && CustomClose !in "行[あん]灯[どん]"
    ensures "<行[あん]灯[どん]>" == [CustomOpen] + "行[あん]灯[どん]" + [CustomClose]
  {
    ContainsChar("行灯", '[');
    ContainsChar("行灯", ']');
  }

  /** The custom-reading loop turns `行灯` into its replacement. */
  lemma AndonReplaced()
    ensures ApplyCustom([("行灯", "<行[あん]灯[どん]>")], "行灯") == (true, "<行[あん]灯[どん]>")
  {
    var repl := "<行[あん]灯[どん]>";
    var text := "行灯";
    assert text[..2] == text && text[2..] == [];
    assert Replace(text, text, repl) == repl + Replace([], text, repl);
    var table := [(text, repl)];
    assert table[1..] == [];
    assert ApplyCustom(table[1..], repl) == (false, repl);
    assert |repl| != |text|;
    var t := Replace(text, table[0].0, table[0].1);
    assert t == repl;
    var rest := ApplyCustom(table[1..], t);
    assert ApplyCustom(table, text) == (rest.0 || |t| != |text|, rest.1);
  }
}

=== FILE: resolver.dfy ===
/** Matching the kanji of one run to its katakana, one kanji at a time
    (`_find_reading` of instanceprv.py), and the problems it reports
    (`Problem` of problem.py). */
module Resolver {
  import opened Base
  import opened PyStr
  import opened Utils
  import opened InstanceData
  import opened Collab
  import opened Readings

  /** Which of the engine's reports a problem is. */
  datatype ProblemKind =
    | NoReading     // no candidate reading at all for a kanji
    | NoMatch       // no candidate of a kanji starts the remaining kana
    | Leftover      // every kanji matched, but kana remain
    | Untranslated  // a token without any hiragana

  /** `Problem`: the report, the kanji (or text) it is about and the caller's
      user data. The description text is not modelled. */
  datatype Problem = Problem(kind: ProblemKind, subject: string, userdata: int)

  /** The result of `_find_reading`: whether it succeeded, the readings it
      chose (the source appends their hiragana to `readings`), the problems it
      appended, and the cache afterwards. */
  datatype Outcome = Outcome(ok: bool, chosen: seq<Reading>, problems: seq<Problem>, cache: Cache)

  /** The katakana of each chosen reading. */
  function Katas(rs: seq<Reading>): (r: seq<string>)
    ensures |r| == |rs| && forall j :: 0 <= j < |rs| ==> r[j] == rs[j].katakana
  {
    seq(|rs|, j requires 0 <= j < |rs| => rs[j].katakana)
  }

  /** The hiragana of each chosen reading: what the source appends to
      `readings`. */
  function Hiras(rs: seq<Reading>): (r: seq<string>)
    ensures |r| == |rs| && forall j :: 0 <= j < |rs| ==> r[j] == rs[j].hiragana
  {
    seq(|rs|, j requires 0 <= j < |rs| => rs[j].hiragana)
  }

  /** The first reading, in stored order, whose katakana starts `left`. */
  function FirstPrefix(rs: seq<Reading>, left: string): (r: Option<nat>)
    ensures r.Some? ==> r.value < |rs| && StartsWith(left, rs[r.value].katakana)
    ensures r.Some? ==> forall m :: 0 <= m < r.value ==> !StartsWith(left, rs[m].katakana)
    ensures r.None? <==> forall m :: 0 <= m < |rs| ==> !StartsWith(left, rs[m].katakana)
  {
    FirstPrefixFrom(rs, left, 0)
  }

  function FirstPrefixFrom(rs: seq<Reading>, left: string, m: nat): (r: Option<nat>)
    requires forall k :: 0 <= k < m && k < |rs| ==> !StartsWith(left, rs[k].katakana)
    ensures r.Some? ==> m <= r.value < |rs| && StartsWith(left, rs[r.value].katakana)
    ensures r.Some? ==> forall k :: 0 <= k < r.value ==> !StartsWith(left, rs[k].katakana)
    ensures r.None? <==> forall k :: 0 <= k < |rs| ==> !StartsWith(left, rs[k].katakana)
    decreases |rs| - m
  {
    if m >= |rs| then None
    else if StartsWith(left, rs[m].katakana) then Some(m)
    else FirstPrefixFrom(rs, left, m + 1)
  }

  /** With the readings sorted longest first, the first match is a longest
      match: the greedy choice takes as much kana as any candidate could. */
  lemma FirstPrefixLongest(rs: seq<Reading>, left: string, k: nat)
    requires SortedDesc(rs) && FirstPrefix(rs, left).Some?
    requires k < |rs| && StartsWith(left, rs[k].katakana)
    ensures |rs[k].katakana| <= |rs[FirstPrefix(rs, left).value].katakana|
  {
    var m := FirstPrefix(rs, left).value;
    assert m <= k;
  }

  /** A run of two characters whose first is a kanji numeral: a failed match
      is not reported for it. */
  predicate IsNumeral(kanji: string)
  {
    |kanji| == 2 && kanji[0] in KanjiNumbers
  }

  /** A run of two characters ending in the iteration mark: not matched at
      all. */
  predicate IsSaying(kanji: string)
  {
    |kanji| == 2 && kanji[1] == IterationMark
  }

  /** `_find_reading`. The source asserts that some reading was appended;
      with a non-empty run (the only kind its caller passes) that always
      holds. */
  function FindReading(env: Env, cache: Cache, kanji: string, wordKata: string, userdata: int): (r: Outcome)
    requires |kanji| > 0
    ensures IsSaying(kanji) ==> r == Outcome(false, [], [], cache)
    ensures r.ok ==> |r.chosen| == |kanji| && Join(Katas(r.chosen)) == wordKata
    ensures r.ok ==> r.problems == []
    ensures |r.problems| <= 1
    ensures !r.ok && !IsSaying(kanji) && !IsNumeral(kanji) ==> |r.problems| == 1
    ensures IsNumeral(kanji) ==> forall p :: p in r.problems ==> p.kind != NoMatch
    ensures forall p :: p in r.problems ==> ProblemAbout(p, kanji, userdata)
    ensures Extends(cache, r.cache) && (CacheSorted(cache) ==> CacheSorted(r.cache))
  {
    if IsSaying(kanji) then Outcome(false, [], [], cache)
    else Consume(env, cache, kanji, wordKata, userdata, !IsNumeral(kanji), 0, wordKata, [])
  }

  /** A problem of `_find_reading` carries the user data, and names either
      the whole run (kana left over) or one of its kanji. */
  predicate ProblemAbout(p: Problem, kanji: string, userdata: int)
  {
    p.userdata == userdata &&
    (p.kind == Leftover ==> p.subject == kanji) &&
    (p.kind == NoReading || p.kind == NoMatch ==> |p.subject| == 1 && p.subject[0] in kanji) &&
    p.kind != Untranslated
  }

  /** The loop of `_find_reading` from the `i`-th kanji on, with `left` the
      kana not yet consumed. */
  function Consume(env: Env, cache: Cache, kanji: string, wordKata: string, userdata: int,
                   showProblem: bool, i: nat, left: string, chosen: seq<Reading>): (r: Outcome)
    requires i <= |kanji| && |chosen| == i
    requires Join(Katas(chosen)) + left == wordKata
    ensures r.ok ==> |r.chosen| == |kanji| && Join(Katas(r.chosen)) == wordKata
    ensures r.ok ==> r.problems == []
    ensures |r.problems| <= 1
    ensures !r.ok && showProblem ==> |r.problems| == 1
    ensures !showProblem ==> forall p :: p in r.problems ==> p.kind != NoMatch
    ensures forall p :: p in r.problems ==> ProblemAbout(p, kanji, userdata)
    ensures Extends(cache, r.cache) && (CacheSorted(cache) ==> CacheSorted(r.cache))
    decreases |kanji| - i
  {
    if i == |kanji| then
      if |left| > 0 then Outcome(false, chosen, [Problem(Leftover, kanji, userdata)], cache)
      else Outcome(true, chosen, [], cache)
    else
      var k := kanji[i];
      var (cache', found) := GetKanjiReading(env, cache, k, wordKata);
      if |found| < 1 then Outcome(false, chosen, [Problem(NoReading, [k], userdata)], cache')
      else
        match FirstPrefix(found, left)
        case None =>
          Outcome(false, chosen, if showProblem then [Problem(NoMatch, [k], userdata)] else [], cache')
        case Some(m) =>
          var x := found[m];
          StepJoin(chosen, x, left, wordKata);
          ExtendsTrans(cache, cache');
          Consume(env, cache', kanji, wordKata, userdata, showProblem, i + 1, left[|x.katakana|..], chosen + [x])
  }

  /** Consuming a reading whose katakana starts the remaining kana keeps the
      consumed and the remaining kana together equal to the word's kana. */
  lemma StepJoin(chosen: seq<Reading>, x: Reading, left: string, wordKata: string)
    requires Join(Katas(chosen)) + left == wordKata
    requires StartsWith(left, x.katakana)
    ensures Join(Katas(chosen + [x])) + left[|x.katakana|..] == wordKata
  {
    assert Katas(chosen + [x]) == Katas(chosen) + [x.katakana];
    JoinAppend(Katas(chosen), [x.katakana]);
    JoinSingle(x.katakana);
    assert left == x.katakana + left[|x.katakana|..];
  }

  /** Every later cache still extends an earlier one. */
  lemma ExtendsTrans(c: Cache, d: Cache)
    requires Extends(c, d)
    ensures forall e :: Extends(d, e) ==> Extends(c, e)
  {
  }

  /** Hiding the "could not match" report changes nothing else: the outcome
      with reports suppressed is the reported one without its `NoMatch`
      problems. */
  lemma {:induction false} SuppressOnlyNoMatch(env: Env, cache: Cache, kanji: string, wordKata: string,
                                               userdata: int, i: nat, left: string, chosen: seq<Reading>)
    requires i <= |kanji| && |chosen| == i
    requires Join(Katas(chosen)) + left == wordKata
    ensures var shown := Consume(env, cache, kanji, wordKata, userdata, true, i, left, chosen);
      var hidden := Consume(env, cache, kanji, wordKata, userdata, false, i, left, chosen);
      hidden.ok == shown.ok && hidden.chosen == shown.chosen && hidden.cache == shown.cache &&
      hidden.problems == WithoutNoMatch(shown.problems)
    decreases |kanji| - i
  {
    if i == |kanji| {
      WithoutNoMatchOne(Problem(Leftover, kanji, userdata));
    } else {
      var (cache', found) := GetKanjiReading(env, cache, kanji[i], wordKata);
      if |found| < 1 {
        WithoutNoMatchOne(Problem(NoReading, [kanji[i]], userdata));
      } else if FirstPrefix(found, left).None? {
        WithoutNoMatchOne(Problem(NoMatch, [kanji[i]], userdata));
      } else {
        var x := found[FirstPrefix(found, left).value];
        StepJoin(chosen, x, left, wordKata);
        ConsumeStep(env, cache, kanji, wordKata, userdata, true, i, left, chosen, cache', x);
        ConsumeStep(env, cache, kanji, wordKata, userdata, false, i, left, chosen, cache', x);
        SuppressOnlyNoMatch(env, cache', kanji, wordKata, userdata, i + 1, left[|x.katakana|..], chosen + [x]);
      }
    }
  }

  /** A single problem is dropped exactly when it is a "could not match" one. */
  lemma WithoutNoMatchOne(p: Problem)
    ensures WithoutNoMatch([]) == []
    ensures WithoutNoMatch([p]) == if p.kind == NoMatch then [] else [p]
  {
    assert [p][1..] == [];
  }

  /** A kanji matched to reading `x` passes the rest of the reading on to the
      next kanji. */
  lemma ConsumeStep(env: Env, cache: Cache, kanji: string, wordKata: string, userdata: int,
                    showProblem: bool, i: nat, left: string, chosen: seq<Reading>, cache': Cache, x: Reading)
    requires i < |kanji| && |chosen| == i && Join(Katas(chosen)) + left == wordKata
    requires GetKanjiReading(env, cache, kanji[i], wordKata).0 == cache'
    requires var found := GetKanjiReading(env, cache, kanji[i], wordKata).1;
      |found| >= 1 && FirstPrefix(found, left).Some? && x == found[FirstPrefix(found, left).value]
    requires StartsWith(left, x.katakana) && Join(Katas(chosen + [x])) + left[|x.katakana|..] == wordKata
    ensures Consume(env, cache, kanji, wordKata, userdata, showProblem, i, left, chosen) ==
            Consume(env, cache', kanji, wordKata, userdata, showProblem, i + 1, left[|x.katakana|..], chosen + [x])
  {
  }

  /** The problems other than failed matches. */
  function WithoutNoMatch(ps: seq<Problem>): (r: seq<Problem>)
    ensures forall p :: p in r <==> p in ps && p.kind != NoMatch
  {
    if |ps| == 0 then []
    else if ps[0].kind == NoMatch then WithoutNoMatch(ps[1..])
    else [ps[0]] + WithoutNoMatch(ps[1..])
  }

  /** The remaining kana once the readings `chosen[..j]` are consumed. */
  function RestAfter(wordKata: string, chosen: seq<Reading>, j: nat): string
    requires j <= |chosen|
  {
    var n := |Join(Katas(chosen[..j]))|;
    if n <= |wordKata| then wordKata[n..] else []
  }

  /** Greedy choice: on success, the reading chosen for each kanji is the
      first cached reading of that kanji whose katakana starts the kana that
      remained at that point. */
  predicate Greedy(cache: Cache, kanji: string, wordKata: string, chosen: seq<Reading>, n: nat)
    requires n <= |kanji| && n <= |chosen|
  {
    forall j :: 0 <= j < n ==>
      kanji[j] in cache &&
      FirstPrefix(cache[kanji[j]], RestAfter(wordKata, chosen, j)).Some? &&
      cache[kanji[j]][FirstPrefix(cache[kanji[j]], RestAfter(wordKata, chosen, j)).value] == chosen[j]
  }

  /** A successful `_find_reading` chose greedily for every kanji. */
  lemma FindReadingGreedy(env: Env, cache: Cache, kanji: string, wordKata: string, userdata: int)
    requires |kanji| > 0
    ensures var r := FindReading(env, cache, kanji, wordKata, userdata);
      r.ok ==> Greedy(r.cache, kanji, wordKata, r.chosen, |kanji|)
  {
    if !IsSaying(kanji) {
      assert Katas([]) == [];
      ConsumeGreedy(env, cache, kanji, wordKata, userdata, !IsNumeral(kanji), 0, wordKata, []);
    }
  }

  lemma {:induction false} ConsumeGreedy(env: Env, cache: Cache, kanji: string, wordKata: string, userdata: int,
                                         showProblem: bool, i: nat, left: string, chosen: seq<Reading>)
    requires i <= |kanji| && |chosen| == i
    requires Join(Katas(chosen)) + left == wordKata
    requires Greedy(cache, kanji, wordKata, chosen, i)
    ensures var r := Consume(env, cache, kanji, wordKata, userdata, showProblem, i, left, chosen);
      r.ok ==> Greedy(r.cache, kanji, wordKata, r.chosen, |kanji|)
    decreases |kanji| - i
  {
    if i < |kanji| {
      var (cache', found) := GetKanjiReading(env, cache, kanji[i], wordKata);
      if |found| >= 1 && FirstPrefix(found, left).Some? {
        var m := FirstPrefix(found, left).value;
        var x := found[m];
        StepJoin(chosen, x, left, wordKata);
        GreedyStep(cache, cache', kanji, wordKata, chosen, x, left, m);
        ConsumeGreedy(env, cache', kanji, wordKata, userdata, showProblem, i + 1, left[|x.katakana|..], chosen + [x]);
        var r := Consume(env, cache', kanji, wordKata, userdata, showProblem, i + 1, left[|x.katakana|..], chosen + [x]);
        assert Consume(env, cache, kanji, wordKata, userdata, showProblem, i, left, chosen) == r;
      }
    }
  }

  /** The kana remaining after all of `chosen` is `left`. */
  lemma RestAfterAll(wordKata: string, chosen: seq<Reading>, x: Reading, left: string)
    requires Join(Katas(chosen)) + left == wordKata
    ensures RestAfter(wordKata, chosen + [x], |chosen|) == left
  {
    assert (chosen + [x])[..|chosen|] == chosen;
  }

  /** One greedy step: the `i`-th choice joins the earlier ones, which a
      larger cache and a longer choice list leave as they were. */
  lemma GreedyStep(cache: Cache, cache': Cache, kanji: string, wordKata: string,
                   chosen: seq<Reading>, x: Reading, left: string, m: nat)
    requires |chosen| < |kanji|
    requires Join(Katas(chosen)) + left == wordKata
    requires Greedy(cache, kanji, wordKata, chosen, |chosen|)
    requires Extends(cache, cache') && kanji[|chosen|] in cache'
    requires FirstPrefix(cache'[kanji[|chosen|]], left) == Some(m) && m < |cache'[kanji[|chosen|]]|
    requires cache'[kanji[|chosen|]][m] == x
    ensures Greedy(cache', kanji, wordKata, chosen + [x], |chosen| + 1)
  {
    GreedyKept(cache, cache', kanji, wordKata, chosen, x);
    RestAfterAll(wordKata, chosen, x, left);
    assert (chosen + [x])[|chosen|] == x;
  }

  /** The earlier greedy choices survive a larger cache and one more
      choice. */
  lemma GreedyKept(cache: Cache, cache': Cache, kanji: string, wordKata: string,
                   chosen: seq<Reading>, x: Reading)
    requires |chosen| < |kanji|
    requires Greedy(cache, kanji, wordKata, chosen, |chosen|)
    requires Extends(cache, cache')
    ensures Greedy(cache', kanji, wordKata, chosen + [x], |chosen|)
  {
    var chosen' := chosen + [x];
    forall j | 0 <= j < |chosen|
      ensures kanji[j] in cache' &&
        FirstPrefix(cache'[kanji[j]], RestAfter(wordKata, chosen', j)).Some? &&
        cache'[kanji[j]][FirstPrefix(cache'[kanji[j]], RestAfter(wordKata, chosen', j)).value] == chosen'[j]
    {
      assert chosen'[..j] == chosen[..j];
      assert RestAfter(wordKata, chosen', j) == RestAfter(wordKata, chosen, j);
      assert kanji[j] in cache && cache'[kanji[j]] == cache[kanji[j]];
      assert chosen'[j] == chosen[j];
    }
  }
}

=== FILE: segmenter.dfy ===
/** Splitting a word into kanji runs and aligning its kana reading with them
    (`_split_kanji`, `_split_hiragana`, `_split_katakana` and `_fix_longvowels`
    of instanceprv.py). */
module Segmenter {
  import opened Base
  import opened PyStr
  import opened Utils
  import opened InstanceData

  /** One `(text, iskanji)` tuple of a split. */
  datatype Segment = Segment(text: string, isKanji: bool)

  /** The texts of a split, joined. */
  function Concat(r: seq<Segment>): (s: string)
    ensures |r| == 0 ==> s == []
  {
    if |r| == 0 then [] else r[0].text + Concat(r[1..])
  }

  lemma {:induction false} ConcatAppend(a: seq<Segment>, b: seq<Segment>)
    ensures Concat(a + b) == Concat(a) + Concat(b)
  {
    if |a| == 0 {
      assert a + b == b;
    } else {
      assert (a + b)[1..] == a[1..] + b;
      ConcatAppend(a[1..], b);
    }
  }

  /** The total length of the segments' texts. */
  function TextLen(r: seq<Segment>): nat
  {
    if |r| == 0 then 0 else |r[0].text| + TextLen(r[1..])
  }

  /** `TextLen` is the length of the concatenation. */
  lemma {:induction false} TextLenConcat(r: seq<Segment>)
    ensures TextLen(r) == |Concat(r)|
  {
    if |r| > 0 {
      TextLenConcat(r[1..]);
    }
  }

  /** Every character of the segment is classified as its flag says. */
  predicate Uniform(g: Segment)
  {
    forall i :: 0 <= i < |g.text| ==> IsKanji(g.text[i]) == g.isKanji
  }

  /** Neighbouring segments have opposite flags. */
  predicate Alternating(r: seq<Segment>)
  {
    forall j :: 0 <= j < |r| - 1 ==> r[j].isKanji != r[j + 1].isKanji
  }

  /** No segment is empty. */
  predicate NonEmptyParts(r: seq<Segment>)
  {
    forall j :: 0 <= j < |r| ==> |r[j].text| > 0
  }

  /** A decomposition of `s` into maximal runs of kanji and of non-kanji. */
  predicate IsRunSplit(s: string, r: seq<Segment>)
  {
    |r| > 0 && Concat(r) == s && NonEmptyParts(r) && Alternating(r) &&
    forall j :: 0 <= j < |r| ==> Uniform(r[j])
  }

  // ---------------------------------------------------------------------------
  // _split_kanji

  /** `_split_kanji`: cuts `s` wherever the kanji classification changes. The
      source reads `kanji[0]`, so the word must not be empty. */
  function SplitKanji(s: string): (r: seq<Segment>)
    requires |s| > 0
    ensures IsRunSplit(s, r)
    ensures r[0].isKanji == IsKanji(s[0])
  {
    Scan(s, 0, 1, IsKanji(s[0]))
  }

  /** The loop of `_split_kanji`: `s[start..i]` is the current run, all of kind
      `was`; the final run is emitted when the scan reaches the end. */
  function Scan(s: string, start: nat, i: nat, was: bool): (r: seq<Segment>)
    requires start < i <= |s|
    requires forall j :: start <= j < i ==> IsKanji(s[j]) == was
    ensures |r| > 0 && r[0].isKanji == was
    ensures IsRunSplit(s[start..], r)
    decreases |s| - i
  {
    if i == |s| then
      var r := [Segment(s[start..], was)];
      assert Concat(r) == s[start..] + Concat([]);
      r
    else if IsKanji(s[i]) != was then
      var head := Segment(s[start..i], was);
      var tail := Scan(s, i, i + 1, !was);
      assert ([head] + tail)[1..] == tail;
      assert s[start..] == s[start..i] + s[i..];
      [head] + tail
    else
      Scan(s, start, i + 1, was)
  }

  /** The first run of a run split is the longest prefix of one kind: all its
      characters share the kind of `s[0]` and the next one (if any) differs. */
  lemma FirstRun(s: string, r: seq<Segment>)
    requires IsRunSplit(s, r)
    ensures 0 < |r[0].text| <= |s| && s[..|r[0].text|] == r[0].text
    ensures forall i :: 0 <= i < |r[0].text| ==> IsKanji(s[i]) == IsKanji(s[0])
    ensures |r[0].text| < |s| ==> IsKanji(s[|r[0].text|]) != IsKanji(s[0])
    ensures |r[0].text| == |s| <==> |r| == 1
    ensures r[0].isKanji == IsKanji(s[0])
  {
    ConcatFirst(r);
    assert s[0] == r[0].text[0];
    assert forall i :: 0 <= i < |r[0].text| ==> s[i] == r[0].text[i];
    if |r| > 1 {
      ConcatFirst(r[1..]);
      assert s[|r[0].text|] == r[1].text[0];
    }
  }

  /** The run split is the only decomposition into non-empty, uniform,
      alternating parts: `_split_kanji` finds exactly the maximal runs. */
  lemma {:induction false} RunSplitUnique(s: string, r: seq<Segment>, q: seq<Segment>)
    requires IsRunSplit(s, r) && IsRunSplit(s, q)
    ensures r == q
    decreases |s|
  {
    FirstRun(s, r);
    FirstRun(s, q);
    var n := |r[0].text|;
    assert n == |q[0].text|;
    assert r[0] == q[0];
    if n < |s| {
      ConcatFirst(r);
      ConcatFirst(q);
      var s' := s[n..];
      assert IsRunSplit(s', r[1..]) by {
        assert forall j :: 0 <= j < |r| - 1 ==> r[1..][j] == r[j + 1];
      }
      assert IsRunSplit(s', q[1..]) by {
        assert forall j :: 0 <= j < |q| - 1 ==> q[1..][j] == q[j + 1];
      }
      RunSplitUnique(s', r[1..], q[1..]);
      assert r == [r[0]] + r[1..];
      assert q == [q[0]] + q[1..];
    }
  }

  lemma ConcatFirst(r: seq<Segment>)
    requires |r| > 0
    ensures Concat(r) == r[0].text + Concat(r[1..])
    ensures |Concat(r)| >= |r[0].text|
  {
  }

  /** `_split_kanji` returns the run split: any decomposition into non-empty,
      uniform, alternating parts is the one it computes. */
  lemma SplitKanjiCharacterised(s: string, q: seq<Segment>)
    requires |s| > 0
    ensures IsRunSplit(s, q) <==> q == SplitKanji(s)
  {
    if IsRunSplit(s, q) {
      RunSplitUnique(s, q, SplitKanji(s));
    }
  }

  // ---------------------------------------------------------------------------
  // _split_hiragana

  /** Where a non-kanji run was found: in the hiragana or, failing that, in the
      katakana, at `pos`. */
  datatype Hit = Hit(inKatakana: bool, pos: nat)

  /** `t` occurs in `hira` ending by the search limit, directly or (a single
      voiced kana) through its unvoiced base form. */
  predicate FoundInHiragana(t: string, hira: string, limit: nat, pos: nat)
  {
    pos + |t| <= limit &&
    (MatchAt(hira, t, pos) ||
     (|t| == 1 && t[0] in BaseHiragana && MatchAt(hira, [BaseHiragana[t[0]]], pos)))
  }

  /** `t` occurs in `kata` ending by the search limit. */
  predicate FoundInKatakana(t: string, kata: string, limit: nat, pos: nat)
  {
    pos + |t| <= limit && MatchAt(kata, t, pos)
  }

  /** The lookup of one non-kanji run: `rfind` in the hiragana, then the retry
      with the unvoiced base form of a single kana, then `rfind` in the
      katakana; `None` is the failed `assert pos >= 0`. */
  function Locate(t: string, hira: string, kata: string, endfind: int): (r: Option<Hit>)
    requires |hira| == |kata|
    ensures r.Some? && !r.value.inKatakana ==>
      FoundInHiragana(t, hira, Clamp(endfind, |hira|), r.value.pos)
    ensures r.Some? && r.value.inKatakana ==>
      FoundInKatakana(t, kata, Clamp(endfind, |kata|), r.value.pos)
    ensures r.None? <==>
      (forall p: nat :: !FoundInHiragana(t, hira, Clamp(endfind, |hira|), p)) &&
      (forall p: nat :: !FoundInKatakana(t, kata, Clamp(endfind, |kata|), p))
  {
    var p := RFind(hira, t, endfind);
    var p2 := if p < 0 && |t| == 1 && t[0] in BaseHiragana then RFind(hira, [BaseHiragana[t[0]]], endfind) else p;
    if p2 >= 0 then
      assert FoundInHiragana(t, hira, Clamp(endfind, |hira|), p2);
      Some(Hit(false, p2))
    else
      var q := RFind(kata, t, endfind);
      if q >= 0 then
        assert FoundInKatakana(t, kata, Clamp(endfind, |kata|), q);
        Some(Hit(true, q))
      else None
  }

  /** One non-kanji run `e` placed: its position, and the segments it adds to
      the result, namely `e` itself and, if the located text stops short of
      `end`, the kana in between as the reading of the kanji run behind it. */
  function Place(e: Segment, hira: string, kata: string, end: int, endfind: int): (r: Option<(nat, seq<Segment>)>)
    requires |hira| == |kata| && 0 <= end <= |hira|
    ensures r.Some? <==> Locate(e.text, hira, kata, endfind).Some?
    ensures r.Some? ==> r.value.0 == Locate(e.text, hira, kata, endfind).value.pos
    ensures r.Some? ==> r.value.0 + |e.text| <= Clamp(endfind, |hira|)
    ensures r.Some? ==> var (pos, parts) := r.value;
      1 <= |parts| <= 2 && parts[0] == e &&
      (|parts| == 1 <==> end <= pos + |e.text|) &&
      (|parts| == 2 ==> parts[1].isKanji && |parts[1].text| == end - pos - |e.text| > 0)
  {
    match Locate(e.text, hira, kata, endfind)
    case None => None
    case Some(h) => Some(Cut(e, h, hira, kata, end))
  }

  /** What run `e`, located at `h`, adds: `e` itself and, if it stops short
      of `end`, the kana in between, cut from the text it was found in. */
  function Cut(e: Segment, h: Hit, hira: string, kata: string, end: int): (nat, seq<Segment>)
  {
    var text := if h.inKatakana then kata else hira;
    var start := h.pos + |e.text|;
    if start < end then (h.pos, [e, Segment(Slice(text, start, end), true)])
    else (h.pos, [e])
  }

  /** A placed run is read where it was placed: the run itself is found at
      its position, and the kana between it and `end` are the hiragana or
      katakana there. */
  lemma PlaceReads(e: Segment, hira: string, kata: string, end: int, endfind: int, pos: nat, parts: seq<Segment>)
    requires |hira| == |kata| && 0 <= end <= |hira| && !e.isKanji
    requires Place(e, hira, kata, end, endfind) == Some((pos, parts))
    ensures SegmentAt(e, hira, kata, pos)
    ensures |parts| == 2 ==> SegmentAt(parts[1], hira, kata, pos + |e.text|)
  {
    PlaceFound(e, hira, kata, end, endfind, pos, parts);
    if |parts| == 2 {
      PlaceGap(e, hira, kata, end, endfind, pos, parts);
    }
  }

  /** The placed run is found at its position. */
  lemma PlaceFound(e: Segment, hira: string, kata: string, end: int, endfind: int, pos: nat, parts: seq<Segment>)
    requires |hira| == |kata| && 0 <= end <= |hira| && !e.isKanji
    requires Place(e, hira, kata, end, endfind) == Some((pos, parts))
    ensures SegmentAt(e, hira, kata, pos)
  {
    var h := Locate(e.text, hira, kata, endfind).value;
    assert pos == h.pos;
  }

  /** The kana between the placed run and `end` are the hiragana or the
      katakana there. */
  lemma PlaceGap(e: Segment, hira: string, kata: string, end: int, endfind: int, pos: nat, parts: seq<Segment>)
    requires |hira| == |kata| && 0 <= end <= |hira|
    requires Place(e, hira, kata, end, endfind) == Some((pos, parts)) && |parts| == 2
    ensures SegmentAt(parts[1], hira, kata, pos + |e.text|)
  {
    var h := Locate(e.text, hira, kata, endfind).value;
    assert (pos, parts) == Cut(e, h, hira, kata, end);
    CutGap(e, h, hira, kata, end);
  }

  /** The kana that `Cut` adds are the hiragana or the katakana behind the
      located run. */
  lemma CutGap(e: Segment, h: Hit, hira: string, kata: string, end: int)
    requires |hira| == |kata| && end <= |hira| && |Cut(e, h, hira, kata, end).1| == 2
    ensures SegmentAt(Cut(e, h, hira, kata, end).1[1], hira, kata, h.pos + |e.text|)
  {
    var text := if h.inKatakana then kata else hira;
    GapAt(text, hira, kata, h.pos + |e.text|, end);
  }

  /** A kanji segment cut from the hiragana or the katakana sits where it
      was cut. */
  lemma GapAt(text: string, hira: string, kata: string, start: nat, end: int)
    requires |hira| == |kata| && (text == hira || text == kata) && start <= end <= |hira|
    ensures SegmentAt(Segment(Slice(text, start, end), true), hira, kata, start)
  {
    assert Slice(text, start, end) == text[start..end];
  }

  /** `f` ends with `acc`. */
  predicate EndsWith(f: seq<Segment>, acc: seq<Segment>)
  {
    |acc| <= |f| && f[|f| - |acc|..] == acc
  }

  lemma EndsWithTrans(f: seq<Segment>, parts: seq<Segment>, acc: seq<Segment>)
    requires EndsWith(f, parts + acc)
    ensures EndsWith(f, acc)
    ensures forall j :: 0 <= j < |parts| ==> f[|f| - |acc| - |parts| + j] == parts[j]
  {
    assert f[|f| - |acc|..] == f[|f| - |parts + acc|..][|parts|..];
    forall j | 0 <= j < |parts| ensures f[|f| - |acc| - |parts| + j] == parts[j] {
      assert f[|f| - |acc| - |parts| + j] == f[|f| - |parts + acc|..][j];
    }
  }

  /** Every kanji segment has some reading text. */
  predicate KanjiNonEmpty(r: seq<Segment>)
  {
    forall j :: 0 <= j < |r| && r[j].isKanji ==> |r[j].text| > 0
  }

  /** Where segment `g` sits at offset `o` of the reading: a kanji segment is
      the hiragana or the katakana there, and a non-kanji run is found there
      in the hiragana (directly or through its unvoiced base form) or in the
      katakana. */
  predicate SegmentAt(g: Segment, hira: string, kata: string, o: nat)
  {
    match g
    case Segment(text, true) =>
      o + |text| <= |hira| && o + |text| <= |kata| &&
      (text == hira[o..o + |text|] || text == kata[o..o + |text|])
    case Segment(text, false) =>
      FoundInHiragana(text, hira, |hira|, o) || FoundInKatakana(text, kata, |kata|, o)
  }

  /** The segments lie one after another from offset `o` to the end of the
      reading: each sits right after the segments before it, where
      `SegmentAt` says. */
  predicate Tiled(r: seq<Segment>, hira: string, kata: string, o: nat)
  {
    o + TextLen(r) == |hira| &&
    forall j {:trigger Offset(r, j)} :: 0 <= j < |r| ==> SegmentAt(r[j], hira, kata, o + Offset(r, j))
  }

  /** The length of the text in front of segment `j`. */
  function Offset(r: seq<Segment>, j: nat): nat
    requires j <= |r|
  {
    TextLen(r[..j])
  }

  /** A segment in place followed by a tiling from its end is a tiling. */
  lemma TiledPrepend(g: Segment, rest: seq<Segment>, hira: string, kata: string, o: nat, next: nat)
    requires SegmentAt(g, hira, kata, o) && next == o + |g.text| && Tiled(rest, hira, kata, next)
    ensures Tiled([g] + rest, hira, kata, o)
  {
    TextLenCons(g, rest);
    PrependAll(g, rest, hira, kata, o, next);
  }

  /** The quantified half of `TiledPrepend`. */
  lemma PrependAll(g: Segment, rest: seq<Segment>, hira: string, kata: string, o: nat, next: nat)
    requires SegmentAt(g, hira, kata, o) && next == o + |g.text| && Tiled(rest, hira, kata, next)
    ensures forall j {:trigger Offset([g] + rest, j)} :: 0 <= j < |[g] + rest| ==>
      SegmentAt(([g] + rest)[j], hira, kata, o + Offset([g] + rest, j))
  {
    forall j | 0 <= j < |[g] + rest| ensures SegmentAt(([g] + rest)[j], hira, kata, o + Offset([g] + rest, j)) {
      PrependAt(g, rest, hira, kata, o, next, j);
    }
  }

  /** Segment `j` of `[g] + rest` in place: `g` itself at the start, or
      segment `j - 1` of `rest` where it was. */
  lemma PrependAt(g: Segment, rest: seq<Segment>, hira: string, kata: string, o: nat, next: nat, j: nat)
    requires SegmentAt(g, hira, kata, o) && next == o + |g.text| && Tiled(rest, hira, kata, next)
    requires j <= |rest|
    ensures SegmentAt(([g] + rest)[j], hira, kata, o + Offset([g] + rest, j))
  {
    if j == 0 {
      assert ([g] + rest)[..0] == [];
    } else {
      ConsAt(g, rest, j);
      assert SegmentAt(rest[j - 1], hira, kata, next + Offset(rest, j - 1));
    }
  }

  lemma TextLenCons(g: Segment, rest: seq<Segment>)
    ensures TextLen([g] + rest) == |g.text| + TextLen(rest)
  {
    assert ([g] + rest)[1..] == rest;
  }

  /** Segment `j` of `[g] + rest` and the length before it. */
  lemma ConsAt(g: Segment, rest: seq<Segment>, j: nat)
    requires 0 < j <= |rest|
    ensures ([g] + rest)[j] == rest[j - 1]
    ensures Offset([g] + rest, j) == |g.text| + Offset(rest, j - 1)
  {
    assert ([g] + rest)[..j] == [g] + rest[..j - 1];
    TextLenCons(g, rest[..j - 1]);
  }

  /** The loop of `_split_hiragana`, walking `ks` from the back. `acc` is the
      result in final order: the source appends and reverses at the end, the
      model prepends. A kanji run only narrows the search limit `endfind`; a
      non-kanji run is placed below it. */
  function HiraganaLoop(ks: seq<Segment>, hira: string, kata: string, i: nat,
                        end: int, endfind: int, acc: seq<Segment>): (r: Option<(int, seq<Segment>)>)
    requires |hira| == |kata| && i <= |ks| && 0 <= end <= |hira|
    decreases |ks| - i, 1
  {
    if i == |ks| then Some((end, acc))
    else if ks[|ks| - i - 1].isKanji then HiraganaLoop(ks, hira, kata, i + 1, end, endfind - 1, acc)
    else PlaceLoop(ks, hira, kata, i, end, endfind, acc)
  }

  /** The step of `HiraganaLoop` for the non-kanji run at `i`: place it, then
      carry on below it. */
  function PlaceLoop(ks: seq<Segment>, hira: string, kata: string, i: nat,
                     end: int, endfind: int, acc: seq<Segment>): (r: Option<(int, seq<Segment>)>)
    requires |hira| == |kata| && i < |ks| && 0 <= end <= |hira|
    decreases |ks| - i, 0
  {
    match Place(ks[|ks| - i - 1], hira, kata, end, endfind)
    case None => None
    case Some((pos, parts)) => HiraganaLoop(ks, hira, kata, i + 1, pos, pos, parts + acc)
  }

  /** The loop only ever prepends: its result ends with the segments it
      started from. */
  lemma {:induction false} LoopEndsWith(ks: seq<Segment>, hira: string, kata: string, i: nat,
                                        end: int, endfind: int, acc: seq<Segment>)
    requires |hira| == |kata| && i <= |ks| && 0 <= end <= |hira|
    ensures var r := HiraganaLoop(ks, hira, kata, i, end, endfind, acc);
      r.Some? ==> 0 <= r.value.0 <= |hira| && EndsWith(r.value.1, acc)
    decreases |ks| - i, 1
  {
    if i == |ks| {
      assert acc[|acc| - |acc|..] == acc;
    } else if ks[|ks| - i - 1].isKanji {
      LoopEndsWith(ks, hira, kata, i + 1, end, endfind - 1, acc);
    } else {
      PlaceEndsWith(ks, hira, kata, i, end, endfind, acc);
    }
  }

  lemma {:induction false} PlaceEndsWith(ks: seq<Segment>, hira: string, kata: string, i: nat,
                                         end: int, endfind: int, acc: seq<Segment>)
    requires |hira| == |kata| && i < |ks| && 0 <= end <= |hira|
    ensures var r := PlaceLoop(ks, hira, kata, i, end, endfind, acc);
      r.Some? ==> 0 <= r.value.0 <= |hira| && EndsWith(r.value.1, acc)
    decreases |ks| - i, 0
  {
    match Place(ks[|ks| - i - 1], hira, kata, end, endfind)
    case None =>
    case Some((pos, parts)) =>
      LoopEndsWith(ks, hira, kata, i + 1, pos, pos, parts + acc);
      var r := HiraganaLoop(ks, hira, kata, i + 1, pos, pos, parts + acc);
      if r.Some? {
        EndsWithTrans(r.value.1, parts, acc);
      }
  }

  /** The sanity checks closing `_split_hiragana`: as many segments as runs,
      the same flags, and each non-kanji run returned verbatim. */
  predicate SameShape(ks: seq<Segment>, r: seq<Segment>)
  {
    |ks| == |r| &&
    forall j :: 0 <= j < |r| ==>
      r[j].isKanji == ks[j].isKanji && (!ks[j].isKanji ==> r[j].text == ks[j].text)
  }

  /** The closing step: the kana left in front of the first placed run become
      the reading of a leading kanji run, if `lead` says so. */
  function Finish(hira: string, end: int, acc: seq<Segment>, lead: bool): (r: seq<Segment>)
  {
    if lead then [Segment(Slice(hira, 0, end), true)] + acc else acc
  }

  /** Whether the closing step adds a leading kanji segment, as intended:
      when the word starts with a kanji run, or when kana are left in front
      of the first placed run. */
  predicate LeadIntended(ks: seq<Segment>, end: int)
  {
    end > 0 || (|ks| > 0 && ks[0].isKanji)
  }

  /** `_split_hiragana` with the closing test as intended: the kana in front
      of the first placed run become the reading of a leading kanji run, and
      a word that starts with kana gets no leading segment when none are
      left. `None` is a failed assertion. */
  function SplitHiragana(ks: seq<Segment>, hira: string, kata: string): (r: Option<seq<Segment>>)
    ensures r.Some? ==> SameShape(ks, r.value)
    ensures r.Some? ==> |Concat(r.value)| == |hira|
    ensures r.Some? && |r.value| > 0 ==> KanjiNonEmpty(r.value[1..])
  {
    if |hira| != |kata| then None
    else
      match HiraganaLoop(ks, hira, kata, 0, |hira|, |hira|, [])
      case None => None
      case Some((end, acc)) =>
        var res := Finish(hira, end, acc, LeadIntended(ks, end));
        if SameShape(ks, res) then
          LoopTiles(ks, hira, kata, 0, |hira|, |hira|, [], 0, (end, acc), res, LeadIntended(ks, end));
          FinishKanji(hira, end, acc, LeadIntended(ks, end));
          TextLenConcat(res);
          Some(res)
        else None
  }

  /** `_split_hiragana` as written: the closing test `end >= 0` always holds,
      so a leading kanji segment is emitted even when it is empty, and the
      shape test then rejects every word that starts with kana. What it
      returns still covers the whole reading. */
  function SplitHiraganaAsWritten(ks: seq<Segment>, hira: string, kata: string): (r: Option<seq<Segment>>)
    ensures r.Some? ==> SameShape(ks, r.value)
    ensures r.Some? ==> |Concat(r.value)| == |hira|
    ensures |ks| > 0 && !ks[0].isKanji ==> r.None?
  {
    if |hira| != |kata| then None
    else
      match HiraganaLoop(ks, hira, kata, 0, |hira|, |hira|, [])
      case None => None
      case Some((end, acc)) =>
        LoopEndsWith(ks, hira, kata, 0, |hira|, |hira|, []);
        var res := Finish(hira, end, acc, end >= 0);
        if SameShape(ks, res) then
          LoopTiles(ks, hira, kata, 0, |hira|, |hira|, [], 0, (end, acc), res, end >= 0);
          TextLenConcat(res);
          Some(res)
        else None
  }

  /** Every segment of the intended split is read where it sits: segment
      `j` starts right after the text of the segments before it, a kanji
      segment is the hiragana (or katakana) there, and a non-kanji run is
      found there. */
  lemma SplitHiraganaReads(ks: seq<Segment>, hira: string, kata: string, j: nat)
    requires SplitHiragana(ks, hira, kata).Some? && j < |SplitHiragana(ks, hira, kata).value|
    ensures var r := SplitHiragana(ks, hira, kata).value;
      SegmentAt(r[j], hira, kata, |Concat(r[..j])|)
  {
    var Some((end, acc)) := HiraganaLoop(ks, hira, kata, 0, |hira|, |hira|, []);
    var res := Finish(hira, end, acc, LeadIntended(ks, end));
    LoopTiling(ks, hira, kata, 0, |hira|, |hira|, [], 0, (end, acc), res, LeadIntended(ks, end));
    TiledAt(res, hira, kata, j);
  }

  /** The same for the split as written: what it returns is read where it
      sits. */
  lemma SplitHiraganaAsWrittenReads(ks: seq<Segment>, hira: string, kata: string, j: nat)
    requires SplitHiraganaAsWritten(ks, hira, kata).Some? && j < |SplitHiraganaAsWritten(ks, hira, kata).value|
    ensures var r := SplitHiraganaAsWritten(ks, hira, kata).value;
      SegmentAt(r[j], hira, kata, |Concat(r[..j])|)
  {
    var Some((end, acc)) := HiraganaLoop(ks, hira, kata, 0, |hira|, |hira|, []);
    var res := Finish(hira, end, acc, end >= 0);
    LoopTiling(ks, hira, kata, 0, |hira|, |hira|, [], 0, (end, acc), res, end >= 0);
    TiledAt(res, hira, kata, j);
  }

  /** Segment `j` of a tiling from the start sits right after the text of
      the segments before it. */
  lemma TiledAt(r: seq<Segment>, hira: string, kata: string, j: nat)
    requires Tiled(r, hira, kata, 0) && j < |r|
    ensures SegmentAt(r[j], hira, kata, |Concat(r[..j])|)
  {
    TextLenConcat(r[..j]);
    assert Offset(r, j) == |Concat(r[..j])|;
  }

  /** The two closing tests differ only on words that start with kana: on a
      word that starts with a kanji run the code as written is the intended
      split, and on any other word it fails. */
  lemma SplitHiraganaAsWrittenAgrees(ks: seq<Segment>, hira: string, kata: string)
    requires |ks| > 0
    ensures SplitHiraganaAsWritten(ks, hira, kata) == if ks[0].isKanji then SplitHiragana(ks, hira, kata) else None
  {
    if |hira| == |kata| && ks[0].isKanji {
      match HiraganaLoop(ks, hira, kata, 0, |hira|, |hira|, [])
      case None =>
      case Some((end, acc)) =>
        LoopEndsWith(ks, hira, kata, 0, |hira|, |hira|, []);
        assert LeadIntended(ks, end) == (end >= 0);
    }
  }

  /** For お茶, read おちゃ, the kana run お is placed at the front and the rest
      is the reading of 茶; the source as written rejects the word. */
  lemma SplitHiraganaDiscrepancy()
    ensures SplitHiragana([Segment("お", false), Segment("茶", true)], "おちゃ", "オチャ")
         == Some([Segment("お", false), Segment("ちゃ", true)])
    ensures SplitHiraganaAsWritten([Segment("お", false), Segment("茶", true)], "おちゃ", "オチャ").None?
  {
    var ks := [Segment("お", false), Segment("茶", true)];
    var h := "おちゃ";
    assert RFind(h, "お", 2) == 0 by {
      assert h[1..2] == "ち" != "お";
      assert h[0..1] == "お";
      assert RFindAt(h, "お", 1) == RFindAt(h, "お", 0) == 0;
    }
    assert Slice(h, 1, 3) == h[1..3] == "ちゃ";
    var parts := [Segment("お", false), Segment("ちゃ", true)];
    assert Place(ks[0], h, "オチャ", 3, 2) == Some((0, parts));
    assert HiraganaLoop(ks, h, "オチャ", 0, 3, 3, []) == HiraganaLoop(ks, h, "オチャ", 1, 3, 2, []);
    assert HiraganaLoop(ks, h, "オチャ", 1, 3, 2, []) == HiraganaLoop(ks, h, "オチャ", 2, 0, 0, parts + []);
    assert parts + [] == parts;
  }

  /** For 日か月, read かつき, the kana run か is placed at the front, so 日
      gets an empty reading and 月 gets つき; both closing tests accept the
      word. */
  lemma SplitHiraganaLeadingEmpty()
    ensures var ks := [Segment("日", true), Segment("か", false), Segment("月", true)];
      var res := Some([Segment("", true), Segment("か", false), Segment("つき", true)]);
      SplitHiragana(ks, "かつき", "カツキ") == res && SplitHiraganaAsWritten(ks, "かつき", "カツキ") == res
  {
    var ks := [Segment("日", true), Segment("か", false), Segment("月", true)];
    var h := "かつき";
    var k := "カツキ";
    assert RFind(h, "か", 2) == 0 by {
      assert h[1..2] == "つ" != "か";
      assert h[0..1] == "か";
      assert RFindAt(h, "か", 1) == RFindAt(h, "か", 0) == 0;
    }
    assert Slice(h, 1, 3) == h[1..3] == "つき";
    assert Slice(h, 0, 0) == "";
    var parts := [Segment("か", false), Segment("つき", true)];
    assert Place(ks[1], h, k, 3, 2) == Some((0, parts));
    assert HiraganaLoop(ks, h, k, 0, 3, 3, []) == HiraganaLoop(ks, h, k, 1, 3, 2, []);
    assert HiraganaLoop(ks, h, k, 1, 3, 2, []) == HiraganaLoop(ks, h, k, 2, 0, 0, parts + []);
    assert HiraganaLoop(ks, h, k, 2, 0, 0, parts) == HiraganaLoop(ks, h, k, 3, 0, -1, parts);
    assert parts + [] == parts;
    assert HiraganaLoop(ks, h, k, 0, 3, 3, []) == Some((0, parts));
    var res := [Segment("", true)] + parts;
    assert LeadIntended(ks, 0);
    assert Finish(h, 0, parts, true) == res;
    assert SameShape(ks, res);
    assert SplitHiragana(ks, h, k) == Some(res);
    assert res == [Segment("", true), Segment("か", false), Segment("つき", true)];
    SplitHiraganaAsWrittenAgrees(ks, h, k);
  }

  /** The runs from `lo` up to `hi` are all kanji runs. */
  predicate KanjiRange(ks: seq<Segment>, lo: nat, hi: nat)
    requires hi <= |ks|
    decreases hi - lo
  {
    lo >= hi || (ks[lo].isKanji && KanjiRange(ks, lo + 1, hi))
  }

  lemma {:induction false} KanjiRangeAt(ks: seq<Segment>, lo: nat, hi: nat, j: nat)
    requires hi <= |ks| && KanjiRange(ks, lo, hi) && lo <= j < hi
    ensures ks[j].isKanji
    decreases hi - lo
  {
    if lo < j {
      KanjiRangeAt(ks, lo + 1, hi, j);
    }
  }

  /** How many segments one placed run adds is forced by the shape test: with
      `t` kanji runs walked since the last placed run, a result of the right
      shape has `t` at most one and one reading segment exactly when `t` is
      one. */
  lemma StepCount(ks: seq<Segment>, res: seq<Segment>, acc: seq<Segment>, parts: seq<Segment>,
                  i: nat, t: nat)
    requires SameShape(ks, res) && EndsWith(res, parts + acc)
    requires i < |ks| && t <= i && |acc| == i - t
    requires |ks| - i + t <= |ks| && KanjiRange(ks, |ks| - i, |ks| - i + t)
    requires 1 <= |parts| <= 2 && parts[0] == ks[|ks| - i - 1] && !parts[0].isKanji
    requires |parts| == 2 ==> parts[1].isKanji
    ensures (t == 0 && |parts| == 1) || (t == 1 && |parts| == 2)
  {
    EndsWithTrans(res, parts, acc);
    var k := |ks| - |acc| - 1;
    assert res[k] == parts[|parts| - 1];
    if t == 0 {
      assert !res[k].isKanji;
    } else {
      KanjiRangeAt(ks, |ks| - i, |ks| - i + t, k);
      if t >= 2 {
        KanjiRangeAt(ks, |ks| - i, |ks| - i + t, k - 1);
      }
      assert res[k - 1] == parts[0];
      assert !ks[k - 1].isKanji;
    }
  }

  /** The lengths add up: if the split that `HiraganaLoop` completes from
      state `i` (ending in state `out`) passes the shape test, its segments
      cover the whole reading. `t` is the number of kanji runs walked since
      the last placed run. */
  lemma {:induction false} LoopTiles(ks: seq<Segment>, hira: string, kata: string, i: nat,
                                     end: int, endfind: int, acc: seq<Segment>, t: nat,
                                     out: (int, seq<Segment>), res: seq<Segment>, lead: bool)
    requires |hira| == |kata| && i <= |ks| && 0 <= end <= |hira|
    requires endfind == end - t && t <= i && |acc| == i - t
    requires |ks| - i + t <= |ks| && KanjiRange(ks, |ks| - i, |ks| - i + t)
    requires TextLen(acc) == |hira| - end && KanjiNonEmpty(acc)
    requires HiraganaLoop(ks, hira, kata, i, end, endfind, acc) == Some(out)
    requires res == Finish(hira, out.0, out.1, lead) && (out.0 > 0 ==> lead)
    requires SameShape(ks, res)
    ensures TextLen(res) == |hira| && KanjiNonEmpty(out.1)
    decreases |ks| - i, 1
  {
    if i == |ks| {
      FinishTiles(hira, end, acc, res, lead);
    } else if ks[|ks| - i - 1].isKanji {
      KanjiStep(ks, hira, kata, i, end, endfind, acc);
      KanjiTiles(ks, hira, kata, i, end, endfind, acc, t, out, res, lead);
    } else {
      PlacedTiles(ks, hira, kata, i, end, endfind, acc, t, out, res, lead);
    }
  }

  /** A kanji segment in front of a run of kanji segments lengthens the run. */
  lemma KanjiRangeGrows(ks: seq<Segment>, lo: nat, t: nat)
    requires lo + 1 + t <= |ks| && ks[lo].isKanji && KanjiRange(ks, lo + 1, lo + 1 + t)
    ensures KanjiRange(ks, lo, lo + t + 1)
  {
  }

  /** The step of `LoopTiles` for a kanji run: one more kanji run walked. */
  lemma {:induction false} KanjiTiles(ks: seq<Segment>, hira: string, kata: string, i: nat,
                                      end: int, endfind: int, acc: seq<Segment>, t: nat,
                                      out: (int, seq<Segment>), res: seq<Segment>, lead: bool)
    requires |hira| == |kata| && i < |ks| && 0 <= end <= |hira| && ks[|ks| - i - 1].isKanji
    requires endfind == end - t && t <= i && |acc| == i - t
    requires |ks| - i + t <= |ks| && KanjiRange(ks, |ks| - i, |ks| - i + t)
    requires TextLen(acc) == |hira| - end && KanjiNonEmpty(acc)
    requires HiraganaLoop(ks, hira, kata, i + 1, end, endfind - 1, acc) == Some(out)
    requires res == Finish(hira, out.0, out.1, lead) && (out.0 > 0 ==> lead)
    requires SameShape(ks, res)
    ensures TextLen(res) == |hira| && KanjiNonEmpty(out.1)
    decreases |ks| - i, 0
  {
    KanjiRangeGrows(ks, |ks| - (i + 1), t);
    LoopTiles(ks, hira, kata, i + 1, end, endfind - 1, acc, t + 1, out, res, lead);
  }

  /** A kanji run is walked over: the loop carries on with one fewer kana
      for the next search to end at. */
  lemma KanjiStep(ks: seq<Segment>, hira: string, kata: string, i: nat,
                  end: int, endfind: int, acc: seq<Segment>)
    requires |hira| == |kata| && i < |ks| && 0 <= end <= |hira| && ks[|ks| - i - 1].isKanji
    ensures HiraganaLoop(ks, hira, kata, i, end, endfind, acc) == HiraganaLoop(ks, hira, kata, i + 1, end, endfind - 1, acc)
  {
  }

  /** The step of `LoopTiles` for a non-kanji run. */
  lemma {:induction false} PlacedTiles(ks: seq<Segment>, hira: string, kata: string, i: nat,
                                       end: int, endfind: int, acc: seq<Segment>, t: nat,
                                       out: (int, seq<Segment>), res: seq<Segment>, lead: bool)
    requires |hira| == |kata| && i < |ks| && 0 <= end <= |hira| && !ks[|ks| - i - 1].isKanji
    requires endfind == end - t && t <= i && |acc| == i - t
    requires |ks| - i + t <= |ks| && KanjiRange(ks, |ks| - i, |ks| - i + t)
    requires TextLen(acc) == |hira| - end && KanjiNonEmpty(acc)
    requires HiraganaLoop(ks, hira, kata, i, end, endfind, acc) == Some(out)
    requires res == Finish(hira, out.0, out.1, lead) && (out.0 > 0 ==> lead)
    requires SameShape(ks, res)
    ensures TextLen(res) == |hira| && KanjiNonEmpty(out.1)
    decreases |ks| - i, 0
  {
    var pos, parts := PlacedStep(ks, hira, kata, i, end, endfind, acc, out);
    PlacedSuffix(ks, hira, kata, i, pos, parts + acc, out, res, lead);
    PlacedFacts(ks, hira, i, end, endfind, acc, t, res, pos, parts);
    LoopTiles(ks, hira, kata, i + 1, pos, pos, parts + acc, 0, out, res, lead);
  }

  /** After a placed run the result still ends with everything gathered so
      far. */
  lemma PlacedSuffix(ks: seq<Segment>, hira: string, kata: string, i: nat,
                     pos: nat, acc: seq<Segment>, out: (int, seq<Segment>), res: seq<Segment>, lead: bool)
    requires |hira| == |kata| && i < |ks| && pos <= |hira|
    requires HiraganaLoop(ks, hira, kata, i + 1, pos, pos, acc) == Some(out)
    requires res == Finish(hira, out.0, out.1, lead)
    ensures EndsWith(res, acc)
  {
    LoopEndsWith(ks, hira, kata, i + 1, pos, pos, acc);
    FinishEndsWith(hira, out.0, out.1, acc, res, lead);
  }

  /** The bookkeeping of one placed run: the segments it adds keep the
      lengths and the non-empty kanji readings in step. */
  lemma PlacedFacts(ks: seq<Segment>, hira: string, i: nat, end: int, endfind: int,
                    acc: seq<Segment>, t: nat, res: seq<Segment>, pos: nat, parts: seq<Segment>)
    requires i < |ks| && 0 <= end <= |hira|
    requires endfind == end - t && t <= i && |acc| == i - t
    requires |ks| - i + t <= |ks| && KanjiRange(ks, |ks| - i, |ks| - i + t)
    requires TextLen(acc) == |hira| - end && KanjiNonEmpty(acc)
    requires SameShape(ks, res) && EndsWith(res, parts + acc)
    requires pos + |ks[|ks| - i - 1].text| <= Clamp(endfind, |hira|)
    requires 1 <= |parts| <= 2 && parts[0] == ks[|ks| - i - 1] && !parts[0].isKanji
    requires |parts| == 1 <==> end <= pos + |parts[0].text|
    requires |parts| == 2 ==> parts[1].isKanji && |parts[1].text| == end - pos - |parts[0].text| > 0
    ensures pos <= |hira| && |parts + acc| == i + 1
    ensures TextLen(parts + acc) == |hira| - pos && KanjiNonEmpty(parts + acc)
    ensures |parts| == 1 ==> pos + |parts[0].text| == end
  {
    StepCount(ks, res, acc, parts, i, t);
    PartsLength(parts, acc);
  }

  /** A placed non-kanji run, taken out of the loop: where it went, what it
      added, and that the loop carries on from there to the same end. */
  lemma PlacedStep(ks: seq<Segment>, hira: string, kata: string, i: nat,
                   end: int, endfind: int, acc: seq<Segment>, out: (int, seq<Segment>))
    returns (pos: nat, parts: seq<Segment>)
    requires |hira| == |kata| && i < |ks| && 0 <= end <= |hira| && !ks[|ks| - i - 1].isKanji
    requires HiraganaLoop(ks, hira, kata, i, end, endfind, acc) == Some(out)
    ensures Place(ks[|ks| - i - 1], hira, kata, end, endfind) == Some((pos, parts))
    ensures pos + |ks[|ks| - i - 1].text| <= Clamp(endfind, |hira|)
    ensures 1 <= |parts| <= 2 && parts[0] == ks[|ks| - i - 1]
    ensures |parts| == 1 <==> end <= pos + |parts[0].text|
    ensures |parts| == 2 ==> parts[1].isKanji && |parts[1].text| == end - pos - |parts[0].text| > 0
    ensures HiraganaLoop(ks, hira, kata, i + 1, pos, pos, parts + acc) == Some(out)
  {
    var e := ks[|ks| - i - 1];
    assert HiraganaLoop(ks, hira, kata, i, end, endfind, acc) == PlaceLoop(ks, hira, kata, i, end, endfind, acc);
    var placed := Place(e, hira, kata, end, endfind);
    assert placed.Some?;
    pos, parts := placed.value.0, placed.value.1;
  }

  /** The closing step of `LoopTiles`: a leading segment, when there is
      one, holds the kana in front of the first placed run; without one
      there are none. */
  lemma FinishTiles(hira: string, end: int, acc: seq<Segment>, res: seq<Segment>, lead: bool)
    requires 0 <= end <= |hira| && TextLen(acc) == |hira| - end
    requires res == Finish(hira, end, acc, lead) && (end > 0 ==> lead)
    ensures TextLen(res) == |hira|
  {
    if lead {
      var first := Segment(Slice(hira, 0, end), true);
      assert ([first] + acc)[1..] == acc;
    }
  }

  /** The segments are where they were found: if the split that
      `HiraganaLoop` completes from state `i` passes the shape test, it
      tiles the reading. The requirements are those of `LoopTiles`. */
  lemma {:induction false} LoopTiling(ks: seq<Segment>, hira: string, kata: string, i: nat,
                                      end: int, endfind: int, acc: seq<Segment>, t: nat,
                                      out: (int, seq<Segment>), res: seq<Segment>, lead: bool)
    requires |hira| == |kata| && i <= |ks| && 0 <= end <= |hira|
    requires endfind == end - t && t <= i && |acc| == i - t
    requires |ks| - i + t <= |ks| && KanjiRange(ks, |ks| - i, |ks| - i + t)
    requires TextLen(acc) == |hira| - end && KanjiNonEmpty(acc)
    requires HiraganaLoop(ks, hira, kata, i, end, endfind, acc) == Some(out)
    requires res == Finish(hira, out.0, out.1, lead) && (out.0 > 0 ==> lead)
    requires SameShape(ks, res) && Tiled(acc, hira, kata, end)
    ensures Tiled(res, hira, kata, 0)
    decreases |ks| - i, 1
  {
    if i == |ks| {
      FinishTiled(hira, kata, end, acc, res, lead);
    } else if ks[|ks| - i - 1].isKanji {
      KanjiStep(ks, hira, kata, i, end, endfind, acc);
      KanjiTiling(ks, hira, kata, i, end, endfind, acc, t, out, res, lead);
    } else {
      PlacedTiling(ks, hira, kata, i, end, endfind, acc, t, out, res, lead);
    }
  }

  /** The step of `LoopTiling` for a kanji run. */
  lemma {:induction false} KanjiTiling(ks: seq<Segment>, hira: string, kata: string, i: nat,
                                       end: int, endfind: int, acc: seq<Segment>, t: nat,
                                       out: (int, seq<Segment>), res: seq<Segment>, lead: bool)
    requires |hira| == |kata| && i < |ks| && 0 <= end <= |hira| && ks[|ks| - i - 1].isKanji
    requires endfind == end - t && t <= i && |acc| == i - t
    requires |ks| - i + t <= |ks| && KanjiRange(ks, |ks| - i, |ks| - i + t)
    requires TextLen(acc) == |hira| - end && KanjiNonEmpty(acc)
    requires HiraganaLoop(ks, hira, kata, i + 1, end, endfind - 1, acc) == Some(out)
    requires res == Finish(hira, out.0, out.1, lead) && (out.0 > 0 ==> lead)
    requires SameShape(ks, res) && Tiled(acc, hira, kata, end)
    ensures Tiled(res, hira, kata, 0)
    decreases |ks| - i, 0
  {
    KanjiRangeGrows(ks, |ks| - (i + 1), t);
    LoopTiling(ks, hira, kata, i + 1, end, endfind - 1, acc, t + 1, out, res, lead);
  }

  /** The step of `LoopTiling` for a non-kanji run. */
  lemma {:induction false} PlacedTiling(ks: seq<Segment>, hira: string, kata: string, i: nat,
                                        end: int, endfind: int, acc: seq<Segment>, t: nat,
                                        out: (int, seq<Segment>), res: seq<Segment>, lead: bool)
    requires |hira| == |kata| && i < |ks| && 0 <= end <= |hira| && !ks[|ks| - i - 1].isKanji
    requires endfind == end - t && t <= i && |acc| == i - t
    requires |ks| - i + t <= |ks| && KanjiRange(ks, |ks| - i, |ks| - i + t)
    requires TextLen(acc) == |hira| - end && KanjiNonEmpty(acc)
    requires HiraganaLoop(ks, hira, kata, i, end, endfind, acc) == Some(out)
    requires res == Finish(hira, out.0, out.1, lead) && (out.0 > 0 ==> lead)
    requires SameShape(ks, res) && Tiled(acc, hira, kata, end)
    ensures Tiled(res, hira, kata, 0)
    decreases |ks| - i, 0
  {
    var pos, parts := PlacedStep(ks, hira, kata, i, end, endfind, acc, out);
    PlacedSuffix(ks, hira, kata, i, pos, parts + acc, out, res, lead);
    PlacedFacts(ks, hira, i, end, endfind, acc, t, res, pos, parts);
    PlacedTiled(ks[|ks| - i - 1], hira, kata, end, endfind, pos, parts, acc);
    LoopTiling(ks, hira, kata, i + 1, pos, pos, parts + acc, 0, out, res, lead);
  }

  /** The closing step keeps the tiling: the leading segment is the
      hiragana in front of the first placed run. */
  lemma FinishTiled(hira: string, kata: string, end: int, acc: seq<Segment>, res: seq<Segment>, lead: bool)
    requires 0 <= end <= |hira| == |kata| && Tiled(acc, hira, kata, end)
    requires res == Finish(hira, end, acc, lead) && (end > 0 ==> lead)
    ensures Tiled(res, hira, kata, 0)
  {
    if lead {
      var first := Segment(Slice(hira, 0, end), true);
      assert first.text == hira[0..end];
      TiledPrepend(first, acc, hira, kata, 0, end);
    }
  }

  /** One placed run keeps the tiling: the run and the reading behind it
      sit right in front of what was placed before. */
  lemma PlacedTiled(e: Segment, hira: string, kata: string, end: nat, endfind: int,
                     pos: nat, parts: seq<Segment>, acc: seq<Segment>)
    requires |hira| == |kata| && end <= |hira| && !e.isKanji
    requires Place(e, hira, kata, end, endfind) == Some((pos, parts))
    requires 1 <= |parts| <= 2 && parts[0] == e && Tiled(acc, hira, kata, end)
    requires |parts| == 1 ==> pos + |parts[0].text| == end
    requires |parts| == 2 ==> |parts[1].text| == end - pos - |parts[0].text|
    ensures Tiled(parts + acc, hira, kata, pos)
  {
    PlaceReads(e, hira, kata, end, endfind, pos, parts);
    PartsTiled(e, hira, kata, pos, end, parts, acc);
  }

  /** The list work of `PlacedTiled`: one or two segments in place in front
      of a tiling. */
  lemma PartsTiled(e: Segment, hira: string, kata: string, pos: nat, end: nat, parts: seq<Segment>, acc: seq<Segment>)
    requires 1 <= |parts| <= 2 && parts[0] == e && Tiled(acc, hira, kata, end)
    requires SegmentAt(e, hira, kata, pos)
    requires |parts| == 2 ==> SegmentAt(parts[1], hira, kata, pos + |e.text|)
    requires |parts| == 1 ==> pos + |parts[0].text| == end
    requires |parts| == 2 ==> |parts[1].text| == end - pos - |parts[0].text|
    ensures Tiled(parts + acc, hira, kata, pos)
  {
    var mid := pos + |e.text|;
    if |parts| == 2 {
      TiledPrepend(parts[1], acc, hira, kata, mid, end);
      TiledPrepend(e, [parts[1]] + acc, hira, kata, pos, mid);
      assert parts + acc == [e] + ([parts[1]] + acc);
    } else {
      TiledPrepend(e, acc, hira, kata, pos, end);
      assert parts + acc == [e] + acc;
    }
  }

  lemma FinishEndsWith(hira: string, end: int, facc: seq<Segment>, a: seq<Segment>, res: seq<Segment>, lead: bool)
    requires EndsWith(facc, a)
    requires res == Finish(hira, end, facc, lead)
    ensures EndsWith(res, a)
  {
    if lead {
      assert res == [res[0]] + facc;
      assert res[|res| - |a|..] == res[|res| - |facc|..][|facc| - |a|..];
    }
  }

  /** Behind the leading segment every kanji reading is non-empty. */
  lemma FinishKanji(hira: string, end: int, acc: seq<Segment>, lead: bool)
    requires KanjiNonEmpty(acc)
    ensures var res := Finish(hira, end, acc, lead); |res| > 0 ==> KanjiNonEmpty(res[1..])
  {
    var res := Finish(hira, end, acc, lead);
    if lead {
      assert res[1..] == acc;
    } else if |res| > 0 {
      assert forall j :: 0 <= j < |res| - 1 ==> res[1..][j] == acc[j + 1];
    }
  }

  lemma PartsLength(parts: seq<Segment>, acc: seq<Segment>)
    requires 1 <= |parts| <= 2
    ensures TextLen(parts + acc) == |parts[0].text| + (if |parts| == 2 then |parts[1].text| else 0) + TextLen(acc)
    ensures KanjiNonEmpty(parts) && KanjiNonEmpty(acc) ==> KanjiNonEmpty(parts + acc)
  {
    var r := parts + acc;
    if |parts| == 2 {
      assert r[1..] == [parts[1]] + acc && r[1..][1..] == acc;
    } else {
      assert r[1..] == acc;
    }
  }

  // ---------------------------------------------------------------------------
  // _split_katakana

  /** Sum of the segment lengths. */
  lemma ConcatLength(r: seq<Segment>)
    ensures |Concat(r)| == 0 <==> forall j :: 0 <= j < |r| ==> |r[j].text| == 0
  {
    if |r| > 0 {
      ConcatLength(r[1..]);
      assert forall j :: 1 <= j < |r| ==> r[j] == r[1..][j - 1];
    }
  }

  /** `_split_katakana` with the intended slices: each segment takes the next
      `len(t)` characters of `kata`. `None` is the failed length assertion. */
  function SplitKatakana(hs: seq<Segment>, kata: string): (r: Option<seq<Segment>>)
    ensures r.Some? <==> |Concat(hs)| == |kata|
    ensures r.Some? ==> |r.value| == |hs| && Concat(r.value) == kata
    ensures r.Some? ==> forall j :: 0 <= j < |hs| ==>
      r.value[j].isKanji == hs[j].isKanji && |r.value[j].text| == |hs[j].text|
  {
    if |Concat(hs)| != |kata| then None else Some(CutLike(hs, kata))
  }

  /** Cuts `kata` into pieces as long as the segments of `hs`. */
  function CutLike(hs: seq<Segment>, kata: string): (r: seq<Segment>)
    requires |Concat(hs)| == |kata|
    ensures |r| == |hs| && Concat(r) == kata
    ensures forall j :: 0 <= j < |hs| ==>
      r[j].isKanji == hs[j].isKanji && |r[j].text| == |hs[j].text|
  {
    if |hs| == 0 then []
    else
      var n := |hs[0].text|;
      var tail := CutLike(hs[1..], kata[n..]);
      var r := [Segment(kata[..n], hs[0].isKanji)] + tail;
      assert r[1..] == tail;
      r
  }

  /** Where the code as written starts the slice for segment `j`: at the
      length of the segment before it, where the offset of segment `j` was
      meant. */
  function StartAsWritten(hs: seq<Segment>, j: nat): nat
    requires j < |hs|
  {
    if j == 0 then 0 else |hs[j - 1].text|
  }

  /** `_split_katakana` as written: `katakana[start:len(t)]` with `start` the
      previous segment's length, that is, absolute bounds where offsets were
      meant. The length check and the flags are as intended. */
  function SplitKatakanaAsWritten(hs: seq<Segment>, kata: string): (r: Option<seq<Segment>>)
    ensures r.Some? <==> |Concat(hs)| == |kata|
    ensures r.Some? ==> |r.value| == |hs|
    ensures r.Some? ==> forall j :: 0 <= j < |hs| ==>
      r.value[j].isKanji == hs[j].isKanji && r.value[j].text == Slice(kata, StartAsWritten(hs, j), |hs[j].text|)
  {
    if |Concat(hs)| != |kata| then None else Some(CutAsWritten(hs, kata, 0))
  }

  /** The slices of the code as written, the first one starting at `start`. */
  function CutAsWritten(hs: seq<Segment>, kata: string, start: nat): (r: seq<Segment>)
    ensures |r| == |hs|
    ensures forall j :: 0 <= j < |hs| ==> r[j].isKanji == hs[j].isKanji
    ensures forall j :: 0 <= j < |hs| ==>
      r[j].text == Slice(kata, if j == 0 then start else |hs[j - 1].text|, |hs[j].text|)
  {
    if |hs| == 0 then []
    else
      var tail := CutAsWritten(hs[1..], kata, |hs[0].text|);
      var r := [Segment(Slice(kata, start, |hs[0].text|), hs[0].isKanji)] + tail;
      assert forall j :: 1 <= j < |hs| ==> r[j] == tail[j - 1] && hs[1..][j - 1] == hs[j];
      r
  }

  /** A single segment gets the whole katakana either way; the slices part
      ways from the second segment on. */
  lemma SplitKatakanaSingle(h: Segment, kata: string)
    requires |h.text| == |kata|
    ensures SplitKatakanaAsWritten([h], kata) == SplitKatakana([h], kata) == Some([Segment(kata, h.isKanji)])
  {
    assert Concat([h]) == h.text + Concat([]);
    assert [h][1..] == [];
    assert Slice(kata, 0, |h.text|) == kata[0..|kata|] == kata;
    assert CutAsWritten([h], kata, 0) == [Segment(kata, h.isKanji)];
    assert CutLike([h], kata) == [Segment(kata[..|kata|], h.isKanji)] + CutLike([], kata[|kata|..]);
    assert kata[..|kata|] == kata;
  }

  /** For "お弁当" (hiragana split お / べんとう) the source hands the kanji run
      the katakana ベント instead of ベントウ; the intended split keeps all of
      it. */
  lemma SplitKatakanaDiscrepancy()
    ensures SplitKatakanaAsWritten([Segment("お", false), Segment("べんとう", true)], "オベントウ")
         == Some([Segment("オ", false), Segment("ベント", true)])
    ensures SplitKatakana([Segment("お", false), Segment("べんとう", true)], "オベントウ")
         == Some([Segment("オ", false), Segment("ベントウ", true)])
  {
    var hs := [Segment("お", false), Segment("べんとう", true)];
    assert Concat(hs) == "おべんとう" by {
      assert Concat(hs[1..]) == "べんとう" + Concat([]);
    }
    var k := "オベントウ";
    assert hs[1..] == [Segment("べんとう", true)] && hs[1..][1..] == [];
    assert CutAsWritten(hs, k, 0) == [Segment("オ", false), Segment("ベント", true)] by {
      assert Slice(k, 0, 1) == k[0..1] == "オ";
      assert Slice(k, 1, 4) == k[1..4] == "ベント";
      assert CutAsWritten(hs[1..], k, 1) == [Segment("ベント", true)] + CutAsWritten([], k, 4);
    }
    assert CutLike(hs, k) == [Segment("オ", false), Segment("ベントウ", true)] by {
      assert k[..1] == "オ" && k[1..] == "ベントウ";
      var k1 := k[1..];
      assert Concat(hs[1..]) == "べんとう" + Concat([]);
      assert k1[..4] == "ベントウ" && k1[4..] == [];
      assert CutLike(hs[1..], k1) == [Segment("ベントウ", true)] + CutLike([], []);
    }
  }

  /** 取り扱い read とりあつかい, a word that starts with kanji and so passes
      the hiragana split as written: と / り / あつか / い. The katakana split
      as written then gives 扱 the slice リア; the offset slice gives アツカ. */
  lemma SplitKatakanaReachable()
    ensures var ks := [Segment("取", true), Segment("り", false), Segment("扱", true), Segment("い", false)];
      var hs := [Segment("と", true), Segment("り", false), Segment("あつか", true), Segment("い", false)];
      SplitHiraganaAsWritten(ks, "とりあつかい", "トリアツカイ") == Some(hs) &&
      SplitKatakanaAsWritten(hs, "トリアツカイ") == Some([Segment("ト", true), Segment("", false), Segment("リア", true), Segment("", false)]) &&
      SplitKatakana(hs, "トリアツカイ") == Some([Segment("ト", true), Segment("リ", false), Segment("アツカ", true), Segment("イ", false)])
  {
    var ks := [Segment("取", true), Segment("り", false), Segment("扱", true), Segment("い", false)];
    var hs := [Segment("と", true), Segment("り", false), Segment("あつか", true), Segment("い", false)];
    SplitHiraganaTori(ks, hs);
    KatakanaToriAsWritten(hs);
    KatakanaToriOffset(hs);
  }

  /** The hiragana segments of 取り扱い add up to the word's hiragana. */
  lemma ConcatTori(hs: seq<Segment>)
    requires hs == [Segment("と", true), Segment("り", false), Segment("あつか", true), Segment("い", false)]
    ensures Concat(hs) == "とりあつかい"
  {
    assert Concat(hs[3..]) == "い" + Concat([]);
    assert Concat(hs[2..]) == "あつか" + Concat(hs[3..]);
    assert Concat(hs[1..]) == "り" + Concat(hs[2..]);
  }

  /** The katakana split of 取り扱い as written. */
  lemma KatakanaToriAsWritten(hs: seq<Segment>)
    requires hs == [Segment("と", true), Segment("り", false), Segment("あつか", true), Segment("い", false)]
    ensures SplitKatakanaAsWritten(hs, "トリアツカイ") == Some([Segment("ト", true), Segment("", false), Segment("リア", true), Segment("", false)])
  {
    ConcatTori(hs);
    var k := "トリアツカイ";
    var w := SplitKatakanaAsWritten(hs, k).value;
    assert StartAsWritten(hs, 1) == 1 && StartAsWritten(hs, 2) == 1 && StartAsWritten(hs, 3) == 3;
    assert Slice(k, 0, 1) == k[0..1] == "ト";
    assert Slice(k, 1, 1) == "" && Slice(k, 3, 1) == "";
    assert Slice(k, 1, 3) == k[1..3] == "リア";
    assert w == [Segment("ト", true), Segment("", false), Segment("リア", true), Segment("", false)];
  }

  /** The katakana split of 取り扱い with offset slices. */
  lemma KatakanaToriOffset(hs: seq<Segment>)
    requires hs == [Segment("と", true), Segment("り", false), Segment("あつか", true), Segment("い", false)]
    ensures SplitKatakana(hs, "トリアツカイ") == Some([Segment("ト", true), Segment("リ", false), Segment("アツカ", true), Segment("イ", false)])
  {
    ConcatTori(hs);
    var k := "トリアツカイ";
    var k1 := k[1..];
    var k2 := k1[1..];
    var k3 := k2[3..];
    assert k[..1] == "ト" && k1[..1] == "リ" && k2[..3] == "アツカ" && k3[..1] == "イ" && k3[1..] == [];
    assert hs[1..][1..][1..][1..] == [];
    assert CutLike(hs[1..][1..][1..], k3) == [Segment("イ", false)] + CutLike([], []);
    assert CutLike(hs[1..][1..], k2) == [Segment("アツカ", true)] + [Segment("イ", false)];
    assert CutLike(hs[1..], k1) == [Segment("リ", false), Segment("アツカ", true), Segment("イ", false)];
    assert CutLike(hs, k) == [Segment("ト", true)] + CutLike(hs[1..], k1);
    assert |Concat(hs)| == |k|;
    assert SplitKatakana(hs, k) == Some(CutLike(hs, k));
    assert CutLike(hs, k) == [Segment("ト", true), Segment("リ", false), Segment("アツカ", true), Segment("イ", false)];
  }

  /** The hiragana split of 取り扱い, both as written and as intended. */
  lemma SplitHiraganaTori(ks: seq<Segment>, hs: seq<Segment>)
    requires ks == [Segment("取", true), Segment("り", false), Segment("扱", true), Segment("い", false)]
    requires hs == [Segment("と", true), Segment("り", false), Segment("あつか", true), Segment("い", false)]
    ensures SplitHiragana(ks, "とりあつかい", "トリアツカイ") == Some(hs)
    ensures SplitHiraganaAsWritten(ks, "とりあつかい", "トリアツカイ") == Some(hs)
  {
    var h := "とりあつかい";
    var k := "トリアツカイ";
    assert RFind(h, "い", 6) == 5 by {
      assert h[5..6] == "い";
    }
    assert RFind(h, "り", 4) == 1 by {
      assert h[1] == 'り' && h[2] == 'あ' && h[3] == 'つ';
      assert h[3..4] == [h[3]] && h[2..3] == [h[2]] && h[1..2] == [h[1]];
      assert h[3..4] != "り" && h[2..3] != "り" && h[1..2] == "り";
      assert RFindAt(h, "り", 3) == RFindAt(h, "り", 2) == RFindAt(h, "り", 1) == 1;
    }
    assert Slice(h, 2, 5) == h[2..5] == "あつか";
    assert Slice(h, 0, 1) == h[0..1] == "と";
    var p1 := [Segment("い", false)];
    var p2 := [Segment("り", false), Segment("あつか", true)];
    assert Place(ks[3], h, k, 6, 6) == Some((5, p1));
    assert Place(ks[1], h, k, 5, 4) == Some((1, p2));
    assert HiraganaLoop(ks, h, k, 0, 6, 6, []) == HiraganaLoop(ks, h, k, 1, 5, 5, p1 + []);
    assert HiraganaLoop(ks, h, k, 1, 5, 5, p1) == HiraganaLoop(ks, h, k, 2, 5, 4, p1);
    assert HiraganaLoop(ks, h, k, 2, 5, 4, p1) == HiraganaLoop(ks, h, k, 3, 1, 1, p2 + p1);
    assert HiraganaLoop(ks, h, k, 3, 1, 1, p2 + p1) == HiraganaLoop(ks, h, k, 4, 1, 0, p2 + p1);
    assert p1 + [] == p1;
    assert HiraganaLoop(ks, h, k, 0, 6, 6, []) == Some((1, p2 + p1));
    assert LeadIntended(ks, 1);
    assert Finish(h, 1, p2 + p1, true) == hs;
    assert SameShape(ks, hs);
    assert SplitHiragana(ks, h, k) == Some(hs);
    SplitHiraganaAsWrittenAgrees(ks, h, k);
  }

  // ---------------------------------------------------------------------------
  // _fix_longvowels

  /** `_fix_longvowels`: for every `ー` of the original (the whole scan stops
      when the first one is in first position), the katakana written as a vowel doubled after the glyph
      in front of it gets the `ー` back. */
  function FixLongVowels(orig: string, kata: string): (r: string)
    ensures |r| == |kata|
    ensures forall i :: 0 <= i < |kata| ==> r[i] == kata[i] || (kata[i] in Vowels && r[i] == LongVowelMark)
    ensures !Contains(orig, [LongVowelMark]) ==> r == kata
    ensures |orig| > 0 && orig[0] == LongVowelMark ==> r == kata
  {
    assert |orig| > 0 ==> orig[0..1] == [orig[0]];
    FixFrom(orig, kata, Find(orig, [LongVowelMark], 0))
  }

  /** The loop of `_fix_longvowels`, from a found `ー` at `pos` (or -1). */
  function FixFrom(orig: string, kata: string, pos: int): (r: string)
    requires pos == -1 || MatchAt(orig, [LongVowelMark], pos)
    ensures |r| == |kata|
    ensures forall i :: 0 <= i < |kata| ==> r[i] == kata[i] || (kata[i] in Vowels && r[i] == LongVowelMark)
    ensures pos <= 0 ==> r == kata
    decreases if pos <= 0 then 0 else |orig| + 1 - pos
  {
    if pos <= 0 then kata
    else
      var v := orig[pos - 1];
      var k := if v in KatakanaVowels then Replace(kata, [v, KatakanaVowels[v]], [v, LongVowelMark]) else kata;
      assert |k| == |kata| && forall i :: 0 <= i < |kata| ==> k[i] == kata[i] || (kata[i] in Vowels && k[i] == LongVowelMark) by {
        if v in KatakanaVowels {
          var pat: string := [v, KatakanaVowels[v]];
          ReplaceSameLength(kata, pat, [v, LongVowelMark]);
          KatakanaVowelsValues();
          forall i | 0 <= i < |kata| ensures k[i] == kata[i] || (kata[i] in Vowels && k[i] == LongVowelMark) {
            if k[i] != kata[i] {
              var j :| 0 <= j < 2 && kata[i] == pat[j] && k[i] == [v, LongVowelMark][j];
              assert j == 1;
            }
          }
        }
      }
      FixFrom(orig, k, Find(orig, [LongVowelMark], pos + 1))
  }

  /** The pair `_fix_longvowels` restores for the `ー` at `p`: the glyph in
      front of it followed by that glyph's vowel. */
  function RestoredPair(orig: string, p: nat): string
    requires 0 < p < |orig| && orig[p - 1] in KatakanaVowels
  {
    [orig[p - 1], KatakanaVowels[orig[p - 1]]]
  }

  /** A `ー` the loop reaches: every `ー` after a glyph of the vowel table,
      unless the first `ー` of the original is its first character. */
  predicate Restorable(orig: string, p: nat)
  {
    0 < p < |orig| && orig[p] == LongVowelMark && orig[p - 1] in KatakanaVowels && orig[0] != LongVowelMark
  }

  /** After `_fix_longvowels` no pair it restores is left: every glyph
      written with its vowel doubled behind a `ー` of the original now has
      the `ー`. */
  lemma FixLongVowelsRestores(orig: string, kata: string, p: nat)
    requires Restorable(orig, p)
    ensures !Contains(FixLongVowels(orig, kata), RestoredPair(orig, p))
  {
    var first := Find(orig, [LongVowelMark], 0);
    FirstMark(orig, p);
    FixLongVowelsFrom(orig, kata);
    FixFromRestores(orig, kata, first, p);
  }

  /** The search in `_fix_longvowels` starts from the first `ー`, which lies
      past the first character and no later than any restorable one. */
  lemma FirstMark(orig: string, p: nat)
    requires 0 < p < |orig| && orig[p] == LongVowelMark && orig[0] != LongVowelMark
    ensures var first := Find(orig, [LongVowelMark], 0);
      0 < first <= p && MatchAt(orig, [LongVowelMark], first)
  {
    FindFirst(orig, [LongVowelMark], 0);
    assert orig[p..p + 1] == [LongVowelMark];
    assert MatchAt(orig, [LongVowelMark], p);
    assert orig[0..1] == [orig[0]];
    assert !MatchAt(orig, [LongVowelMark], 0);
  }

  /** `_fix_longvowels` is its loop run from the first `ー`. */
  lemma FixLongVowelsFrom(orig: string, kata: string)
    ensures FixLongVowels(orig, kata) == FixFrom(orig, kata, Find(orig, [LongVowelMark], 0))
  {
  }

  /** One round of the `_fix_longvowels` loop. */
  lemma FixFromStep(orig: string, kata: string, pos: int, k: string, next: int)
    requires pos > 0 && MatchAt(orig, [LongVowelMark], pos)
    requires next == Find(orig, [LongVowelMark], pos + 1)
    requires k == if orig[pos - 1] in KatakanaVowels
      then Replace(kata, [orig[pos - 1], KatakanaVowels[orig[pos - 1]]], [orig[pos - 1], LongVowelMark]) else kata
    ensures next == -1 || MatchAt(orig, [LongVowelMark], next)
    ensures FixFrom(orig, kata, pos) == FixFrom(orig, k, next)
  {
  }

  /** The loop from a found `ー` at `pos` removes the restored pair of every
      `ー` from `pos` on. */
  lemma {:induction false} FixFromRestores(orig: string, kata: string, pos: int, p: nat)
    requires pos > 0 && MatchAt(orig, [LongVowelMark], pos)
    requires pos <= p < |orig| && orig[p] == LongVowelMark && orig[p - 1] in KatakanaVowels
    ensures !Contains(FixFrom(orig, kata, pos), RestoredPair(orig, p))
    decreases |orig| + 1 - pos
  {
    var v := orig[pos - 1];
    var next := Find(orig, [LongVowelMark], pos + 1);
    var k := if v in KatakanaVowels then Replace(kata, [v, KatakanaVowels[v]], [v, LongVowelMark]) else kata;
    FixFromStep(orig, kata, pos, k, next);
    if p == pos {
      RestoreHere(orig, kata, p, k);
      FixFromKeepsAbsent(orig, k, next, orig[p - 1], KatakanaVowels[orig[p - 1]]);
    } else {
      NextMark(orig, pos, p);
      FixFromRestores(orig, k, next, p);
    }
  }

  /** The round for the `ー` at `p` removes its pair. */
  lemma RestoreHere(orig: string, kata: string, p: nat, k: string)
    requires 0 < p < |orig| && orig[p - 1] in KatakanaVowels
    requires k == Replace(kata, [orig[p - 1], KatakanaVowels[orig[p - 1]]], [orig[p - 1], LongVowelMark])
    ensures KatakanaVowels[orig[p - 1]] != LongVowelMark && orig[p - 1] != LongVowelMark
    ensures !Contains(k, RestoredPair(orig, p))
  {
    var c := orig[p - 1];
    MarkNotInTable();
    KatakanaVowelsValues();
    assert KatakanaVowels[c] in Vowels;
    ReplaceRemovesPair(kata, c, KatakanaVowels[c], LongVowelMark);
  }

  /** A later `ー` at `p` means the next search from `pos + 1` finds one, no
      later than `p`. */
  lemma NextMark(orig: string, pos: nat, p: nat)
    requires pos < p < |orig| && orig[p] == LongVowelMark
    ensures var next := Find(orig, [LongVowelMark], pos + 1);
      pos < next <= p && MatchAt(orig, [LongVowelMark], next)
  {
    FindFirst(orig, [LongVowelMark], pos + 1);
    assert orig[p..p + 1] == [LongVowelMark];
    assert MatchAt(orig, [LongVowelMark], p);
  }

  /** The loop never creates a pair of two glyphs other than `ー`: it only
      turns glyphs into `ー`. */
  lemma {:induction false} FixFromKeepsAbsent(orig: string, kata: string, pos: int, c: char, d: char)
    requires pos == -1 || MatchAt(orig, [LongVowelMark], pos)
    requires c != LongVowelMark && d != LongVowelMark && !Contains(kata, [c, d])
    ensures !Contains(FixFrom(orig, kata, pos), [c, d])
    decreases if pos <= 0 then 0 else |orig| + 1 - pos
  {
    if pos > 0 {
      var v := orig[pos - 1];
      var next := Find(orig, [LongVowelMark], pos + 1);
      var k := if v in KatakanaVowels then Replace(kata, [v, KatakanaVowels[v]], [v, LongVowelMark]) else kata;
      FixFromStep(orig, kata, pos, k, next);
      if v in KatakanaVowels {
        ReplaceKeepsAbsent(kata, v, KatakanaVowels[v], LongVowelMark, c, d);
      }
      FixFromKeepsAbsent(orig, k, next, c, d);
    }
  }

  /** Replacing `ab` by `am` turns characters into `m` only, so a pair
      without `m` that was absent stays absent. */
  lemma ReplaceKeepsAbsent(s: string, a: char, b: char, m: char, c: char, d: char)
    requires c != m && d != m && !Contains(s, [c, d])
    ensures !Contains(Replace(s, [a, b], [a, m]), [c, d])
  {
    var r := Replace(s, [a, b], [a, m]);
    ReplaceSameLength(s, [a, b], [a, m]);
    forall p | 0 <= p <= |r| ensures !MatchAt(r, [c, d], p) {
      if p + 2 <= |r| {
        assert !MatchAt(s, [c, d], p);
        assert s[p..p + 2] == [s[p], s[p + 1]];
        assert r[p..p + 2] == [r[p], r[p + 1]];
      }
    }
  }

  /** Replacing `ab` by `am` leaves the first character where it was. */
  lemma ReplaceHead(s: string, a: char, b: char, m: char)
    requires |s| > 0
    ensures |Replace(s, [a, b], [a, m])| == |s| && Replace(s, [a, b], [a, m])[0] == s[0]
  {
    ReplaceSameLength(s, [a, b], [a, m]);
  }

  /** Replacing `ab` by `am` (with `m` neither `a` nor `b`) leaves no `ab`
      behind. */
  lemma {:induction false} ReplaceRemovesPair(s: string, a: char, b: char, m: char)
    requires m != a && m != b
    ensures !Contains(Replace(s, [a, b], [a, m]), [a, b])
    decreases |s|
  {
    var pat: string := [a, b];
    var r := Replace(s, pat, [a, m]);
    if |s| < 2 {
      assert r == s;
    } else if s[..2] == pat {
      var tail := Replace(s[2..], pat, [a, m]);
      ReplaceRemovesPair(s[2..], a, b, m);
      assert r == [a, m] + tail;
      ReplacedFront(r, tail, a, b, m);
    } else {
      var tail := Replace(s[1..], pat, [a, m]);
      ReplaceRemovesPair(s[1..], a, b, m);
      ReplaceHead(s[1..], a, b, m);
      assert r == [s[0]] + tail;
      assert s[..2] == [s[0], s[1]];
      KeptFront(r, tail, s[0], a, b);
    }
  }

  /** `am` in front of a text without `ab` does not form one. */
  lemma ReplacedFront(r: string, tail: string, a: char, b: char, m: char)
    requires m != a && m != b && r == [a, m] + tail && !Contains(tail, [a, b])
    ensures !Contains(r, [a, b])
  {
    forall p | 0 <= p <= |r| ensures !MatchAt(r, [a, b], p) {
      if p + 2 <= |r| {
        assert r[p..p + 2] == [r[p], r[p + 1]];
        if p >= 2 {
          assert r[p..p + 2] == tail[p - 2..p];
          assert !MatchAt(tail, [a, b], p - 2);
        }
      }
    }
  }

  /** A character `x` in front of a text without `ab`, where `x` followed
      by the text's first character is not `ab`, does not form one. */
  lemma KeptFront(r: string, tail: string, x: char, a: char, b: char)
    requires r == [x] + tail && !Contains(tail, [a, b])
    requires |tail| > 0 ==> [x, tail[0]] != [a, b]
    ensures !Contains(r, [a, b])
  {
    forall p | 0 <= p <= |r| ensures !MatchAt(r, [a, b], p) {
      if p + 2 <= |r| {
        assert r[p..p + 2] == [r[p], r[p + 1]];
        if p >= 1 {
          assert r[p..p + 2] == tail[p - 1..p + 1];
          assert !MatchAt(tail, [a, b], p - 1);
        }
      }
    }
  }

  /** For ラーメン屋, read ラアメンヤ, the prolonged sound comes back. */
  lemma FixLongVowelsExample()
    ensures FixLongVowels("ラーメン屋", "ラアメンヤ") == "ラーメンヤ"
  {
    GroupAVowel();
    assert GroupA[8] == 'ラ';
    var o := "ラーメン屋";
    assert Find(o, [LongVowelMark], 0) == 1 by {
      assert o[0..1] == ['ラ'] != [LongVowelMark];
      assert o[1..2] == [LongVowelMark];
    }
    assert Find(o, [LongVowelMark], 2) == -1;
    assert Replace("ラアメンヤ", "ラア", "ラー") == "ラーメンヤ" by {
      assert "ラアメンヤ"[..2] == "ラア";
      assert "ラアメンヤ"[2..] == "メンヤ";
      assert Replace("メンヤ", "ラア", "ラー") == "メンヤ";
    }
  }
}

=== FILE: utils.dfy ===
/** Character classification (utils.py). */
module Utils {

  /** The iteration mark `々` (U+3005). */
  const IterationMark: char := '々'

  /** `is_kanji`: a CJK Unified Ideograph (U+4E00..U+9FFF), the iteration mark
      U+3005 or the small katakana ke U+30F6. The source asserts a single
      character; taking a `char` makes that a matter of type. */
  predicate IsKanji(c: char)
  {
    (19968 <= c as int <= 40959) || c as int == 12293 || c as int == 12534
  }

  /** No hiragana and no katakana other than `ヶ` counts as kanji, while the
      two marks do. */
  lemma KanaIsNotKanji(c: char)
    ensures '\U{3040}' <= c <= '\U{30FF}' ==> (IsKanji(c) <==> c == 'ヶ')
    ensures IsKanji(IterationMark) && IsKanji('ヶ') && !IsKanji('ー')
  {
  }

  /** `has_kanji`: scans left to right and stops at the first kanji. */
  function HasKanji(s: string): (r: bool)
    ensures r <==> exists i :: 0 <= i < |s| && IsKanji(s[i])
  {
    if |s| == 0 then false
    else if IsKanji(s[0]) then true
    else
      var rest := HasKanji(s[1..]);
      assert forall i :: 1 <= i < |s| ==> s[i] == s[1..][i - 1];
      rest
  }

  /** `all_kanji`: scans left to right and stops at the first non-kanji. */
  function AllKanji(s: string): (r: bool)
    ensures r <==> forall i :: 0 <= i < |s| ==> IsKanji(s[i])
  {
    if |s| == 0 then true
    else if !IsKanji(s[0]) then false
    else
      var rest := AllKanji(s[1..]);
      assert forall i :: 1 <= i < |s| ==> s[i] == s[1..][i - 1];
      rest
  }

  /** A non-empty all-kanji string has a kanji; the empty string has none,
      although it is vacuously all kanji. */
  lemma AllKanjiHasKanji(s: string)
    ensures |s| > 0 && AllKanji(s) ==> HasKanji(s)
    ensures AllKanji([]) && !HasKanji([])
  {
    if |s| > 0 && AllKanji(s) {
      assert IsKanji(s[0]);
    }
  }
}
